=== FILE: README.md ===
# Verified model of the document and SQL question-answering services

This project models, in Dafny, the service layer of a retrieval-augmented question-answering
application. The application has two paths.

- **Documents.** An uploaded file is cut into chunks, and the chunks are cached and indexed.
  There are two chunkers:
  - a layout-aware chunker, which merges small neighbouring chunks and reconciles their headings
    and page numbers;
  - a fixed token-window chunker with overlap, used as the fallback.

  Chunks, embeddings and metadata are cached per document by a storage backend. The chunks are
  then upserted to a vector index in batches. A question is answered by embedding it, searching
  the index, building a numbered context from the hits, and asking a chat model. The context
  builder would add a section line for chunks that carry headings, but search hits keep only the
  filename, chunk index and token count, so that line never appears in the pipeline
  (`RagService.SearchHitsHaveNoSection`).
- **Databases.** A natural-language question is turned into SQL by an agent and held for human
  approval. Approved queries are executed. Both steps go through an optional cache: SQL generation
  is always cached, results only for `SELECT` queries.

The modules follow the service files:

- `Wrappers` (`wrappers.dfy`): `Option` and `Result` (a raised exception is a `Failure` carrying its message).
- `Text` (`text.dfy`): string helpers with the Python semantics used (`[:n]`, `strip`, `split`, `join`, `str(n)`).
- `Chunks` (`chunks.dfy`): the chunk record both chunkers emit.
- `DocumentService` (`document_service.dfy`): `chunk_text` and the fallback path of `parse_and_chunk_with_context`.
- `DoclingService` (`docling_service.dfy`): the merge pass and re-indexing pass of `chunk_with_hybrid`, and the two entry points.
- `SqlService` (`sql_service.dfy`): message composition, SQL extraction from the agent stream, the `SELECT` test, the schema context, and `TextToSQLService` with its pending-query map and cache use.
- `StorageBackend` (`storage_backend.dfy`): the storage interface as functions on an abstract store, with its contract proved.
- `LocalStorage` (`local_storage.dfy`): the filesystem backend as a class whose methods are proved to follow the interface.
- `VectorService` (`vector_service.dfy`): projection of chunks to vectors, batched upsert, and reshaping of search matches.
- `RagService` (`rag_service.dfy`): context, prompt and source formatting, and the `generate_answer` pipeline.

External systems are abstract and fallible. They appear either as function parameters or as
small classes that record every call and whose answer to the n-th call is fixed in advance. This
covers:

- the tokenizer (`encode`, `decode`, `count`);
- document parsing and layout conversion (outcomes passed in);
- the SQL agent, the SQL executor and the query cache;
- the vector index, the embedding service and the chat model;
- JSON decoding and score formatting.

That representation makes statements such as "the chat model is not called" or "nothing is sent
before the length check" expressible.

## Model

| member | source | states |
|---|---|---|
| `Text.NatToStringInjective` | app/services/vector_service.py:99 | distinct chunk indices render as distinct decimal strings |
| `Text.SplitJoin` | app/services/sql_service.py:194 | joining the pieces of `content.split('```')` with the separator gives back the content |
| `DocumentService.ChunkText` | app/services/document_service.py:49-121 | the sliding-window loop returns exactly `Windows(encode(text))`, the windows of the token sequence |
| `DocumentService.StartChar` | app/services/document_service.py:94-99 | the next window's approximate start character is `NextStart` of the previous end: 0 for the first window, else `overlap * 4` characters back, never negative |
| `DocumentService.PosIsProduct` | app/services/document_service.py:115 | window k starts at token k·(chunk_size − overlap) |
| `DocumentService.WindowsContent` | app/services/document_service.py:85-112 | there are no windows iff there are no tokens; window i has index i, the decoded tokens `[Pos(i), min(Pos(i)+chunk_size, n))` as text, and their number as token count |
| `DocumentService.WindowsBoundary` | app/services/document_service.py:87-119 | every window but the last is full and ends before the last token; the last one reaches the end |
| `DocumentService.WindowsOffsets` | app/services/document_service.py:94-101 | the first window starts at character 0; each later one starts at max(0, previous end − 4·overlap); each ends at its start plus its text length |
| `DocumentService.Coverage` | app/services/document_service.py:85-119 | every token lies inside some window |
| `DocumentService.ConsecutiveWindowsOverlap` | app/services/document_service.py:115 | consecutive windows share exactly `overlap` tokens |
| `DocumentService.AddEmptyMetadata` | app/services/document_service.py:194-198 | every window gets empty headings, page numbers, doc items and captions; text, index, count and offsets are kept |
| `DocumentService.ParseAndChunkWithContext` | app/services/document_service.py:156-218 | a structured result is returned as is; after its failure the parsed text is chunked with overlap 50 and empty metadata; a parse failure propagates |
| `DoclingService.AppendAbsent` | app/services/docling_service.py:130-146 | appending absent elements keeps the accumulator as a prefix, holds exactly the elements of both, adds no duplicate, and changes nothing when all are present |
| `DoclingService.AppendAbsentInPlace` | app/services/docling_service.py:133-135 | the element-by-element loop computes `AppendAbsent` |
| `DoclingService.MergeInto` | app/services/docling_service.py:127-146 | the in-place merge of one raw chunk into the accumulator computes `Absorb` |
| `DoclingService.GroupsPartition` | app/services/docling_service.py:110-154 | every raw chunk lands in exactly one merge group, in order |
| `DoclingService.MergeSmallChunks` | app/services/docling_service.py:110-154 | the merge loop emits one merged chunk per group of `Groups(raw)` |
| `DoclingService.MergeDecision` | app/services/docling_service.py:125 | inside a group every chunk was merged because the accumulator was under `min_tokens` and the two counts fit `max_tokens`; between groups the rule refused |
| `DoclingService.MergedMembersFit` | app/services/docling_service.py:125 | in a group of two or more, each member fits the budget on its own |
| `DoclingService.OversizedStandsAlone` | app/services/docling_service.py:125-150 | a raw chunk over `max_tokens` forms a group of its own and is emitted unchanged |
| `DoclingService.MinimumTendency` | app/services/docling_service.py:125 | every output chunk but the last reached `min_tokens`, or could not take the next group's first chunk |
| `DoclingService.CeilingForMergedGroups` | app/services/docling_service.py:122-125 | a merged chunk stays within `max_tokens` provided the tokenizer is subadditive on blank-line joins |
| `DoclingService.CeilingNeedsSubadditivity` | app/services/docling_service.py:122-127 | without that assumption the rule admits a merged text over `max_tokens` (concrete counterexample) |
| `DoclingService.CombineText` | app/services/docling_service.py:127 | a merged text is its group's texts joined by blank lines |
| `DoclingService.CombineHeadings` | app/services/docling_service.py:130-135 | merged headings keep the first chunk's headings as a prefix, hold exactly the group's headings, and repeat none |
| `DoclingService.HeadingUnionExample` | app/services/docling_service.py:133-135 | headings [X] merged with [X, Y] give [X, Y] |
| `DoclingService.CombinePages` | app/services/docling_service.py:138-146 | page numbers merge only into an accumulator with an origin; then the first chunk's pages stay a prefix, exactly the group's pages are present, and none repeats when the first chunk's list repeats none |
| `DoclingService.CombineKeepsFirstCaptions` | app/services/docling_service.py:173-182 | captions and doc items of a merged chunk are those of its first raw chunk |
| `DoclingService.HeadingTexts` | app/services/docling_service.py:164-166 | only heading items that carry a text survive |
| `DoclingService.DocItemsOf` | app/services/docling_service.py:179-182 | at most three doc items are kept, each cut to 100 characters |
| `DoclingService.ToChunk` | app/services/docling_service.py:185-205 | an output record keeps its text, gets the tokenizer's count, and spans exactly its text from its start |
| `DoclingService.FinalizeChunks` | app/services/docling_service.py:159-207 | the re-indexing loop computes `Finalized(merged, 0, 0)` |
| `DoclingService.FinalizedOffsets` | app/services/docling_service.py:162-191 | indexes are dense from 0, each record starts where the previous ended, and the last ends at the total text length |
| `DoclingService.ChunkWithHybrid` | app/services/docling_service.py:58-218 | fails iff there is no raw chunk (the average at line 156 divides by zero); otherwise merge then re-index |
| `DoclingService.ChunkTextOfGroup` | app/services/docling_service.py:127-196 | output chunk i has index i and the texts of group i joined by blank lines |
| `DoclingService.ParseAndChunkDocument` | app/services/docling_service.py:221-255 | import error without the library; conversion and chunking failures are re-raised with the prefix; otherwise the hybrid chunks |
| `DoclingService.FallbackToUnstructured` | app/services/docling_service.py:258-293 | the parsed text is chunked with overlap 50 and every chunk gets empty metadata; failures are re-raised with the prefix |
| `SqlService.ComposeMessage` | app/services/sql_service.py:151-155 | an empty schema context sends the question alone; otherwise the context is followed by the question marker and the question |
| `SqlService.SelectIgnoresLeadingSpace` | app/services/sql_service.py:576 | leading white space does not change whether a query counts as `SELECT` |
| `SqlService.SelectIgnoresCase` | app/services/sql_service.py:576 | lower-casing a query does not change whether it counts as `SELECT` |
| `SqlService.ScanPiecesLast` | app/services/sql_service.py:195-197 | a scan in which every accepted piece replaces the carried value ends with the last accepted piece, or with the starting value when none is accepted |
| `SqlService.SqlFromPartsLast` | app/services/sql_service.py:189-197 | the code-block scan ends with the SQL of the last piece that starts with `sql` once stripped and lower-cased (that piece minus its first three characters, stripped); with no such piece the earlier value stands |
| `SqlService.ExtractedSql` | app/services/sql_service.py:199-202 | success carries the non-empty SQL found by the scan of the stream; otherwise the no-SQL error |
| `SqlService.ScanCodeBlocks` | app/services/sql_service.py:195-197 | the loop over code-block parts computes `SqlFromParts` |
| `SqlService.ExtractSql` | app/services/sql_service.py:160-202 | the loop over the agent stream computes `ExtractedSql` |
| `SqlService.PartsOverride` | app/services/sql_service.py:195-197 | a scan overrides the earlier value exactly when it finds SQL of its own |
| `SqlService.ComponentOverride` | app/services/sql_service.py:183-197 | a component overrides the earlier value exactly when its metadata or code blocks carry SQL |
| `SqlService.ComponentsSnoc` | app/services/sql_service.py:177-197 | the stream is scanned left to right, one component at a time |
| `SqlService.LaterComponentWins` | app/services/sql_service.py:177-197 | the last component that carries SQL decides the result |
| `SqlService.MetadataSqlExtracted` | app/services/sql_service.py:184-186 | a final component with non-empty `sql` metadata yields exactly that SQL |
| `SqlService.SilentStreamFails` | app/services/sql_service.py:199-200 | a stream with no metadata and no content fails with the no-SQL error |
| `SqlService.GenerateSqlAsync` | app/services/sql_service.py:137-158 | exactly one message, the composed one, is sent; the agent failure or the extraction outcome is returned |
| `SqlService.ExecuteSqlAsync` | app/services/sql_service.py:204-288 | the query is run once; a database error is re-raised with the execution prefix |
| `SqlService.ExampleLinesNumbered` | app/services/sql_service.py:436-438 | example k of the schema context is numbered k+1 and shows its question, then its SQL |
| `SqlService.SchemaParts` | app/services/sql_service.py:350-440 | the parts are the header, a `=` rule, the documentation, the table-schemas title, a `-` rule, one block per table in order, the example-queries title, a `-` rule and then the numbered example lines; 7 + tables + 3 × examples parts in all |
| `SqlService.SchemaContextOf` | app/services/sql_service.py:350-440 | the schema context starts with its header |
| `SqlService.TextToSqlService.constructor` | app/services/sql_service.py:297-334 | the service starts untrained, with no pending query and the shop schema |
| `SqlService.TextToSqlService.CompleteTraining` | app/services/sql_service.py:336-348 | training sets the flag and stores the schema context built from the schema |
| `SqlService.TextToSqlService.GenerateSqlForApproval` | app/services/sql_service.py:442-538 | untrained: error and no change; a raising cache lookup propagates unwrapped before the agent is asked; cache hit: the cached SQL is pending with cost saved $0.08 and the agent is not called; miss: the agent is called once, and its failure or a raising cache store is reported with the generation prefix and nothing is pending; otherwise the SQL is cached (when enabled) and pending with $0.00; only the new query id is added |
| `SqlService.TextToSqlService.ExecuteApprovedQuery` | app/services/sql_service.py:540-635 | an unknown id is not found; rejection removes the query; for an approved `SELECT` a raising result-cache lookup propagates and keeps the query; a result-cache hit is answered without execution; otherwise the SQL is executed once, a `SELECT` result is cached and the query removed; an execution failure or a raising cache store is reported as an error and keeps the query pending |
| `SqlService.TextToSqlService.ExecuteApproved` | app/services/sql_service.py:573-635 | the approved branch: cache lookup, cache hit, or execution, with the same outcomes as above for a pending query |
| `SqlService.TextToSqlService.ExecuteAndStore` | app/services/sql_service.py:600-635 | the statement runs once; its failure or a raising cache store keeps the query pending with the error; success caches a `SELECT` result when the cache is on and removes the query |
| `SqlService.TextToSqlService.StoreRows` | app/services/sql_service.py:604-614 | only a `SELECT` with the cache on is stored, under its result key with the row count and timestamp; a raising store reports its error and stores nothing |
| `SqlService.TextToSqlService.GetPendingQueries` | app/services/sql_service.py:637-650 | one entry per pending query, each once, with its stored information, every one still awaiting approval |
| `StorageBackend.LoadChunks` | app/services/storage_backend.py:106-121 | chunks load iff they were saved; otherwise a not-found error naming the file |
| `StorageBackend.LoadEmbeddings` | app/services/storage_backend.py:123-138 | embeddings load iff they were saved; otherwise a not-found error naming the file |
| `StorageBackend.LoadMetadata` | app/services/storage_backend.py:140-155 | metadata loads iff it was saved; otherwise a not-found error naming the file |
| `StorageBackend.Delete` | app/services/storage_backend.py:157-170 | the document disappears and every other document is untouched |
| `StorageBackend.TotalFilesRemove` | app/services/local_storage.py:277-292 | the file total does not depend on the order in which folders are counted |
| `StorageBackend.LoadAfterSave` | tests/test_storage_backends.py:76-122 | each load returns exactly what was last saved |
| `StorageBackend.SaveChunksFrame` | app/services/local_storage.py:106-122 | saving chunks changes no other artifact and no other document |
| `StorageBackend.SaveEmbeddingsFrame` | app/services/local_storage.py:124-139 | saving embeddings changes no other artifact and no other document |
| `StorageBackend.SaveMetadataFrame` | app/services/local_storage.py:141-157 | saving metadata changes no other artifact and no other document |
| `StorageBackend.SaveDocumentFrame` | app/services/local_storage.py:89-104 | saving the original changes no artifact and not `exists` |
| `StorageBackend.ExistsIffAllLoad` | app/services/local_storage.py:74-80 | `exists` holds iff chunks, embeddings and metadata all load |
| `StorageBackend.AllOrNothing` | tests/test_storage_backends.py:139-164 | chunks alone, or chunks and embeddings, do not make a document exist; all three do |
| `StorageBackend.DeleteRemovesAll` | tests/test_storage_backends.py:166-184 | after delete nothing loads and `exists` is false; deleting an absent document changes nothing |
| `StorageBackend.StatsAfterThreeSaves` | tests/test_storage_backends.py:205-220 | one document with three saved artifacts gives one document and three files |
| `StorageBackend.SavedShapesFit` | app/services/storage_backend.py:76-89 | embeddings saved with one 1536-wide row per chunk load back fitting the loaded chunks |
| `LocalStorage.LocalStorageBackend.Exists` | app/services/local_storage.py:57-87 | the method answers `StorageBackend.Exists`; the extension is ignored |
| `LocalStorage.LocalStorageBackend.SaveDocument` | app/services/local_storage.py:89-104 | the folder map moves as `StorageBackend.SaveDocument` says |
| `LocalStorage.LocalStorageBackend.SaveChunks` | app/services/local_storage.py:106-122 | the folder map moves as `StorageBackend.SaveChunks` says |
| `LocalStorage.LocalStorageBackend.SaveEmbeddings` | app/services/local_storage.py:124-139 | the folder map moves as `StorageBackend.SaveEmbeddings` says |
| `LocalStorage.LocalStorageBackend.SaveMetadata` | app/services/local_storage.py:141-157 | the folder map moves as `StorageBackend.SaveMetadata` says |
| `LocalStorage.LocalStorageBackend.LoadChunks` | app/services/local_storage.py:159-182 | the method answers `StorageBackend.LoadChunks` |
| `LocalStorage.LocalStorageBackend.LoadEmbeddings` | app/services/local_storage.py:184-205 | the method answers `StorageBackend.LoadEmbeddings` |
| `LocalStorage.LocalStorageBackend.LoadMetadata` | app/services/local_storage.py:207-230 | the method answers `StorageBackend.LoadMetadata` |
| `LocalStorage.LocalStorageBackend.Delete` | app/services/local_storage.py:232-248 | the folder map moves as `StorageBackend.Delete` says; an absent document is a no-op |
| `LocalStorage.LocalStorageBackend.ListDocuments` | app/services/local_storage.py:250-264 | every folder is listed exactly once, including partially saved documents |
| `LocalStorage.LocalStorageBackend.GetStats` | app/services/local_storage.py:266-295 | the counting loop reports one document per folder and every file inside them |
| `LocalStorage.CountOneFolder` | app/services/local_storage.py:277-292 | counting one folder's files and then the rest gives the total |
| `VectorService.VectorId` | app/services/vector_service.py:99 | the id starts with the filename followed by `_` |
| `VectorService.VectorIdInjective` | app/services/vector_service.py:99 | an id determines its filename and its chunk index |
| `VectorService.DistinctIndicesDistinctIds` | app/services/vector_service.py:97-117 | chunks with distinct indices get distinct vector ids |
| `VectorService.ToVector` | app/services/vector_service.py:99-117 | the vector carries its id and embedding; the metadata text is exactly the first min(n, 1000) characters of the chunk text; token count is kept; start and end default to 0, headings and page numbers to empty lists; `has_context` holds iff headings are non-empty |
| `VectorService.PrepareVectors` | app/services/vector_service.py:94-117 | the projection loop yields one vector per chunk, in order |
| `VectorService.BatchSizes` | app/services/vector_service.py:120-122 | there are ⌈n/100⌉ batches; none is empty or over 100; all but the last hold exactly 100 |
| `VectorService.FlattenBatches` | app/services/vector_service.py:120-126 | the batches concatenate to the full vector list |
| `VectorService.UpsertOutcomeFirstError` | app/services/vector_service.py:121-131 | a batch run succeeds iff no upsert call fails; a failed run stops at its first failing call and reports that error |
| `VectorService.UpsertOutcomeSkip` | app/services/vector_service.py:121-126 | batches that went through do not change where the run stops |
| `VectorService.VectorStore.AddDocuments` | app/services/vector_service.py:68-131 | a length mismatch fails before anything is sent; otherwise the batches go, in order and to one namespace, until one fails, and that failure is reported with the prefix |
| `VectorService.VectorStore.SendBatches` | app/services/vector_service.py:119-131 | the batch loop issues exactly the calls of `UpsertOutcome` |
| `VectorService.Shaped` | app/services/vector_service.py:169-185 | one hit per match, in order, with the match's id and score; `total_found` is the hit count; the preview is exactly the first min(n, 5) dimensions of the query |
| `VectorService.SearchRecoversStoredChunk` | app/services/vector_service.py:103-179 | a stored chunk comes back under its id with its filename, index, token count and stored text prefix |
| `VectorService.VectorStore.Search` | app/services/vector_service.py:133-189 | one query with metadata included; the reshaped matches, or the failure with the prefix |
| `RagService.SectionIffHeadings` | app/services/rag_service.py:145-156 | a context part has a section line exactly when the chunk's parsed headings are non-empty |
| `RagService.ContextPartShape` | app/services/rag_service.py:141-156 | a part is the source line, then the section line when there are headings, then the text; missing keys read as `Unknown`, 0.0 and `''` |
| `RagService.UndecodableHeadingsIgnored` | app/services/rag_service.py:145-149 | headings text that does not decode reads as no headings |
| `RagService.SearchHitsHaveNoSection` | app/services/vector_service.py:172-179 | a chunk that comes straight from a search carries no headings, so its part never has a section line |
| `RagService.ContextSnoc` | app/services/rag_service.py:139-160 | one more chunk adds one part, numbered after the others, behind a newline |
| `RagService.BuildContext` | app/services/rag_service.py:126-160 | the loop builds the parts numbered from 1 in order and joins them with newlines |
| `RagService.CreatePrompt` | app/services/rag_service.py:162-183 | the prompt is the fixed instructions, then the context, then the question marker, the question and the answer cue |
| `RagService.SourceOf` | app/services/rag_service.py:197-203 | the preview is exactly the first min(n, 200) characters of the text followed by `...`; a missing filename becomes `Unknown` |
| `RagService.FormatSources` | app/services/rag_service.py:185-205 | one source per chunk, in order |
| `RagService.NoInformation` | app/services/rag_service.py:74-81 | the canned answer uses no chunk and has an empty source list |
| `RagService.RequestFor` | app/services/rag_service.py:91-106 | the request names the model, temperature 0.1 and 1000 max tokens, with exactly two messages: the system instruction first and the prompt as the user message |
| `RagService.Pipeline.GenerateAnswer` | app/services/rag_service.py:37-124 | the question is embedded once and searched once; no hit gives the canned answer without calling the model; otherwise the model is asked once with the context prompt; `chunks_used` is the hit count and sources appear only on request; every failure carries the pipeline prefix |

## Left out

- Tokenizer internals, the layout converter and the layout chunker are foreign libraries. They
  appear as the abstract `encode`/`decode`/`count` functions and as the list of raw chunks.
- Document parsing with Unstructured and `get_document_stats` are file I/O. Parsing is an outcome
  passed in.
- `DocumentService.ChunkText`: requires `0 <= overlap < chunk_size`. With a larger overlap and text
  longer than one window, the source loop does not terminate.
- `DoclingService.ChunkWithHybrid`: every raw chunk is assumed to carry `meta`. The source's
  `hasattr` guards on `meta` are modelled only for the origin and the page numbers.
- `DoclingService.CeilingForMergedGroups`: the token ceiling is proved only for tokenizers that are
  subadditive on blank-line joins. The merge rule checks only the sum of the two counts, and
  `CeilingNeedsSubadditivity` shows a tokenizer for which the ceiling fails.
- The raw chunk objects are mutated in place and may be aliased by the layout chunker. The model
  works on values, so aliasing between raw chunks is not captured.
- The SQL agent setup, the payload patch, agent memory, database connection, DNS rewriting and
  row extraction are network or foreign calls. The agent and the executor are abstract, fallible
  objects.
- The query cache service is not shown. It is a keyed store with an `enabled` flag whose `get`
  and `set` may raise; which call raises, and with what message, is fixed in advance. A cache
  that never raises (the fallback the generation docstring describes for an unavailable store) is
  the case where no call fails. TTLs are stored but expiry is not modelled. Timestamps and query
  ids are parameters.
- The constructor's credential checks and the training log are configuration.
- `SqlService.SqlFromParts`: `part[3:]` is taken from the unstripped part, as the source does. A
  part with leading white space therefore loses characters other than `sql`.
- `SqlService.TextToSqlService.ExecuteApprovedQuery`: a result-cache entry without
  `result_count` raises a key error after the pending query was removed. This is modelled as the
  `Raised` resolution.
- `SqlService.TextToSqlService.GetPendingQueries`: dictionary insertion order is not modelled, so
  the order of the returned list is unspecified.
- Case mapping covers ASCII letters only.
- The storage interface's `exists` documentation asks for four files, while the implementation
  checks three (no original document). The model follows the implementation.
- JSON and numpy serialisation, `shutil` and `mkdir` are left out. Artifacts are abstract values in
  a map.
- `total_size_mb` of the statistics is not modelled (file sizes are not represented).
- `LocalStorage.LocalStorageBackend.GetStats`: counts each folder's files with `FileCount`, not
  with a per-file inner loop.
- The S3 backend is not part of this model.
- The Pinecone client connection, index creation, `get_index_stats` and `delete_by_filename` are
  network calls. The index is an abstract object whose upsert and query outcomes are fixed per
  call.
- `VectorService.ToVector`: headings and page numbers are stored as lists. Their `json.dumps`
  encoding is not modelled.
- A chunk dictionary without `text`, `chunk_index` or `token_count` raises a key error in
  `add_documents`. The model's chunk record always has these fields.
- Embedding values and scores are opaque reals. Score formatting with three decimals is the
  abstract `format` function, and JSON decoding of headings is the abstract `parse` function.
- `RagService.Headings`: JSON that decodes to something other than a list of strings is treated as
  a decode failure.
- `get_similar_chunks` in the answer service is a debugging helper and is not modelled.
- `async`/`await` interleaving is not modelled. Every call is one atomic step.

=== FILE: chunks.dfy ===
/** The chunk record that both chunkers emit and that storage and the vector index consume. */
module Chunks {

  /**
   * One retrievable span of a document: its text, dense position, token count, approximate
   * character offsets, and the structural context (empty for the fixed-window chunker).
   */
  datatype Chunk = Chunk(
    text: string,
    chunkIndex: nat,
    tokenCount: nat,
    startChar: int,
    endChar: int,
    headings: seq<string>,
    pageNumbers: seq<int>,
    docItems: seq<string>,
    captions: seq<string>)

  /** No element occurs twice. */
  predicate NoDuplicates<T(==)>(s: seq<T>) {
    forall i, j :: 0 <= i < j < |s| ==> s[i] != s[j]
  }
}

=== FILE: docling_service.dfy ===
/**
 * The structure-aware chunker's post-processing (`chunk_with_hybrid`): a greedy, single forward
 * pass that merges consecutive undersized raw chunks of the layout chunker while the token
 * budget allows, reconciling their heading and page-number metadata, followed by a pass that
 * numbers the merged chunks and assigns running character offsets.
 *
 * The tokenizer is the parameter `count` (the number of tokens of a text); the layout parser and
 * the chunker that produce the raw chunks are outside the model.
 */
module DoclingService {
  import opened Wrappers
  import opened Text
  import opened Chunks
  import DocumentService

  /** A heading reference of the layout chunker; only items that carry a text are kept in the output. */
  datatype HeadingItem = HeadingItem(text: Option<string>)

  /** Provenance of a raw chunk; `pageNumbers` is None when the attribute is absent or None. */
  datatype Origin = Origin(pageNumbers: Option<seq<int>>)

  datatype ChunkMeta = ChunkMeta(
    headings: seq<HeadingItem>,
    origin: Option<Origin>,
    captions: seq<string>,
    docItems: seq<string>)

  /** One chunk as the layout chunker yields it. */
  datatype RawChunk = RawChunk(text: string, meta: ChunkMeta)

  /** The error `chunk_with_hybrid` re-raises when there is no raw chunk to average over. */
  const HybridFailure: string := "Failed to chunk document with HybridChunker: division by zero"

  /** The paragraph separator placed between merged texts. */
  const ParagraphSeparator: string := "\n\n"

  // ---------------------------------------------------------------------------------------
  // Metadata reconciliation
  // ---------------------------------------------------------------------------------------

  /**
   * Appends each element of `xs`, in order, unless it is already present (the accumulator grows,
   * so duplicates inside `xs` are dropped too). This is the loop used for headings and for page numbers.
   */
  function AppendAbsent<T(==,!new)>(acc: seq<T>, xs: seq<T>): (r: seq<T>)
    ensures |acc| <= |r| && r[..|acc|] == acc
    ensures forall x :: x in r <==> x in acc || x in xs
    ensures NoDuplicates(acc) ==> NoDuplicates(r)
    ensures (forall x :: x in xs ==> x in acc) ==> r == acc
    decreases |xs|
  {
    if xs == [] then acc
    else
      var next := if xs[0] in acc then acc else acc + [xs[0]];
      assert next[..|acc|] == acc;
      AppendAbsent(next, xs[1..])
  }

  /** The loop of the source that appends absent elements one at a time. */
  method AppendAbsentInPlace<T(==,!new)>(acc: seq<T>, xs: seq<T>) returns (r: seq<T>)
    ensures r == AppendAbsent(acc, xs)
  {
    r := acc;
    var i := 0;
    while i < |xs|
      invariant 0 <= i <= |xs|
      invariant AppendAbsent(r, xs[i..]) == AppendAbsent(acc, xs)
    {
      assert xs[i..][1..] == xs[i + 1..];
      if xs[i] !in r {
        r := r + [xs[i]];
      }
      i := i + 1;
    }
  }

  /**
   * Page numbers of an incoming chunk are appended only when it has a non-empty page list and the
   * accumulator has an origin; a missing accumulator list is replaced by an empty one first.
   */
  function MergeOrigin(acc: Option<Origin>, incoming: Option<Origin>): Option<Origin> {
    match incoming
    case Some(Origin(Some(pns))) =>
      if pns != [] && acc.Some? then Some(Origin(Some(AppendAbsent(acc.value.pageNumbers.GetOr([]), pns))))
      else acc
    case _ => acc
  }

  /**
   * The accumulator after absorbing `c`: texts joined by a blank line, headings and page numbers
   * reconciled; the accumulator's own captions and document items are kept.
   */
  function Absorb(acc: RawChunk, c: RawChunk): RawChunk {
    RawChunk(
      acc.text + ParagraphSeparator + c.text,
      acc.meta.(
        headings := if c.meta.headings != [] then AppendAbsent(acc.meta.headings, c.meta.headings) else acc.meta.headings,
        origin := MergeOrigin(acc.meta.origin, c.meta.origin)))
  }

  /** The in-place update of the accumulator when the next raw chunk is merged into it. */
  method MergeInto(acc: RawChunk, c: RawChunk) returns (r: RawChunk)
    ensures r == Absorb(acc, c)
  {
    var text := acc.text + ParagraphSeparator + c.text;
    var headings := acc.meta.headings;
    if c.meta.headings != [] {
      headings := AppendAbsentInPlace(headings, c.meta.headings);
    }
    var origin := acc.meta.origin;
    if c.meta.origin.Some? && c.meta.origin.value.pageNumbers.Some? && c.meta.origin.value.pageNumbers.value != [] {
      if origin.Some? {
        var pns := AppendAbsentInPlace(origin.value.pageNumbers.GetOr([]), c.meta.origin.value.pageNumbers.value);
        origin := Some(Origin(Some(pns)));
      }
    }
    r := RawChunk(text, acc.meta.(headings := headings, origin := origin));
  }

  // ---------------------------------------------------------------------------------------
  // The merge decision and the grouping it induces
  // ---------------------------------------------------------------------------------------

  /** The merge rule: the accumulator is undersized and the two token counts fit the budget. */
  predicate ShouldMerge(count: string -> nat, acc: RawChunk, next: RawChunk, maxTokens: int, minTokens: int) {
    count(acc.text) < minTokens && count(acc.text) + count(next.text) <= maxTokens
  }

  /** A group of consecutive raw chunks folded into one accumulator, left to right. */
  function Combine(g: seq<RawChunk>): RawChunk
    requires g != []
    decreases |g|
  {
    if |g| == 1 then g[0] else Absorb(Combine(g[..|g| - 1]), g[|g| - 1])
  }

  predicate NonEmptyGroups(gs: seq<seq<RawChunk>>) {
    forall i :: 0 <= i < |gs| ==> gs[i] != []
  }

  /** One step of the greedy pass: the next chunk joins the last group when the rule allows, else opens a new one. */
  function Step(gs: seq<seq<RawChunk>>, c: RawChunk, count: string -> nat, maxTokens: int, minTokens: int): (r: seq<seq<RawChunk>>)
    requires NonEmptyGroups(gs)
    ensures NonEmptyGroups(r) && |r| >= 1
  {
    if gs == [] then [[c]]
    else if ShouldMerge(count, Combine(gs[|gs| - 1]), c, maxTokens, minTokens) then gs[..|gs| - 1] + [gs[|gs| - 1] + [c]]
    else gs + [[c]]
  }

  /**
   * The groups of consecutive raw chunks that the greedy pass merges: one group per output chunk,
   * none of them empty.
   */
  function Groups(raw: seq<RawChunk>, count: string -> nat, maxTokens: int, minTokens: int): (gs: seq<seq<RawChunk>>)
    ensures (raw == []) == (gs == [])
    ensures NonEmptyGroups(gs)
    decreases |raw|
  {
    if raw == [] then [] else Step(Groups(raw[..|raw| - 1], count, maxTokens, minTokens), raw[|raw| - 1], count, maxTokens, minTokens)
  }

  /** One step of the greedy pass appends its chunk to the concatenation of the groups. */
  lemma StepFlatten(gs: seq<seq<RawChunk>>, c: RawChunk, count: string -> nat, maxTokens: int, minTokens: int)
    requires NonEmptyGroups(gs)
    ensures Flatten(Step(gs, c, count, maxTokens, minTokens)) == Flatten(gs) + [c]
  {
    var r := Step(gs, c, count, maxTokens, minTokens);
    if gs == [] {
      assert r[..0] == [];
    } else if ShouldMerge(count, Combine(gs[|gs| - 1]), c, maxTokens, minTokens) {
      var init := gs[..|gs| - 1];
      assert r[..|r| - 1] == init;
      assert Flatten(gs) == Flatten(init) + gs[|gs| - 1];
      assert Flatten(r) == Flatten(init) + (gs[|gs| - 1] + [c]);
    } else {
      assert r[..|r| - 1] == gs;
    }
  }

  /** Every raw chunk lands in exactly one group, in order. */
  lemma {:induction false} GroupsPartition(raw: seq<RawChunk>, count: string -> nat, maxTokens: int, minTokens: int)
    ensures Flatten(Groups(raw, count, maxTokens, minTokens)) == raw
    decreases |raw|
  {
    if raw != [] {
      var p, c := raw[..|raw| - 1], raw[|raw| - 1];
      GroupsPartition(p, count, maxTokens, minTokens);
      StepFlatten(Groups(p, count, maxTokens, minTokens), c, count, maxTokens, minTokens);
      assert raw == p + [c];
    }
  }

  /** The merged chunks of a grouping, one per group. */
  function CombineAll(gs: seq<seq<RawChunk>>): (r: seq<RawChunk>)
    requires NonEmptyGroups(gs)
    ensures |r| == |gs| && forall i :: 0 <= i < |gs| ==> r[i] == Combine(gs[i])
  {
    seq(|gs|, i requires 0 <= i < |gs| => Combine(gs[i]))
  }

  /** How one step of the greedy pass changes the merged chunks: the last one absorbs, or a new one starts. */
  lemma StepCombined(gs: seq<seq<RawChunk>>, c: RawChunk, count: string -> nat, maxTokens: int, minTokens: int)
    requires NonEmptyGroups(gs) && gs != []
    ensures var last := Combine(gs[|gs| - 1]);
      CombineAll(Step(gs, c, count, maxTokens, minTokens)) ==
        if ShouldMerge(count, last, c, maxTokens, minTokens) then CombineAll(gs)[..|gs| - 1] + [Absorb(last, c)]
        else CombineAll(gs) + [c]
  {
    var g := gs[|gs| - 1] + [c];
    assert g[..|g| - 1] == gs[|gs| - 1];
  }

  /**
   * The merge loop (lines 110-154): one forward pass with an accumulator, which is emitted when
   * the next raw chunk may not be merged into it. The result has one merged chunk per group.
   */
  method MergeSmallChunks(raw: seq<RawChunk>, count: string -> nat, maxTokens: int, minTokens: int)
    returns (merged: seq<RawChunk>)
    ensures merged == CombineAll(Groups(raw, count, maxTokens, minTokens))
  {
    merged := [];
    var current: Option<RawChunk> := None;
    var i := 0;
    while i < |raw|
      invariant 0 <= i <= |raw|
      invariant current.None? <==> i == 0
      invariant current.None? ==> merged == []
      invariant current.Some? ==> merged + [current.value] == CombineAll(Groups(raw[..i], count, maxTokens, minTokens))
    {
      var chunk := raw[i];
      ghost var gs := Groups(raw[..i], count, maxTokens, minTokens);
      assert raw[..i + 1][..i] == raw[..i];
      assert Groups(raw[..i + 1], count, maxTokens, minTokens) == Step(gs, chunk, count, maxTokens, minTokens);
      if current.None? {
        current := Some(chunk);
      } else {
        var cur := current.value;
        StepCombined(gs, chunk, count, maxTokens, minTokens);
        assert CombineAll(gs)[..|gs| - 1] == merged;
        var currentTokens := count(cur.text);
        var combinedTokens := currentTokens + count(chunk.text);
        if currentTokens < minTokens && combinedTokens <= maxTokens {
          var absorbed := MergeInto(cur, chunk);
          current := Some(absorbed);
        } else {
          merged := merged + [cur];
          current := Some(chunk);
        }
      }
      i := i + 1;
    }
    assert raw[..|raw|] == raw;
    if current.Some? {
      merged := merged + [current.value];
    }
  }

  // ---------------------------------------------------------------------------------------
  // Re-indexing into output records
  // ---------------------------------------------------------------------------------------

  /** Line 166: only heading items that have a text survive. */
  function HeadingTexts(hs: seq<HeadingItem>): (r: seq<string>)
    ensures |r| <= |hs|
    ensures forall t :: t in r <==> HeadingItem(Some(t)) in hs
    decreases |hs|
  {
    if hs == [] then []
    else
      assert hs == [hs[0]] + hs[1..];
      (if hs[0].text.Some? then [hs[0].text.value] else []) + HeadingTexts(hs[1..])
  }

  /** Lines 169-171: the page list of the origin, or empty. */
  function PageNumbersOf(origin: Option<Origin>): seq<int> {
    match origin
    case Some(Origin(Some(pns))) => pns
    case _ => []
  }

  /** Lines 179-182: at most the first three items, each cut to 100 characters. */
  function DocItemsOf(items: seq<string>): (r: seq<string>)
    ensures |r| == if |items| < 3 then |items| else 3
    ensures forall i :: 0 <= i < |r| ==> |r[i]| <= 100 && r[i] == Take(items[i], 100)
  {
    var n := if |items| < 3 then |items| else 3;
    seq(n, i requires 0 <= i < n => Take(items[i], 100))
  }

  /** The output record of a merged chunk at position `index` starting at character `start`. */
  function ToChunk(c: RawChunk, index: nat, start: int, count: string -> nat): (r: Chunk)
    ensures r.text == c.text && r.chunkIndex == index && r.tokenCount == count(c.text)
    ensures r.startChar == start && r.endChar == start + |c.text|
  {
    Chunk(
      c.text, index, count(c.text), start, start + |c.text|,
      HeadingTexts(c.meta.headings), PageNumbersOf(c.meta.origin), DocItemsOf(c.meta.docItems), c.meta.captions)
  }

  /** Total number of characters of the texts. */
  function TotalLength(cs: seq<RawChunk>): nat
    decreases |cs|
  {
    if cs == [] then 0 else |cs[0].text| + TotalLength(cs[1..])
  }

  /**
   * The output of the re-indexing pass for the merged chunks `ms`, the first of which gets
   * position `index` and starts at character `start`.
   */
  function Finalized(ms: seq<RawChunk>, index: nat, start: int, count: string -> nat): (r: seq<Chunk>)
    ensures |r| == |ms|
    decreases |ms|
  {
    if ms == [] then []
    else [ToChunk(ms[0], index, start, count)] + Finalized(ms[1..], index + 1, start + |ms[0].text|, count)
  }

  /**
   * The re-indexing pass (lines 159-207): dense indexes from 0, the tokenizer's count, and a running
   * character position.
   */
  method FinalizeChunks(merged: seq<RawChunk>, count: string -> nat) returns (result: seq<Chunk>)
    ensures result == Finalized(merged, 0, 0, count)
  {
    result := [];
    var charPosition := 0;
    var idx := 0;
    while idx < |merged|
      invariant 0 <= idx <= |merged|
      invariant result + Finalized(merged[idx..], idx, charPosition, count) == Finalized(merged, 0, 0, count)
    {
      var chunk := merged[idx];
      var startChar := charPosition;
      var endChar := startChar + |chunk.text|;
      charPosition := endChar;
      assert merged[idx..][1..] == merged[idx + 1..];
      result := result + [ToChunk(chunk, idx, startChar, count)];
      idx := idx + 1;
    }
  }

  /**
   * The offsets the re-indexing pass assigns: positions are dense from `index`, each record carries
   * its text and the tokenizer's count of it, the first starts at `start`, each spans exactly its
   * text, each starts where the previous one ended, and the last ends `TotalLength` after `start`.
   */
  lemma {:induction false} FinalizedOffsets(ms: seq<RawChunk>, index: nat, start: int, count: string -> nat)
    ensures var r := Finalized(ms, index, start, count);
      && (forall i :: 0 <= i < |r| ==>
            r[i].chunkIndex == index + i && r[i].text == ms[i].text && r[i].tokenCount == count(r[i].text)
            && r[i].endChar - r[i].startChar == |r[i].text|)
      && (|r| > 0 ==> r[0].startChar == start && r[|r| - 1].endChar == start + TotalLength(ms))
      && (forall i :: 0 <= i < |r| - 1 ==> r[i + 1].startChar == r[i].endChar)
    decreases |ms|
  {
    if ms != [] {
      var next := start + |ms[0].text|;
      FinalizedOffsets(ms[1..], index + 1, next, count);
      var r := Finalized(ms, index, start, count);
      var rest := Finalized(ms[1..], index + 1, next, count);
      assert r == [ToChunk(ms[0], index, start, count)] + rest;
      forall i | 0 < i < |r|
        ensures r[i] == rest[i - 1] && ms[i] == ms[1..][i - 1]
      {
      }
      if |rest| > 0 {
        assert r[1].startChar == next;
      }
    }
  }

  /**
   * `chunk_with_hybrid` after the layout chunker: merge, then re-index. An empty raw-chunk list
   * fails, because the average logged at line 156 divides by the number of merged chunks and the
   * error is wrapped and re-raised (lines 216-218).
   */
  method ChunkWithHybrid(raw: seq<RawChunk>, count: string -> nat, maxTokens: int, minTokens: int)
    returns (r: Result<seq<Chunk>>)
    ensures r.Failure? <==> raw == []
    ensures r.Failure? ==> r.error == HybridFailure
    ensures r.Success? ==> r.value == Finalized(CombineAll(Groups(raw, count, maxTokens, minTokens)), 0, 0, count)
  {
    var merged := MergeSmallChunks(raw, count, maxTokens, minTokens);
    if |merged| == 0 {
      return Failure(HybridFailure);
    }
    var result := FinalizeChunks(merged, count);
    r := Success(result);
  }

  /** The output chunk `i` of a successful run carries its group's texts joined by blank lines. */
  lemma ChunkTextOfGroup(raw: seq<RawChunk>, count: string -> nat, maxTokens: int, minTokens: int, i: nat)
    requires i < |Groups(raw, count, maxTokens, minTokens)|
    ensures var gs := Groups(raw, count, maxTokens, minTokens);
      var out := Finalized(CombineAll(gs), 0, 0, count);
      out[i].text == Join(ParagraphSeparator, Texts(gs[i])) && out[i].chunkIndex == i
  {
    var gs := Groups(raw, count, maxTokens, minTokens);
    CombineText(gs[i]);
    FinalizedOffsets(CombineAll(gs), 0, 0, count);
  }

  /**
   * `parse_and_chunk_document` (lines 221-255): without the layout library it raises an import error;
   * otherwise the converted raw chunks go through `chunk_with_hybrid`, and any failure of conversion
   * or chunking is re-raised with a prefix.
   */
  method ParseAndChunkDocument(available: bool, converted: Result<seq<RawChunk>>, count: string -> nat,
                               chunkSize: int, minChunkSize: int)
    returns (r: Result<seq<Chunk>>)
    ensures !available ==> r == Failure("Docling is required for context-aware chunking. Run: pip install docling docling-core")
    ensures available && converted.Failure? ==> r == Failure("Failed to process document with Docling: " + converted.error)
    ensures available && converted.Success? && converted.value == [] ==>
      r == Failure("Failed to process document with Docling: " + HybridFailure)
    ensures available && converted.Success? && converted.value != [] ==>
      r == Success(Finalized(CombineAll(Groups(converted.value, count, chunkSize, minChunkSize)), 0, 0, count))
  {
    if !available {
      return Failure("Docling is required for context-aware chunking. Run: pip install docling docling-core");
    }
    if converted.Failure? {
      return Failure("Failed to process document with Docling: " + converted.error);
    }
    var chunks := ChunkWithHybrid(converted.value, count, chunkSize, minChunkSize);
    if chunks.Failure? {
      return Failure("Failed to process document with Docling: " + chunks.error);
    }
    r := chunks;
  }

  /**
   * `fallback_to_unstructured` (lines 258-293): the parsed text chunked by the fixed-window chunker
   * with overlap 50, every chunk with empty structural metadata; a failure is re-raised with a prefix.
   */
  method FallbackToUnstructured(parsed: Result<string>, chunkSize: int,
                                encode: string -> seq<DocumentService.Token>, decode: seq<DocumentService.Token> -> string)
    returns (r: Result<seq<Chunk>>)
    requires parsed.Success? ==> DocumentService.FallbackOverlap < chunkSize
    ensures parsed.Failure? ==> r == Failure("Both Docling and Unstructured failed: " + parsed.error)
    ensures parsed.Success? ==>
      var ws := DocumentService.Windows(encode(parsed.value), chunkSize, DocumentService.FallbackOverlap, decode);
      && r.Success? && |r.value| == |ws|
      && forall i :: 0 <= i < |ws| ==>
        && r.value[i].headings == [] && r.value[i].pageNumbers == [] && r.value[i].docItems == [] && r.value[i].captions == []
        && r.value[i] == DocumentService.WithEmptyMetadata(ws[i])
  {
    if parsed.Failure? {
      return Failure("Both Docling and Unstructured failed: " + parsed.error);
    }
    var windows := DocumentService.ChunkText(parsed.value, chunkSize, DocumentService.FallbackOverlap, encode, decode);
    var chunks := DocumentService.AddEmptyMetadata(windows);
    r := Success(chunks);
  }

  // ---------------------------------------------------------------------------------------
  // Properties of the merge
  // ---------------------------------------------------------------------------------------

  function Texts(g: seq<RawChunk>): (r: seq<string>)
    ensures |r| == |g| && forall i :: 0 <= i < |g| ==> r[i] == g[i].text
  {
    seq(|g|, i requires 0 <= i < |g| => g[i].text)
  }

  /** A merged text is the texts of its group joined by blank lines. */
  lemma {:induction false} CombineText(g: seq<RawChunk>)
    requires g != []
    ensures Combine(g).text == Join(ParagraphSeparator, Texts(g))
    decreases |g|
  {
    if |g| > 1 {
      var p := g[..|g| - 1];
      CombineText(p);
      assert Texts(g) == Texts(p) + [g[|g| - 1].text];
      JoinSnoc(ParagraphSeparator, Texts(p), g[|g| - 1].text);
    }
  }

  /** Inside every group, each chunk was merged because the rule allowed it. */
  predicate MergedInside(gs: seq<seq<RawChunk>>, count: string -> nat, maxTokens: int, minTokens: int)
    requires NonEmptyGroups(gs)
  {
    forall i, k :: 0 <= i < |gs| && 0 < k < |gs[i]| ==>
      ShouldMerge(count, Combine(gs[i][..k]), gs[i][k], maxTokens, minTokens)
  }

  /** Between consecutive groups, the rule refused the merge. */
  predicate SplitBetween(gs: seq<seq<RawChunk>>, count: string -> nat, maxTokens: int, minTokens: int)
    requires NonEmptyGroups(gs)
  {
    forall i :: 0 <= i < |gs| - 1 ==> !ShouldMerge(count, Combine(gs[i]), gs[i + 1][0], maxTokens, minTokens)
  }

  /** Every chunk of the group after the first was merged into the chunks before it. */
  predicate GroupMerged(g: seq<RawChunk>, count: string -> nat, maxTokens: int, minTokens: int) {
    forall k :: 0 < k < |g| ==> ShouldMerge(count, Combine(g[..k]), g[k], maxTokens, minTokens)
  }

  lemma MergedInsideParts(gs: seq<seq<RawChunk>>, count: string -> nat, maxTokens: int, minTokens: int)
    requires NonEmptyGroups(gs) && gs != [] && MergedInside(gs, count, maxTokens, minTokens)
    ensures NonEmptyGroups(gs[..|gs| - 1]) && MergedInside(gs[..|gs| - 1], count, maxTokens, minTokens)
    ensures GroupMerged(gs[|gs| - 1], count, maxTokens, minTokens)
  {
    var init := gs[..|gs| - 1];
    forall i, k | 0 <= i < |init| && 0 < k < |init[i]|
      ensures ShouldMerge(count, Combine(init[i][..k]), init[i][k], maxTokens, minTokens)
    {
      assert init[i] == gs[i];
    }
  }

  lemma MergedInsideAppend(gs: seq<seq<RawChunk>>, g: seq<RawChunk>, count: string -> nat, maxTokens: int, minTokens: int)
    requires NonEmptyGroups(gs) && g != []
    requires MergedInside(gs, count, maxTokens, minTokens) && GroupMerged(g, count, maxTokens, minTokens)
    ensures NonEmptyGroups(gs + [g]) && MergedInside(gs + [g], count, maxTokens, minTokens)
  {
    var r := gs + [g];
    forall i, k | 0 <= i < |r| && 0 < k < |r[i]|
      ensures ShouldMerge(count, Combine(r[i][..k]), r[i][k], maxTokens, minTokens)
    {
      if i < |gs| {
        assert r[i] == gs[i];
      } else {
        assert r[i] == g;
      }
    }
  }

  lemma GroupExtend(g: seq<RawChunk>, c: RawChunk, count: string -> nat, maxTokens: int, minTokens: int)
    requires g != [] && GroupMerged(g, count, maxTokens, minTokens) && ShouldMerge(count, Combine(g), c, maxTokens, minTokens)
    ensures GroupMerged(g + [c], count, maxTokens, minTokens)
  {
    var h := g + [c];
    forall k | 0 < k < |h|
      ensures ShouldMerge(count, Combine(h[..k]), h[k], maxTokens, minTokens)
    {
      if k < |g| {
        assert h[..k] == g[..k];
      } else {
        assert h[..k] == g;
      }
    }
  }

  lemma StepMergedInside(gs: seq<seq<RawChunk>>, c: RawChunk, count: string -> nat, maxTokens: int, minTokens: int)
    requires NonEmptyGroups(gs) && MergedInside(gs, count, maxTokens, minTokens)
    ensures MergedInside(Step(gs, c, count, maxTokens, minTokens), count, maxTokens, minTokens)
  {
    if gs == [] {
      MergedInsideAppend(gs, [c], count, maxTokens, minTokens);
      assert Step(gs, c, count, maxTokens, minTokens) == gs + [[c]];
    } else if ShouldMerge(count, Combine(gs[|gs| - 1]), c, maxTokens, minTokens) {
      MergedInsideParts(gs, count, maxTokens, minTokens);
      GroupExtend(gs[|gs| - 1], c, count, maxTokens, minTokens);
      MergedInsideAppend(gs[..|gs| - 1], gs[|gs| - 1] + [c], count, maxTokens, minTokens);
    } else {
      MergedInsideAppend(gs, [c], count, maxTokens, minTokens);
    }
  }

  lemma StepSplitBetween(gs: seq<seq<RawChunk>>, c: RawChunk, count: string -> nat, maxTokens: int, minTokens: int)
    requires NonEmptyGroups(gs) && SplitBetween(gs, count, maxTokens, minTokens)
    ensures SplitBetween(Step(gs, c, count, maxTokens, minTokens), count, maxTokens, minTokens)
  {
    var r := Step(gs, c, count, maxTokens, minTokens);
    if gs != [] {
      forall i | 0 <= i < |r| - 1
        ensures !ShouldMerge(count, Combine(r[i]), r[i + 1][0], maxTokens, minTokens)
      {
        assert r[i] == gs[i];
        if i + 1 < |gs| {
          assert r[i + 1][0] == gs[i + 1][0];
        }
      }
    }
  }

  /**
   * The merge rule is exactly what separates groups: inside a group every chunk was merged because
   * the accumulator so far was undersized and the counts fit, and between two consecutive groups the
   * accumulator either had reached `minTokens` or could not take the next group's first chunk.
   */
  lemma {:induction false} MergeDecision(raw: seq<RawChunk>, count: string -> nat, maxTokens: int, minTokens: int)
    ensures MergedInside(Groups(raw, count, maxTokens, minTokens), count, maxTokens, minTokens)
    ensures SplitBetween(Groups(raw, count, maxTokens, minTokens), count, maxTokens, minTokens)
    decreases |raw|
  {
    if raw != [] {
      var p := raw[..|raw| - 1];
      MergeDecision(p, count, maxTokens, minTokens);
      StepMergedInside(Groups(p, count, maxTokens, minTokens), raw[|raw| - 1], count, maxTokens, minTokens);
      StepSplitBetween(Groups(p, count, maxTokens, minTokens), raw[|raw| - 1], count, maxTokens, minTokens);
    }
  }

  /** In a group of two or more, every chunk fits the budget on its own. */
  lemma MergedMembersFit(raw: seq<RawChunk>, count: string -> nat, maxTokens: int, minTokens: int, i: nat)
    requires i < |Groups(raw, count, maxTokens, minTokens)|
    ensures var g := Groups(raw, count, maxTokens, minTokens)[i];
      |g| > 1 ==> forall k :: 0 <= k < |g| ==> count(g[k].text) <= maxTokens
  {
    var g := Groups(raw, count, maxTokens, minTokens)[i];
    MergeDecision(raw, count, maxTokens, minTokens);
    if |g| > 1 {
      assert g[..1] == [g[0]];
      assert ShouldMerge(count, Combine(g[..1]), g[1], maxTokens, minTokens);
    }
  }

  /**
   * The merger never splits: a raw chunk whose count exceeds `maxTokens` forms a group of its own,
   * so it is emitted unchanged as one output chunk.
   */
  lemma OversizedStandsAlone(raw: seq<RawChunk>, count: string -> nat, maxTokens: int, minTokens: int, i: nat, k: nat)
    requires var gs := Groups(raw, count, maxTokens, minTokens);
      i < |gs| && k < |gs[i]| && count(gs[i][k].text) > maxTokens
    ensures var gs := Groups(raw, count, maxTokens, minTokens);
      gs[i] == [gs[i][k]] && Combine(gs[i]) == gs[i][k]
  {
    MergedMembersFit(raw, count, maxTokens, minTokens, i);
  }

  /**
   * Minimum tendency: every output chunk except the last has reached `minTokens`, or its count plus
   * that of the first raw chunk of the next output exceeds `maxTokens`.
   */
  lemma MinimumTendency(raw: seq<RawChunk>, count: string -> nat, maxTokens: int, minTokens: int, i: nat)
    requires i + 1 < |Groups(raw, count, maxTokens, minTokens)|
    ensures var gs := Groups(raw, count, maxTokens, minTokens);
      var out := Finalized(CombineAll(gs), 0, 0, count)[i];
      out.tokenCount >= minTokens || out.tokenCount + count(gs[i + 1][0].text) > maxTokens
  {
    MergeDecision(raw, count, maxTokens, minTokens);
    FinalizedOffsets(CombineAll(Groups(raw, count, maxTokens, minTokens)), 0, 0, count);
  }

  function JoinPair(a: string, b: string): string {
    a + ParagraphSeparator + b
  }

  /** The tokenizer never counts a blank-line join of two texts as more than the sum of their counts. */
  ghost predicate SubadditiveOnJoin(count: string -> nat) {
    forall a: string, b: string :: count(JoinPair(a, b)) <= count(a) + count(b)
  }

  /**
   * The token ceiling holds for every merged chunk (one that absorbed at least one other) provided
   * the tokenizer is subadditive on blank-line joins; the rule only checks the sum of the two counts.
   */
  lemma CeilingForMergedGroups(raw: seq<RawChunk>, count: string -> nat, maxTokens: int, minTokens: int, i: nat)
    requires SubadditiveOnJoin(count)
    requires var gs := Groups(raw, count, maxTokens, minTokens); i < |gs| && |gs[i]| > 1
    ensures count(Combine(Groups(raw, count, maxTokens, minTokens)[i]).text) <= maxTokens
  {
    var gs := Groups(raw, count, maxTokens, minTokens);
    var g := gs[i];
    MergeDecision(raw, count, maxTokens, minTokens);
    var k := |g| - 1;
    assert ShouldMerge(count, Combine(g[..k]), g[k], maxTokens, minTokens);
    assert Combine(g).text == JoinPair(Combine(g[..k]).text, g[k].text);
  }

  /**
   * Without that assumption the ceiling can fail: with a count of one token per character, two
   * one-character chunks under `maxTokens = 2` are merged into a four-token text.
   */
  lemma CeilingNeedsSubadditivity()
    ensures var count := (s: string) => |s|;
      var raw := [RawChunk("a", ChunkMeta([], None, [], [])), RawChunk("b", ChunkMeta([], None, [], []))];
      var gs := Groups(raw, count, 2, 5);
      |gs| == 1 && count(Combine(gs[0]).text) == 4 > 2
  {
    var count := (s: string) => |s|;
    var a := RawChunk("a", ChunkMeta([], None, [], []));
    var b := RawChunk("b", ChunkMeta([], None, [], []));
    var raw := [a, b];
    assert raw[..1] == [a];
    assert [a][..0] == [];
    assert Groups([a], count, 2, 5) == [[a]];
    assert ShouldMerge(count, a, b, 2, 5);
    assert [a] + [b] == [a, b];
    assert [[a]][..0] + [[a, b]] == [[a, b]];
    assert Groups(raw, count, 2, 5) == [[a, b]];
    assert [a, b][..1] == [a];
  }


  /** The captions and document items of a merged chunk are those of its group's first raw chunk. */
  lemma {:induction false} CombineKeepsFirstCaptions(g: seq<RawChunk>)
    requires g != []
    ensures Combine(g).meta.captions == g[0].meta.captions
    ensures Combine(g).meta.docItems == g[0].meta.docItems
    decreases |g|
  {
    if |g| > 1 {
      CombineKeepsFirstCaptions(g[..|g| - 1]);
    }
  }

  /** All heading items of a group, concatenated in order. */
  function AllHeadings(g: seq<RawChunk>): seq<HeadingItem>
    decreases |g|
  {
    if g == [] then [] else AllHeadings(g[..|g| - 1]) + g[|g| - 1].meta.headings
  }

  /**
   * Heading union: a merged chunk keeps its first raw chunk's headings as a prefix, holds exactly
   * the headings of its group, and holds none twice when the first chunk's list has none twice.
   */
  lemma {:induction false} CombineHeadings(g: seq<RawChunk>)
    requires g != []
    ensures var hs := Combine(g).meta.headings; var first := g[0].meta.headings;
      && |first| <= |hs| && hs[..|first|] == first
      && (forall h :: h in hs <==> h in AllHeadings(g))
      && (NoDuplicates(first) ==> NoDuplicates(hs))
    decreases |g|
  {
    if |g| == 1 {
      assert g[..0] == [];
      assert AllHeadings(g) == g[0].meta.headings;
    } else {
      var p := g[..|g| - 1];
      CombineHeadings(p);
      assert p[0] == g[0];
    }
  }

  /** Headings [X] merged with [X, Y] give [X, Y], never [X, X, Y]. */
  lemma HeadingUnionExample(x: HeadingItem, y: HeadingItem)
    requires x != y
    ensures Absorb(RawChunk("", ChunkMeta([x], None, [], [])), RawChunk("", ChunkMeta([x, y], None, [], []))).meta.headings == [x, y]
  {
    var acc := [x];
    assert AppendAbsent(acc, [x, y]) == AppendAbsent(acc, [y]) by {
      assert [x, y][1..] == [y];
    }
    assert AppendAbsent(acc, [y]) == AppendAbsent([x, y], []) by {
      assert [y][1..] == [];
    }
  }

  /** All page numbers of a group, concatenated in order. */
  function AllPages(g: seq<RawChunk>): seq<int>
    decreases |g|
  {
    if g == [] then [] else AllPages(g[..|g| - 1]) + PageNumbersOf(g[|g| - 1].meta.origin)
  }

  /**
   * Page numbers are reconciled only into an accumulator that has an origin: if the group's first
   * raw chunk has none, the merged chunk has no origin and no page numbers; otherwise its page
   * numbers keep the first raw chunk's as a prefix, are exactly those of the whole group, and
   * hold none twice when the first chunk's list has none twice.
   */
  lemma {:induction false} CombinePages(g: seq<RawChunk>)
    requires g != []
    ensures Combine(g).meta.origin.Some? <==> g[0].meta.origin.Some?
    ensures g[0].meta.origin.None? ==> PageNumbersOf(Combine(g).meta.origin) == []
    ensures g[0].meta.origin.Some? ==>
      forall pn :: pn in PageNumbersOf(Combine(g).meta.origin) <==> pn in AllPages(g)
    ensures g[0].meta.origin.Some? ==>
      var ps := PageNumbersOf(Combine(g).meta.origin); var first := PageNumbersOf(g[0].meta.origin);
      && |first| <= |ps| && ps[..|first|] == first
      && (NoDuplicates(first) ==> NoDuplicates(ps))
    decreases |g|
  {
    if |g| == 1 {
      assert g[..0] == [];
      assert AllPages(g) == PageNumbersOf(g[0].meta.origin);
    } else {
      var p := g[..|g| - 1];
      CombinePages(p);
      assert p[0] == g[0];
    }
  }
}

=== FILE: document_service.dfy ===
/**
 * The fixed-window chunker (`chunk_text`) and the fallback path of `parse_and_chunk_with_context`.
 * A window of `chunkSize` tokens slides over the encoded text with step `chunkSize - overlap`;
 * each window is decoded back to text and given approximate character offsets.
 *
 * The tokenizer is the pair of parameters `encode` and `decode`; document parsing is an outcome
 * handed in by the caller.
 */
module DocumentService {
  import opened Wrappers
  import opened Chunks

  type Token = int

  /** One window as `chunk_text` returns it, before any structural metadata is attached. */
  datatype TokenWindow = TokenWindow(text: string, chunkIndex: nat, tokenCount: nat, startChar: int, endChar: int)

  function Min(a: int, b: int): int { if a <= b then a else b }
  function Max(a: int, b: int): int { if a >= b then a else b }

  /** The first token position of window `k`: the window advances by `chunkSize - overlap` tokens. */
  function Pos(k: nat, chunkSize: int, overlap: int): nat
    requires 0 <= overlap < chunkSize
  {
    if k == 0 then 0 else Pos(k - 1, chunkSize, overlap) + (chunkSize - overlap)
  }

  /** Window `k` starts at token `k * (chunkSize - overlap)`. */
  lemma {:induction false} PosIsProduct(k: nat, chunkSize: int, overlap: int)
    requires 0 <= overlap < chunkSize
    ensures Pos(k, chunkSize, overlap) == k * (chunkSize - overlap)
  {
    if k > 0 {
      PosIsProduct(k - 1, chunkSize, overlap);
      assert k * (chunkSize - overlap) == (k - 1) * (chunkSize - overlap) + (chunkSize - overlap);
    }
  }

  /** The tokens of the window starting at token `s`: `[s, min(s + chunkSize, n))`. */
  function Slice(tokens: seq<Token>, s: nat, chunkSize: nat): (r: seq<Token>)
    requires s <= |tokens|
    ensures |r| == Min(s + chunkSize, |tokens|) - s
    ensures |r| <= chunkSize
  {
    tokens[s..Min(s + chunkSize, |tokens|)]
  }

  /** Where the window after one ending at character `prevEnd` starts: `overlap * 4` characters back, never below 0. */
  function NextStart(prevEnd: Option<int>, overlap: int): (r: int)
    ensures r >= 0
  {
    match prevEnd
    case None => 0
    case Some(e) => Max(0, e - overlap * 4)
  }

  /**
   * The windows from the one with index `k` starting at token `s`; `prevEnd` is the end character
   * of the window before, None for the first. The window that reaches the end of the tokens is the
   * last one.
   */
  function WindowsFrom(tokens: seq<Token>, chunkSize: int, overlap: int, decode: seq<Token> -> string,
                       k: nat, s: nat, prevEnd: Option<int>): (r: seq<TokenWindow>)
    requires 0 <= overlap < chunkSize && s < |tokens|
    ensures |r| >= 1
    decreases |tokens| - s
  {
    var piece := Slice(tokens, s, chunkSize);
    var text := decode(piece);
    var start := NextStart(prevEnd, overlap);
    var w := TokenWindow(text, k, |piece|, start, start + |text|);
    if s + chunkSize >= |tokens| then [w]
    else [w] + WindowsFrom(tokens, chunkSize, overlap, decode, k + 1, s + (chunkSize - overlap), Some(start + |text|))
  }

  /** What `chunk_text` returns for the token sequence `tokens`. */
  function Windows(tokens: seq<Token>, chunkSize: int, overlap: int, decode: seq<Token> -> string): (r: seq<TokenWindow>)
    requires 0 <= overlap < chunkSize
    ensures r == [] <==> tokens == []
  {
    if tokens == [] then [] else WindowsFrom(tokens, chunkSize, overlap, decode, 0, 0, None)
  }

  /** The end character of the last window produced so far, if any. */
  function LastEnd(acc: seq<TokenWindow>): Option<int> {
    if acc == [] then None else Some(acc[|acc| - 1].endChar)
  }

  /** The window the loop produces at token `s` after the windows `acc`. */
  function NextWindow(tokens: seq<Token>, chunkSize: nat, overlap: int, decode: seq<Token> -> string,
                      acc: seq<TokenWindow>, s: nat): TokenWindow
    requires s <= |tokens|
  {
    var piece := Slice(tokens, s, chunkSize);
    var text := decode(piece);
    var start := NextStart(LastEnd(acc), overlap);
    TokenWindow(text, |acc|, |piece|, start, start + |text|)
  }

  /** The windows from token `s` on appended to those produced so far, `acc`: the loop's view of the windows. */
  function WindowsAfter(tokens: seq<Token>, chunkSize: int, overlap: int, decode: seq<Token> -> string,
                        acc: seq<TokenWindow>, s: nat): seq<TokenWindow>
    requires 0 <= overlap < chunkSize && s < |tokens|
    decreases |tokens| - s
  {
    var w := NextWindow(tokens, chunkSize, overlap, decode, acc, s);
    if s + chunkSize >= |tokens| then acc + [w]
    else WindowsAfter(tokens, chunkSize, overlap, decode, acc + [w], s + (chunkSize - overlap))
  }

  /** One loop step: the next window is appended, and either it was the last or the rest follows `step` tokens on. */
  lemma WindowsAfterStep(tokens: seq<Token>, chunkSize: int, overlap: int, decode: seq<Token> -> string,
                         acc: seq<TokenWindow>, s: nat)
    requires 0 <= overlap < chunkSize && s < |tokens|
    ensures var next := acc + [NextWindow(tokens, chunkSize, overlap, decode, acc, s)];
      if s + chunkSize >= |tokens| then WindowsAfter(tokens, chunkSize, overlap, decode, acc, s) == next
      else (s + (chunkSize - overlap) < |tokens| &&
            WindowsAfter(tokens, chunkSize, overlap, decode, acc, s) == WindowsAfter(tokens, chunkSize, overlap, decode, next, s + (chunkSize - overlap)))
  {
  }

  /** The loop invariant survives one step: `w` is the next window and the rest of `all` follows it. */
  lemma ChunkStep(tokens: seq<Token>, chunkSize: int, overlap: int, decode: seq<Token> -> string,
                  acc: seq<TokenWindow>, s: nat, w: TokenWindow, all: seq<TokenWindow>)
    requires 0 <= overlap < chunkSize && s < |tokens|
    requires w == NextWindow(tokens, chunkSize, overlap, decode, acc, s)
    requires WindowsAfter(tokens, chunkSize, overlap, decode, acc, s) == all
    ensures s + chunkSize >= |tokens| ==> acc + [w] == all
    ensures s + chunkSize < |tokens| ==> s + (chunkSize - overlap) < |tokens|
    ensures s + chunkSize < |tokens| ==>
      WindowsAfter(tokens, chunkSize, overlap, decode, acc + [w], s + (chunkSize - overlap)) == all
  {
    WindowsAfterStep(tokens, chunkSize, overlap, decode, acc, s);
  }

  /** The loop's view agrees with the windows: what is produced so far, followed by the windows still to come. */
  lemma {:induction false} WindowsAfterFrom(tokens: seq<Token>, chunkSize: int, overlap: int, decode: seq<Token> -> string,
                                            acc: seq<TokenWindow>, s: nat)
    requires 0 <= overlap < chunkSize && s < |tokens|
    ensures WindowsAfter(tokens, chunkSize, overlap, decode, acc, s)
         == acc + WindowsFrom(tokens, chunkSize, overlap, decode, |acc|, s, LastEnd(acc))
    decreases |tokens| - s
  {
    if s + chunkSize < |tokens| {
      var piece := Slice(tokens, s, chunkSize);
      var text := decode(piece);
      var start := NextStart(LastEnd(acc), overlap);
      var w := TokenWindow(text, |acc|, |piece|, start, start + |text|);
      var s' := s + (chunkSize - overlap);
      WindowsAfterFrom(tokens, chunkSize, overlap, decode, acc + [w], s');
      assert LastEnd(acc + [w]) == Some(start + |text|);
      var tail := WindowsFrom(tokens, chunkSize, overlap, decode, |acc| + 1, s', Some(start + |text|));
      assert acc + [w] + tail == acc + ([w] + tail);
    }
  }

  /**
   * The approximate start character of the next window (lines 94-99): 0 for the first window,
   * otherwise `overlap * 4` characters before the previous window's end, but never below 0.
   */
  method StartChar(chunks: seq<TokenWindow>, overlap: int) returns (startChar: int)
    ensures startChar == NextStart(LastEnd(chunks), overlap)
  {
    if chunks != [] {
      startChar := chunks[|chunks| - 1].endChar - overlap * 4;
      startChar := Max(0, startChar);
    } else {
      startChar := 0;
    }
  }

  /**
   * `chunk_text` (lines 49-121): the sliding-window loop. The overlap must be smaller than the
   * window, otherwise the window never advances.
   */
  method ChunkText(text: string, chunkSize: int, overlap: int, encode: string -> seq<Token>, decode: seq<Token> -> string)
    returns (chunks: seq<TokenWindow>)
    requires 0 <= overlap < chunkSize
    ensures chunks == Windows(encode(text), chunkSize, overlap, decode)
  {
    var tokens := encode(text);
    var n := |tokens|;
    ghost var all := Windows(tokens, chunkSize, overlap, decode);
    chunks := [];
    var startIdx := 0;
    if n > 0 {
      WindowsAfterFrom(tokens, chunkSize, overlap, decode, [], 0);
    }
    while startIdx < n
      invariant startIdx <= n
      invariant startIdx == n ==> chunks == all
      invariant startIdx < n ==> WindowsAfter(tokens, chunkSize, overlap, decode, chunks, startIdx) == all
      decreases n - startIdx
    {
      var endIdx := Min(startIdx + chunkSize, n);
      var chunkTokens := tokens[startIdx..endIdx];
      var chunkText := decode(chunkTokens);
      var startChar := StartChar(chunks, overlap);
      var endChar := startChar + |chunkText|;
      var w := TokenWindow(chunkText, |chunks|, |chunkTokens|, startChar, endChar);
      assert w == NextWindow(tokens, chunkSize, overlap, decode, chunks, startIdx) by {
        assert chunkTokens == Slice(tokens, startIdx, chunkSize);
      }
      ChunkStep(tokens, chunkSize, overlap, decode, chunks, startIdx, w, all);
      chunks := chunks + [w];
      startIdx := startIdx + (chunkSize - overlap);
      if endIdx >= n {
        break;
      }
    }
  }


  /** `w` is the window with index `index` over the tokens from `s`: their decoded text and their number. */
  predicate WindowAt(tokens: seq<Token>, chunkSize: nat, decode: seq<Token> -> string, w: TokenWindow, index: nat, s: nat) {
    && s < |tokens|
    && w.chunkIndex == index
    && w.text == decode(Slice(tokens, s, chunkSize))
    && w.tokenCount == |Slice(tokens, s, chunkSize)|
    && w.endChar == w.startChar + |w.text|
  }

  /** Window `i` from index `k` and token `s` on is the one with index `k + i` over the tokens from `s + Pos(i)`. */
  lemma {:induction false} WindowsFromAt(tokens: seq<Token>, chunkSize: int, overlap: int, decode: seq<Token> -> string,
                                         k: nat, s: nat, prevEnd: Option<int>, i: nat)
    requires 0 <= overlap < chunkSize && s < |tokens|
    requires i < |WindowsFrom(tokens, chunkSize, overlap, decode, k, s, prevEnd)|
    ensures WindowAt(tokens, chunkSize, decode, WindowsFrom(tokens, chunkSize, overlap, decode, k, s, prevEnd)[i], k + i, s + Pos(i, chunkSize, overlap))
    decreases i
  {
    var r := WindowsFrom(tokens, chunkSize, overlap, decode, k, s, prevEnd);
    var start := NextStart(prevEnd, overlap);
    var text := decode(Slice(tokens, s, chunkSize));
    if i > 0 {
      var step := chunkSize - overlap;
      WindowsFromAt(tokens, chunkSize, overlap, decode, k + 1, s + step, Some(start + |text|), i - 1);
      var rest := WindowsFrom(tokens, chunkSize, overlap, decode, k + 1, s + step, Some(start + |text|));
      assert r[i] == rest[i - 1];
    }
  }

  /** Every window from index `k` and token `s` on, by `WindowsFromAt`. */
  lemma WindowsFromContent(tokens: seq<Token>, chunkSize: int, overlap: int, decode: seq<Token> -> string,
                           k: nat, s: nat, prevEnd: Option<int>)
    requires 0 <= overlap < chunkSize && s < |tokens|
    ensures forall i {:trigger WindowsFrom(tokens, chunkSize, overlap, decode, k, s, prevEnd)[i]} :: 0 <= i < |WindowsFrom(tokens, chunkSize, overlap, decode, k, s, prevEnd)| ==>
      WindowAt(tokens, chunkSize, decode, WindowsFrom(tokens, chunkSize, overlap, decode, k, s, prevEnd)[i], k + i, s + Pos(i, chunkSize, overlap))
  {
    var r := WindowsFrom(tokens, chunkSize, overlap, decode, k, s, prevEnd);
    forall i {:trigger r[i]} | 0 <= i < |r|
      ensures WindowAt(tokens, chunkSize, decode, r[i], k + i, s + Pos(i, chunkSize, overlap))
    {
      WindowsFromAt(tokens, chunkSize, overlap, decode, k, s, prevEnd, i);
    }
  }

  /** Every window but the last stops short of the end of the tokens even when full; the last reaches it. */
  lemma {:induction false} WindowsFromBoundary(tokens: seq<Token>, chunkSize: int, overlap: int, decode: seq<Token> -> string,
                                               k: nat, s: nat, prevEnd: Option<int>)
    requires 0 <= overlap < chunkSize && s < |tokens|
    ensures forall i :: 0 <= i < |WindowsFrom(tokens, chunkSize, overlap, decode, k, s, prevEnd)| - 1 ==> s + Pos(i, chunkSize, overlap) + chunkSize < |tokens|
    ensures s + Pos(|WindowsFrom(tokens, chunkSize, overlap, decode, k, s, prevEnd)| - 1, chunkSize, overlap) + chunkSize >= |tokens|
    decreases |tokens| - s
  {
    var step := chunkSize - overlap;
    var r := WindowsFrom(tokens, chunkSize, overlap, decode, k, s, prevEnd);
    if s + chunkSize < |tokens| {
      var start := NextStart(prevEnd, overlap);
      var text := decode(Slice(tokens, s, chunkSize));
      var rest := WindowsFrom(tokens, chunkSize, overlap, decode, k + 1, s + step, Some(start + |text|));
      WindowsFromBoundary(tokens, chunkSize, overlap, decode, k + 1, s + step, Some(start + |text|));
      assert |r| == |rest| + 1;
      forall i | 0 < i < |r|
        ensures s + Pos(i, chunkSize, overlap) == (s + step) + Pos(i - 1, chunkSize, overlap)
      {
      }
    }
  }

  /** The first window starts at `NextStart(prevEnd)`, each later one `overlap * 4` characters before the previous end. */
  lemma {:induction false} WindowsFromOffsets(tokens: seq<Token>, chunkSize: int, overlap: int, decode: seq<Token> -> string,
                                              k: nat, s: nat, prevEnd: Option<int>)
    requires 0 <= overlap < chunkSize && s < |tokens|
    ensures WindowsFrom(tokens, chunkSize, overlap, decode, k, s, prevEnd)[0].startChar == NextStart(prevEnd, overlap)
    ensures forall i :: 0 <= i < |WindowsFrom(tokens, chunkSize, overlap, decode, k, s, prevEnd)| - 1 ==>
      WindowsFrom(tokens, chunkSize, overlap, decode, k, s, prevEnd)[i + 1].startChar == NextStart(Some(WindowsFrom(tokens, chunkSize, overlap, decode, k, s, prevEnd)[i].endChar), overlap)
    decreases |tokens| - s
  {
    var r := WindowsFrom(tokens, chunkSize, overlap, decode, k, s, prevEnd);
    if s + chunkSize < |tokens| {
      var start := NextStart(prevEnd, overlap);
      var text := decode(Slice(tokens, s, chunkSize));
      var rest := WindowsFrom(tokens, chunkSize, overlap, decode, k + 1, s + chunkSize - overlap, Some(start + |text|));
      WindowsFromOffsets(tokens, chunkSize, overlap, decode, k + 1, s + chunkSize - overlap, Some(start + |text|));
      assert r == [r[0]] + rest;
      forall i | 0 < i < |r| - 1
        ensures r[i] == rest[i - 1] && r[i + 1] == rest[i]
      {
      }
    }
  }

  /**
   * The windows of `chunk_text`: none for no tokens; otherwise window `i` holds the decoded tokens
   * `[Pos(i), min(Pos(i) + chunkSize, n))` and their number (at most `chunkSize`) as its count, and
   * the indexes are dense from 0.
   */
  lemma WindowsContent(tokens: seq<Token>, chunkSize: int, overlap: int, decode: seq<Token> -> string)
    requires 0 <= overlap < chunkSize
    ensures Windows(tokens, chunkSize, overlap, decode) == [] <==> tokens == []
    ensures forall i :: 0 <= i < |Windows(tokens, chunkSize, overlap, decode)| ==>
      && Pos(i, chunkSize, overlap) < |tokens|
      && Windows(tokens, chunkSize, overlap, decode)[i].chunkIndex == i
      && Windows(tokens, chunkSize, overlap, decode)[i].text == decode(Slice(tokens, Pos(i, chunkSize, overlap), chunkSize))
      && Windows(tokens, chunkSize, overlap, decode)[i].tokenCount == |Slice(tokens, Pos(i, chunkSize, overlap), chunkSize)| <= chunkSize
  {
    if tokens != [] {
      WindowsFromContent(tokens, chunkSize, overlap, decode, 0, 0, None);
      var r := Windows(tokens, chunkSize, overlap, decode);
      forall i | 0 <= i < |r|
        ensures WindowAt(tokens, chunkSize, decode, r[i], i, Pos(i, chunkSize, overlap))
      {
      }
    }
  }

  /** Every window but the last is full and stops short of the end of the tokens; the last reaches the end. */
  lemma WindowsBoundary(tokens: seq<Token>, chunkSize: int, overlap: int, decode: seq<Token> -> string)
    requires 0 <= overlap < chunkSize
    ensures forall i :: 0 <= i < |Windows(tokens, chunkSize, overlap, decode)| - 1 ==>
      Pos(i, chunkSize, overlap) + chunkSize < |tokens| && Windows(tokens, chunkSize, overlap, decode)[i].tokenCount == chunkSize
    ensures Windows(tokens, chunkSize, overlap, decode) != [] ==> Pos(|Windows(tokens, chunkSize, overlap, decode)| - 1, chunkSize, overlap) + chunkSize >= |tokens|
  {
    if tokens != [] {
      WindowsFromBoundary(tokens, chunkSize, overlap, decode, 0, 0, None);
      forall i | 0 <= i < |Windows(tokens, chunkSize, overlap, decode)| - 1
        ensures Pos(i, chunkSize, overlap) + chunkSize < |tokens| && Windows(tokens, chunkSize, overlap, decode)[i].tokenCount == chunkSize
      {
        FullWindow(tokens, chunkSize, overlap, decode, i);
      }
    }
  }

  /** A window before the last ends before the last token and so holds `chunkSize` tokens. */
  lemma FullWindow(tokens: seq<Token>, chunkSize: int, overlap: int, decode: seq<Token> -> string, i: nat)
    requires 0 <= overlap < chunkSize && i + 1 < |Windows(tokens, chunkSize, overlap, decode)|
    ensures Pos(i, chunkSize, overlap) + chunkSize < |tokens| && Windows(tokens, chunkSize, overlap, decode)[i].tokenCount == chunkSize
  {
    WindowsFromBoundary(tokens, chunkSize, overlap, decode, 0, 0, None);
    WindowsFromAt(tokens, chunkSize, overlap, decode, 0, 0, None, i);
    assert |Slice(tokens, Pos(i, chunkSize, overlap), chunkSize)| == chunkSize;
  }

  /**
   * Character offsets: the first window starts at 0, each later one `overlap * 4` characters before
   * the previous end but never below 0, and each ends its text's length after its start.
   */
  lemma WindowsOffsets(tokens: seq<Token>, chunkSize: int, overlap: int, decode: seq<Token> -> string)
    requires 0 <= overlap < chunkSize
    ensures Windows(tokens, chunkSize, overlap, decode) != [] ==> Windows(tokens, chunkSize, overlap, decode)[0].startChar == 0
    ensures forall i :: 0 <= i < |Windows(tokens, chunkSize, overlap, decode)| - 1 ==> Windows(tokens, chunkSize, overlap, decode)[i + 1].startChar == Max(0, Windows(tokens, chunkSize, overlap, decode)[i].endChar - overlap * 4)
    ensures forall i :: 0 <= i < |Windows(tokens, chunkSize, overlap, decode)| ==>
      Windows(tokens, chunkSize, overlap, decode)[i].startChar >= 0 && Windows(tokens, chunkSize, overlap, decode)[i].endChar == Windows(tokens, chunkSize, overlap, decode)[i].startChar + |Windows(tokens, chunkSize, overlap, decode)[i].text|
  {
    if tokens != [] {
      WindowsFromContent(tokens, chunkSize, overlap, decode, 0, 0, None);
      WindowsFromOffsets(tokens, chunkSize, overlap, decode, 0, 0, None);
      var r := Windows(tokens, chunkSize, overlap, decode);
      forall i | 0 <= i < |r|
        ensures r[i].startChar >= 0
      {
        if i > 0 {
          assert r[i].startChar == NextStart(Some(r[i - 1].endChar), overlap);
        }
      }
    }
  }

  /** Every token from `s` on lies in one of the windows from `s`. */
  lemma {:induction false} CoverageFrom(tokens: seq<Token>, chunkSize: int, overlap: int, decode: seq<Token> -> string,
                                        k: nat, s: nat, prevEnd: Option<int>, t: nat) returns (j: nat)
    requires 0 <= overlap < chunkSize && s <= t < |tokens|
    ensures j < |WindowsFrom(tokens, chunkSize, overlap, decode, k, s, prevEnd)|
      && s + Pos(j, chunkSize, overlap) <= t < Min(s + Pos(j, chunkSize, overlap) + chunkSize, |tokens|)
    decreases |tokens| - s
  {
    var step := chunkSize - overlap;
    if t < s + step || s + chunkSize >= |tokens| {
      j := 0;
    } else {
      var start := NextStart(prevEnd, overlap);
      var text := decode(Slice(tokens, s, chunkSize));
      var j' := CoverageFrom(tokens, chunkSize, overlap, decode, k + 1, s + step, Some(start + |text|), t);
      j := j' + 1;
    }
  }

  /** Every token lies in some window: window `k` covers token `t`. */
  lemma Coverage(tokens: seq<Token>, chunkSize: int, overlap: int, decode: seq<Token> -> string, t: nat) returns (k: nat)
    requires 0 <= overlap < chunkSize && t < |tokens|
    ensures k < |Windows(tokens, chunkSize, overlap, decode)| && Pos(k, chunkSize, overlap) <= t < Min(Pos(k, chunkSize, overlap) + chunkSize, |tokens|)
  {
    k := CoverageFrom(tokens, chunkSize, overlap, decode, 0, 0, None, t);
  }

  /** A window that is not the last one ends before the last token. */
  lemma NotLastIsFull(tokens: seq<Token>, chunkSize: int, overlap: int, decode: seq<Token> -> string, k: nat)
    requires 0 <= overlap < chunkSize && k + 1 < |Windows(tokens, chunkSize, overlap, decode)|
    ensures Pos(k, chunkSize, overlap) + chunkSize < |tokens|
  {
    WindowsBoundary(tokens, chunkSize, overlap, decode);
  }

  /** Two full windows `step` tokens apart share the `overlap` tokens between them. */
  lemma SlicesOverlap(tokens: seq<Token>, chunkSize: int, overlap: int, p: nat)
    requires 0 <= overlap < chunkSize && p + chunkSize < |tokens|
    ensures Slice(tokens, p, chunkSize)[chunkSize - overlap..] == Slice(tokens, p + (chunkSize - overlap), chunkSize)[..overlap]
  {
    var step := chunkSize - overlap;
    assert Slice(tokens, p, chunkSize)[step..] == tokens[p + step..p + chunkSize];
    assert Slice(tokens, p + step, chunkSize)[..overlap] == tokens[p + step..p + step + overlap];
  }

  /**
   * Consecutive windows overlap by exactly `overlap` tokens: the tail of every window but the last,
   * after its first `step` tokens, is the head of the next one.
   */
  lemma ConsecutiveWindowsOverlap(tokens: seq<Token>, chunkSize: int, overlap: int, decode: seq<Token> -> string, k: nat)
    requires 0 <= overlap < chunkSize && k + 1 < |Windows(tokens, chunkSize, overlap, decode)|
    ensures var step := chunkSize - overlap; var p := Pos(k, chunkSize, overlap);
      p + chunkSize < |tokens|
      && Slice(tokens, p, chunkSize)[step..] == Slice(tokens, p + step, chunkSize)[..overlap]
  {
    NotLastIsFull(tokens, chunkSize, overlap, decode, k);
    SlicesOverlap(tokens, chunkSize, overlap, Pos(k, chunkSize, overlap));
  }

  /** The fallback attaches empty structural metadata to a window and keeps everything else. */
  function WithEmptyMetadata(w: TokenWindow): (c: Chunk) {
    Chunk(w.text, w.chunkIndex, w.tokenCount, w.startChar, w.endChar, [], [], [], [])
  }

  /**
   * The loop that sets the four metadata fields of every window to empty lists (lines 194-198 and
   * 211-215; docling_service.py lines 281-285).
   */
  method AddEmptyMetadata(windows: seq<TokenWindow>) returns (chunks: seq<Chunk>)
    ensures |chunks| == |windows|
    ensures forall i :: 0 <= i < |windows| ==>
      && chunks[i].headings == [] && chunks[i].pageNumbers == [] && chunks[i].docItems == [] && chunks[i].captions == []
      && chunks[i].text == windows[i].text && chunks[i].chunkIndex == windows[i].chunkIndex
      && chunks[i].tokenCount == windows[i].tokenCount
      && chunks[i].startChar == windows[i].startChar && chunks[i].endChar == windows[i].endChar
    ensures forall i :: 0 <= i < |windows| ==> chunks[i] == WithEmptyMetadata(windows[i])
  {
    chunks := [];
    for i := 0 to |windows|
      invariant |chunks| == i
      invariant forall j :: 0 <= j < i ==> chunks[j] == WithEmptyMetadata(windows[j])
    {
      chunks := chunks + [WithEmptyMetadata(windows[i])];
    }
  }

  /** The overlap the fallback chunker uses. */
  const FallbackOverlap: int := 50

  /**
   * `parse_and_chunk_with_context` (lines 156-218): the structure-aware outcome when it succeeds;
   * after any failure of it (a missing library or an error), the parsed text chunked with overlap 50
   * and empty metadata. A parse failure on the fallback path propagates.
   */
  method ParseAndChunkWithContext(structured: Result<seq<Chunk>>, parsed: Result<string>, chunkSize: int,
                                  encode: string -> seq<Token>, decode: seq<Token> -> string)
    returns (r: Result<seq<Chunk>>)
    requires structured.Failure? && parsed.Success? ==> FallbackOverlap < chunkSize
    ensures structured.Success? ==> r == structured
    ensures structured.Failure? && parsed.Failure? ==> r == Failure(parsed.error)
    ensures structured.Failure? && parsed.Success? ==>
      var ws := Windows(encode(parsed.value), chunkSize, FallbackOverlap, decode);
      r.Success? && |r.value| == |ws| && forall i :: 0 <= i < |ws| ==> r.value[i] == WithEmptyMetadata(ws[i])
  {
    if structured.Success? {
      return structured;
    }
    if parsed.Failure? {
      return Failure(parsed.error);
    }
    var windows := ChunkText(parsed.value, chunkSize, FallbackOverlap, encode, decode);
    var chunks := AddEmptyMetadata(windows);
    r := Success(chunks);
  }
}

=== FILE: local_storage.dfy ===
/**
 * The filesystem backend used in development: one folder per document under the cache
 * directory. Its methods are proved to move the folder map exactly as the interface functions in
 * `StorageBackend` say, so every property proved there holds of this backend.
 */
module LocalStorage {
  import opened Wrappers
  import opened StorageBackend
  import Chunks

  /** The folders whose ids are in `keys`. */
  function Restrict(store: Store, keys: set<string>): (r: Store)
    ensures r.Keys == store.Keys * keys
    ensures forall id :: id in r ==> r[id] == store[id]
  {
    map id | id in store && id in keys :: store[id]
  }

  /** Counting the files of the folders in `keys` one folder at a time. */
  lemma CountOneFolder(store: Store, keys: set<string>, id: string)
    requires id in keys && id in store
    ensures TotalFiles(Restrict(store, keys)) == FileCount(store[id]) + TotalFiles(Restrict(store, keys - {id}))
  {
    TotalFilesRemove(Restrict(store, keys), id);
    assert Restrict(store, keys) - {id} == Restrict(store, keys - {id});
  }

  class LocalStorageBackend {
    /** The cache directory; only its name shows (in error messages and statistics). */
    const cacheDir: string
    /** The document folders currently under the cache directory. */
    var folders: Store

    /** Opens the cache directory, which may already hold folders from earlier runs. */
    constructor(cacheDir: string, existing: Store)
      ensures this.cacheDir == cacheDir && folders == existing
    {
      this.cacheDir := cacheDir;
      folders := existing;
    }

    /** `exists`; the extension is not consulted. */
    method Exists(documentId: string, fileExtension: string) returns (b: bool)
      ensures b == StorageBackend.Exists(folders, documentId)
    {
      if documentId !in folders {
        return false;
      }
      var f := folders[documentId];
      b := f.chunks.Some? && f.embeddings.Some? && f.metadata.Some?;
    }

    method SaveDocument(documentId: string, content: seq<bv8>, fileExtension: string)
      modifies this
      ensures folders == StorageBackend.SaveDocument(old(folders), documentId, fileExtension, content)
    {
      var f := if documentId in folders then folders[documentId] else EmptyFolder;
      folders := folders[documentId := f.(originals := f.originals[fileExtension := content])];
    }

    method SaveChunks(documentId: string, fileExtension: string, chunks: seq<Json>)
      modifies this
      ensures folders == StorageBackend.SaveChunks(old(folders), documentId, chunks)
    {
      var f := if documentId in folders then folders[documentId] else EmptyFolder;
      folders := folders[documentId := f.(chunks := Some(chunks))];
    }

    method SaveEmbeddings(documentId: string, fileExtension: string, embeddings: Matrix)
      modifies this
      ensures folders == StorageBackend.SaveEmbeddings(old(folders), documentId, embeddings)
    {
      var f := if documentId in folders then folders[documentId] else EmptyFolder;
      folders := folders[documentId := f.(embeddings := Some(embeddings))];
    }

    method SaveMetadata(documentId: string, fileExtension: string, metadata: Json)
      modifies this
      ensures folders == StorageBackend.SaveMetadata(old(folders), documentId, metadata)
    {
      var f := if documentId in folders then folders[documentId] else EmptyFolder;
      folders := folders[documentId := f.(metadata := Some(metadata))];
    }

    method LoadChunks(documentId: string, fileExtension: string) returns (r: Result<seq<Json>>)
      ensures r == StorageBackend.LoadChunks(folders, cacheDir, documentId)
    {
      if documentId !in folders || folders[documentId].chunks.None? {
        return Failure("Chunks file not found: " + FilePath(cacheDir, documentId, ChunksFile));
      }
      r := Success(folders[documentId].chunks.value);
    }

    method LoadEmbeddings(documentId: string, fileExtension: string) returns (r: Result<Matrix>)
      ensures r == StorageBackend.LoadEmbeddings(folders, cacheDir, documentId)
    {
      if documentId !in folders || folders[documentId].embeddings.None? {
        return Failure("Embeddings file not found: " + FilePath(cacheDir, documentId, EmbeddingsFile));
      }
      r := Success(folders[documentId].embeddings.value);
    }

    method LoadMetadata(documentId: string, fileExtension: string) returns (r: Result<Json>)
      ensures r == StorageBackend.LoadMetadata(folders, cacheDir, documentId)
    {
      if documentId !in folders || folders[documentId].metadata.None? {
        return Failure("Metadata file not found: " + FilePath(cacheDir, documentId, MetadataFile));
      }
      r := Success(folders[documentId].metadata.value);
    }

    /** `delete`: removes the folder when there is one; otherwise only a warning is logged. */
    method Delete(documentId: string, fileExtension: string)
      modifies this
      ensures folders == StorageBackend.Delete(old(folders), documentId)
    {
      if documentId in folders {
        folders := folders - {documentId};
      }
    }

    /** `list_documents`: every folder, each once, including partially saved documents. */
    method ListDocuments() returns (ids: seq<string>)
      ensures forall id :: id in ids <==> id in folders
      ensures Chunks.NoDuplicates(ids)
      ensures |ids| == |folders|
    {
      ids := [];
      var remaining := folders.Keys;
      while remaining != {}
        invariant remaining <= folders.Keys
        invariant forall id :: id in ids <==> id in folders && id !in remaining
        invariant Chunks.NoDuplicates(ids)
        invariant |ids| + |remaining| == |folders.Keys|
        decreases |remaining|
      {
        var id :| id in remaining;
        ids := ids + [id];
        remaining := remaining - {id};
      }
    }

    /** `get_stats`: one document per folder and every file inside the folders counted. */
    method GetStats() returns (s: Stats)
      ensures s == LocalStats(folders, cacheDir)
    {
      var documentsCount := 0;
      var totalFiles := 0;
      var remaining := folders.Keys;
      assert Restrict(folders, remaining) == folders;
      while remaining != {}
        invariant remaining <= folders.Keys
        invariant documentsCount + |remaining| == |folders.Keys|
        invariant totalFiles + TotalFiles(Restrict(folders, remaining)) == TotalFiles(folders)
        decreases |remaining|
      {
        var id :| id in remaining;
        CountOneFolder(folders, remaining, id);
        documentsCount := documentsCount + 1;
        totalFiles := totalFiles + FileCount(folders[id]);
        remaining := remaining - {id};
      }
      assert Restrict(folders, remaining) == map[];
      s := Stats("local", cacheDir, documentsCount, totalFiles);
    }
  }
}

=== FILE: rag_service.dfy ===
/**
 * Retrieval-augmented answering: the question is embedded, the nearest chunks are fetched from the
 * vector index, and (unless nothing was found) a context string with one numbered part per chunk is
 * placed into a fixed prompt for the chat model. The embedding service and the chat model are
 * abstract, fallible objects; the vector index is the one of `VectorService`.
 */
module RagService {
  import opened Wrappers
  import opened Text
  import VectorService

  const ModelName := "gpt-4-turbo-preview"
  const Temperature: real := 0.1
  const MaxTokens := 1000

  /** Characters of chunk text shown in a source preview, and the marker appended to it. */
  const PreviewLength := 200
  const PreviewMarker := "..."
  /** The filename shown when a chunk's metadata has none. */
  const UnknownFilename := "Unknown"
  const PipelineFailedPrefix := "RAG pipeline failed: "

  /** The text between the context and the question in the prompt, and the text after the question. */
  const PromptMiddle := "\n\nQuestion: "
  const PromptTail := "\n\nAnswer:"

  /**
   * The fixed wording of the service: the system message, the instructions that open every
   * prompt, and the answer given when nothing was retrieved.
   */
  datatype Wording = Wording(systemInstruction: string, promptHead: string, noInformation: string)

  /** The wording the service ships with. */
  const StandardWording := Wording(
    "You are a helpful assistant that answers questions based on provided context. "
    + "If the context doesn't contain enough information to answer the question, "
    + "say so explicitly. Always base your answers on the provided context.",
    "You are a helpful assistant. Answer the question based on the provided context.\n\n"
    + "If the context doesn't contain enough information to answer the question, say \"I don't have "
    + "enough information to answer that based on the provided documents.\"\n\nContext:\n",
    "I don't have enough information to answer that question. Please upload relevant documents first.")

  /** The `headings` metadata value: a JSON-encoded list, or a list stored as is. */
  datatype HeadingsField = HeadingsJson(encoded: string) | HeadingsList(items: seq<string>)

  /** A retrieved chunk as the context and source builders read it; every key may be missing. */
  datatype RetrievedChunk = RetrievedChunk(
    text: Option<string>,
    score: Option<real>,
    filename: Option<string>,
    chunkIndex: Option<int>,
    headings: Option<HeadingsField>)

  /** An entry of a search result, seen as a retrieved chunk: search keeps no headings. */
  function FromHit(h: VectorService.Hit): (c: RetrievedChunk)
    ensures c.headings.None?
  {
    RetrievedChunk(Some(h.text), Some(h.score), Some(h.metadata.filename), Some(h.metadata.chunkIndex), None)
  }

  function Retrieved(hits: seq<VectorService.Hit>): (r: seq<RetrievedChunk>)
    ensures |r| == |hits|
  {
    seq(|hits|, k requires 0 <= k < |hits| => FromHit(hits[k]))
  }

  /**
   * The headings of a chunk. `parse` stands for JSON decoding (`None` when the text does not
   * decode to a list of strings); a missing key reads as the empty list.
   */
  function Headings(c: RetrievedChunk, parse: string -> Option<seq<string>>): seq<string> {
    match c.headings
    case None => []
    case Some(HeadingsList(hs)) => hs
    case Some(HeadingsJson(t)) => parse(t).GetOr([])
  }

  /** The first line of a context part; `scoreText` is the score written with three decimals. */
  function SourceLine(i: nat, filename: string, scoreText: string): string {
    "[Source " + NatToString(i) + ": " + filename + " (relevance: " + scoreText + ")]\n"
  }

  function SectionLine(headings: seq<string>): string {
    "[Section: " + Join(" > ", headings) + "]\n"
  }

  /** The context part of the `i`-th chunk; `format` writes a score with three decimals. */
  function ContextPart(i: nat, c: RetrievedChunk, parse: string -> Option<seq<string>>, format: real -> string): string {
    var headings := Headings(c, parse);
    SourceLine(i, c.filename.GetOr(UnknownFilename), format(c.score.GetOr(0.0)))
    + (if |headings| > 0 then SectionLine(headings) else "")
    + c.text.GetOr("") + "\n"
  }

  /** The parts of the context, numbered from 1 in retrieval order. */
  function ContextParts(chunks: seq<RetrievedChunk>, parse: string -> Option<seq<string>>, format: real -> string): (r: seq<string>)
    ensures |r| == |chunks|
  {
    seq(|chunks|, k requires 0 <= k < |chunks| => ContextPart(k + 1, chunks[k], parse, format))
  }

  function Context(chunks: seq<RetrievedChunk>, parse: string -> Option<seq<string>>, format: real -> string): string {
    Join("\n", ContextParts(chunks, parse, format))
  }

  /**
   * A part consists of the source line, then the section line exactly when the chunk has
   * headings, then the chunk text.
   */
  lemma ContextPartShape(i: nat, c: RetrievedChunk, parse: string -> Option<seq<string>>, format: real -> string)
    ensures var head := SourceLine(i, c.filename.GetOr(UnknownFilename), format(c.score.GetOr(0.0)));
      var hs := Headings(c, parse);
      (hs != [] ==> ContextPart(i, c, parse, format) == head + SectionLine(hs) + c.text.GetOr("") + "\n") &&
      (hs == [] ==> ContextPart(i, c, parse, format) == head + c.text.GetOr("") + "\n")
  {
  }

  /** A chunk's part differs from the part it would have without headings iff it has headings. */
  lemma SectionIffHeadings(i: nat, c: RetrievedChunk, parse: string -> Option<seq<string>>, format: real -> string)
    ensures ContextPart(i, c, parse, format) != ContextPart(i, c.(headings := None), parse, format)
      <==> Headings(c, parse) != []
  {
    var hs := Headings(c, parse);
    if hs != [] {
      assert |ContextPart(i, c, parse, format)| == |ContextPart(i, c.(headings := None), parse, format)| + |SectionLine(hs)|;
    }
  }

  /** Headings text that does not decode reads like a chunk without headings. */
  lemma UndecodableHeadingsIgnored(i: nat, c: RetrievedChunk, t: string, parse: string -> Option<seq<string>>, format: real -> string)
    requires c.headings == Some(HeadingsJson(t)) && parse(t).None?
    ensures ContextPart(i, c, parse, format) == ContextPart(i, c.(headings := None), parse, format)
  {
  }

  /** Chunks that come straight from a search never get a section line. */
  lemma SearchHitsHaveNoSection(i: nat, h: VectorService.Hit, parse: string -> Option<seq<string>>, format: real -> string)
    ensures ContextPart(i, FromHit(h), parse, format) == SourceLine(i, h.metadata.filename, format(h.score)) + h.text + "\n"
  {
  }

  /** One more retrieved chunk adds one part, numbered after the others, behind a newline. */
  lemma ContextSnoc(chunks: seq<RetrievedChunk>, c: RetrievedChunk, parse: string -> Option<seq<string>>, format: real -> string)
    requires chunks != []
    ensures Context(chunks + [c], parse, format) == Context(chunks, parse, format) + "\n" + ContextPart(|chunks| + 1, c, parse, format)
  {
    assert ContextParts(chunks + [c], parse, format) == ContextParts(chunks, parse, format) + [ContextPart(|chunks| + 1, c, parse, format)];
    JoinSnoc("\n", ContextParts(chunks, parse, format), ContextPart(|chunks| + 1, c, parse, format));
  }

  /** `_build_context`: the parts collected in a loop, then joined with newlines. */
  method BuildContext(chunks: seq<RetrievedChunk>, parse: string -> Option<seq<string>>, format: real -> string)
    returns (context: string)
    ensures context == Context(chunks, parse, format)
  {
    var parts: seq<string> := [];
    var i := 0;
    while i < |chunks|
      invariant 0 <= i <= |chunks| && |parts| == i
      invariant forall k :: 0 <= k < i ==> parts[k] == ContextPart(k + 1, chunks[k], parse, format)
    {
      parts := parts + [ContextPart(i + 1, chunks[i], parse, format)];
      i := i + 1;
    }
    assert parts == ContextParts(chunks, parse, format);
    context := Join("\n", parts);
  }

  /** `_create_prompt`: the fixed instructions, then the context, then the question. */
  function CreatePrompt(w: Wording, question: string, context: string): (p: string)
    ensures |p| == |w.promptHead| + |context| + |PromptMiddle| + |question| + |PromptTail|
    ensures StartsWith(p, w.promptHead)
    ensures p[|w.promptHead|..|w.promptHead| + |context|] == context
    ensures p[|w.promptHead| + |context|..|p| - |PromptTail| - |question|] == PromptMiddle
    ensures p[|p| - |PromptTail| - |question|..|p| - |PromptTail|] == question
    ensures p[|p| - |PromptTail|..] == PromptTail
  {
    w.promptHead + context + PromptMiddle + question + PromptTail
  }

  /** One entry of the `sources` list of an answer. */
  datatype Source = Source(filename: string, chunkIndex: int, relevanceScore: real, preview: string)

  function SourceOf(c: RetrievedChunk): (s: Source)
    ensures |PreviewMarker| <= |s.preview| <= PreviewLength + |PreviewMarker|
    ensures s.preview[|s.preview| - |PreviewMarker|..] == PreviewMarker
    ensures StartsWith(c.text.GetOr(""), s.preview[..|s.preview| - |PreviewMarker|])
    ensures |c.text.GetOr("")| <= PreviewLength ==> s.preview == c.text.GetOr("") + PreviewMarker
    ensures |s.preview| == (if |c.text.GetOr("")| <= PreviewLength then |c.text.GetOr("")| else PreviewLength) + |PreviewMarker|
    ensures c.filename.None? ==> s.filename == UnknownFilename
  {
    Source(c.filename.GetOr(UnknownFilename), c.chunkIndex.GetOr(0), c.score.GetOr(0.0),
           Take(c.text.GetOr(""), PreviewLength) + PreviewMarker)
  }

  /** `_format_sources`: one source per chunk, in order. */
  method FormatSources(chunks: seq<RetrievedChunk>) returns (sources: seq<Source>)
    ensures |sources| == |chunks|
    ensures forall k :: 0 <= k < |chunks| ==> sources[k] == SourceOf(chunks[k])
  {
    sources := [];
    var i := 0;
    while i < |chunks|
      invariant 0 <= i <= |chunks| && |sources| == i
      invariant forall k :: 0 <= k < i ==> sources[k] == SourceOf(chunks[k])
    {
      sources := sources + [SourceOf(chunks[i])];
      i := i + 1;
    }
  }

  /** The answer dictionary; `sources` is absent unless requested (or nothing was found). */
  datatype Answer = Answer(
    question: string,
    answer: Option<string>,
    sources: Option<seq<Source>>,
    chunksUsed: nat,
    model: string)

  /** The answer given without calling the chat model when the search finds nothing. */
  function NoInformation(w: Wording, question: string): (a: Answer)
    ensures a.chunksUsed == 0 && a.sources == Some([]) && a.model == ModelName
  {
    Answer(question, Some(w.noInformation), Some([]), 0, ModelName)
  }

  datatype ChatMessage = ChatMessage(role: string, content: string)

  datatype ChatRequest = ChatRequest(model: string, messages: seq<ChatMessage>, temperature: real, maxTokens: nat)

  /** The chat completion request for a prompt: the fixed system message, then the prompt. */
  function RequestFor(w: Wording, prompt: string): (q: ChatRequest)
    ensures q.model == ModelName && q.maxTokens == MaxTokens
    ensures |q.messages| == 2 && q.messages[1] == ChatMessage("user", prompt)
    ensures q.messages[0] == ChatMessage("system", w.systemInstruction) && q.temperature == Temperature
  {
    ChatRequest(ModelName, [ChatMessage("system", w.systemInstruction), ChatMessage("user", prompt)], Temperature, MaxTokens)
  }

  /** The embedding service: each request is recorded; its outcome is fixed in advance. */
  class Embedder {
    const embed: (nat, string) -> Result<seq<real>>
    var requests: seq<string>

    constructor(embed: (nat, string) -> Result<seq<real>>)
      ensures this.embed == embed && requests == []
    {
      this.embed := embed;
      requests := [];
    }

    method Embed(text: string) returns (r: Result<seq<real>>)
      modifies this
      ensures requests == old(requests) + [text]
      ensures r == embed(|old(requests)|, text)
    {
      r := embed(|requests|, text);
      requests := requests + [text];
    }
  }

  /** The chat model: each request is recorded; the reply content may be missing. */
  class ChatModel {
    const reply: (nat, ChatRequest) -> Result<Option<string>>
    var requests: seq<ChatRequest>

    constructor(reply: (nat, ChatRequest) -> Result<Option<string>>)
      ensures this.reply == reply && requests == []
    {
      this.reply := reply;
      requests := [];
    }

    method Complete(q: ChatRequest) returns (r: Result<Option<string>>)
      modifies this
      ensures requests == old(requests) + [q]
      ensures r == reply(|old(requests)|, q)
    {
      r := reply(|requests|, q);
      requests := requests + [q];
    }
  }

  class Pipeline {
    const embedder: Embedder
    const vectors: VectorService.VectorStore
    const llm: ChatModel
    const wording: Wording

    constructor(embedder: Embedder, vectors: VectorService.VectorStore, llm: ChatModel)
      ensures this.embedder == embedder && this.vectors == vectors && this.llm == llm
      ensures wording == StandardWording
    {
      this.embedder := embedder;
      this.vectors := vectors;
      this.llm := llm;
      wording := StandardWording;
    }

    /**
     * `generate_answer`: embed, search, and either give the canned answer (nothing found, model
     * not called) or ask the model with the context of the hits. Every failure is reported with
     * the pipeline prefix.
     */
    method GenerateAnswer(question: string, topK: int, namespace: string, includeSources: bool,
                          parse: string -> Option<seq<string>>, format: real -> string)
      returns (r: Result<Answer>)
      modifies embedder, vectors.index, llm
      ensures embedder.requests == old(embedder.requests) + [question]
      ensures vectors.index.upserts == old(vectors.index.upserts)
      ensures var e := embedder.embed(|old(embedder.requests)|, question);
        e.Failure? ==>
          r == Failure(PipelineFailedPrefix + e.error) &&
          vectors.index.queries == old(vectors.index.queries) && llm.requests == old(llm.requests)
      ensures var e := embedder.embed(|old(embedder.requests)|, question);
        e.Success? ==>
          var q := VectorService.QueryCall(e.value, topK, true, namespace, None);
          var a := vectors.index.answer(|old(vectors.index.queries)|, q);
          vectors.index.queries == old(vectors.index.queries) + [q] &&
          (a.Failure? ==>
            r == Failure(PipelineFailedPrefix + VectorService.SearchFailedPrefix + a.error) &&
            llm.requests == old(llm.requests)) &&
          (a.Success? && a.value == [] ==>
            r == Success(NoInformation(wording, question)) && llm.requests == old(llm.requests))
      ensures var e := embedder.embed(|old(embedder.requests)|, question);
        e.Success? ==>
          var q := VectorService.QueryCall(e.value, topK, true, namespace, None);
          var a := vectors.index.answer(|old(vectors.index.queries)|, q);
          a.Success? && a.value != [] ==>
          var chunks := Retrieved(VectorService.Shaped(e.value, a.value).chunks);
          var request := RequestFor(wording, CreatePrompt(wording, question, Context(chunks, parse, format)));
          var c := llm.reply(|old(llm.requests)|, request);
          llm.requests == old(llm.requests) + [request] &&
          r == if c.Failure? then Failure(PipelineFailedPrefix + c.error)
               else Success(Answer(question, c.value, if includeSources then Some(Sources(chunks)) else None,
                                   |a.value|, ModelName))
    {
      var embedding := embedder.Embed(question);
      if embedding.Failure? {
        return Failure(PipelineFailedPrefix + embedding.error);
      }
      var found := vectors.Search(embedding.value, topK, namespace, None);
      if found.Failure? {
        return Failure(PipelineFailedPrefix + found.error);
      }
      var hits := found.value.chunks;
      if |hits| == 0 {
        return Success(NoInformation(wording, question));
      }
      var chunks := Retrieved(hits);
      var context := BuildContext(chunks, parse, format);
      var prompt := CreatePrompt(wording, question, context);
      var reply := llm.Complete(RequestFor(wording, prompt));
      if reply.Failure? {
        return Failure(PipelineFailedPrefix + reply.error);
      }
      var sources: Option<seq<Source>> := None;
      if includeSources {
        var s := FormatSources(chunks);
        assert s == Sources(chunks);
        sources := Some(s);
      }
      r := Success(Answer(question, reply.value, sources, |hits|, ModelName));
    }
  }

  /** The sources of an answer. */
  function Sources(chunks: seq<RetrievedChunk>): (r: seq<Source>)
    ensures |r| == |chunks|
  {
    seq(|chunks|, k requires 0 <= k < |chunks| => SourceOf(chunks[k]))
  }
}

=== FILE: sql_service.dfy ===
/**
 * The Text-to-SQL service: composing the agent message from the schema documentation and the
 * question, pulling the SQL out of the agent's streamed components, and the human-in-the-loop
 * approval workflow (generate, hold as pending, then execute or reject) with its two caches.
 */
module SqlService {
  import opened Wrappers
  import opened Text

  // ---------------------------------------------------------------------------------------------
  // Messages and fixed strings
  // ---------------------------------------------------------------------------------------------

  const QuestionMarker := "\n\nQUESTION: "
  const NoSqlMessage := "Agent did not generate SQL. Please try rephrasing your question."
  const NotPreparedMessage := "Schema context not prepared. Call complete_training() first."
  const GenerateFailedPrefix := "Failed to generate SQL: "
  const ExecuteFailedPrefix := "Failed to execute SQL: "
  const DefaultExplanation := "This SQL will retrieve data from your database. Please review before approving."
  const PendingStatus := "pending_approval"
  const CostSavedOnHit := "$0.08"
  const CostSavedOnMiss := "$0.00"
  const NotFoundMessage := "Query ID not found"
  const CancelledMessage := "Query execution cancelled by user"
  const ResultCountKeyError := "'result_count'"

  /** The message the agent receives: the schema documentation, a marker, then the question. */
  function ComposeMessage(schemaContext: string, question: string): (r: string)
    ensures schemaContext == "" ==> r == question
    ensures schemaContext != "" ==> StartsWith(r, schemaContext)
    ensures schemaContext != "" ==> r[|schemaContext|..] == QuestionMarker + question
  {
    if schemaContext != "" then schemaContext + QuestionMarker + question else question
  }

  // ---------------------------------------------------------------------------------------------
  // Recognising a read-only query
  // ---------------------------------------------------------------------------------------------

  /** A query is cached only when, stripped and upper-cased, it starts with SELECT. */
  predicate IsSelectQuery(sql: string) {
    StartsWith(Upper(Strip(sql)), "SELECT")
  }

  /** Leading white space does not change whether a query counts as a SELECT. */
  lemma SelectIgnoresLeadingSpace(c: char, sql: string)
    requires IsSpace(c)
    ensures IsSelectQuery([c] + sql) == IsSelectQuery(sql)
  {
    StripIgnoresLeadingSpace(c, sql);
  }

  lemma LowerKeepsSpace(c: char)
    ensures IsSpace(LowerChar(c)) == IsSpace(c)
  {
  }

  lemma {:induction false} TrimLeftLower(s: string)
    ensures TrimLeft(Lower(s)) == Lower(TrimLeft(s))
    decreases |s|
  {
    if |s| > 0 {
      LowerKeepsSpace(s[0]);
      assert Lower(s)[1..] == Lower(s[1..]);
      if IsSpace(s[0]) {
        TrimLeftLower(s[1..]);
      }
    }
  }

  lemma {:induction false} TrimRightLower(s: string)
    ensures TrimRight(Lower(s)) == Lower(TrimRight(s))
    decreases |s|
  {
    if |s| > 0 {
      LowerKeepsSpace(s[|s| - 1]);
      assert Lower(s)[..|s| - 1] == Lower(s[..|s| - 1]);
      if IsSpace(s[|s| - 1]) {
        TrimRightLower(s[..|s| - 1]);
      }
    }
  }

  lemma UpperOfLower(t: string)
    ensures Upper(Lower(t)) == Upper(t)
  {
    assert forall i :: 0 <= i < |t| ==> UpperChar(LowerChar(t[i])) == UpperChar(t[i]);
  }

  /** The SELECT test does not depend on letter case: a lower-cased query is classified alike. */
  lemma SelectIgnoresCase(sql: string)
    ensures IsSelectQuery(Lower(sql)) == IsSelectQuery(sql)
  {
    TrimLeftLower(sql);
    TrimRightLower(TrimLeft(sql));
    UpperOfLower(Strip(sql));
  }

  // ---------------------------------------------------------------------------------------------
  // Extracting the SQL from the agent's stream
  // ---------------------------------------------------------------------------------------------

  /** One streamed UI component: optional metadata (a string dictionary) and optional text content. */
  datatype Component = Component(metadata: Option<map<string, string>>, content: Option<string>)

  /** A code-block piece whose stripped, lower-cased text starts with `sql` contributes its text after the first three characters, stripped. */
  predicate IsSqlPart(part: string) {
    StartsWith(Lower(Strip(part)), "sql")
  }

  /** The SQL a code-block piece carries: its text after the first three characters, stripped, if it is a SQL piece. */
  function PartSql(part: string): Option<string> {
    if IsSqlPart(part) then Some(Strip(Drop(part, 3))) else None
  }

  /** A left-to-right scan in which every piece that `pick` accepts replaces the value carried so far. */
  function ScanPieces(pick: string -> Option<string>, parts: seq<string>, sql: Option<string>): Option<string>
    decreases |parts|
  {
    if parts == [] then sql
    else ScanPieces(pick, parts[1..], if pick(parts[0]).Some? then pick(parts[0]) else sql)
  }

  /** What `pick` accepts from the pieces, in order. */
  function Picked(pick: string -> Option<string>, parts: seq<string>): (r: seq<string>)
    ensures |r| <= |parts|
    decreases |parts|
  {
    if parts == [] then []
    else (if pick(parts[0]).Some? then [pick(parts[0]).value] else []) + Picked(pick, parts[1..])
  }

  /** The scan ends with the last accepted piece; with none accepted it keeps the value it started from. */
  lemma {:induction false} ScanPiecesLast(pick: string -> Option<string>, parts: seq<string>, sql: Option<string>)
    ensures var picked := Picked(pick, parts);
      ScanPieces(pick, parts, sql) == if picked == [] then sql else Some(picked[|picked| - 1])
    decreases |parts|
  {
    if parts != [] {
      var own := pick(parts[0]);
      var next := if own.Some? then own else sql;
      var head := if own.Some? then [own.value] else [];
      var tail := Picked(pick, parts[1..]);
      assert Picked(pick, parts) == head + tail;
      ScanPiecesLast(pick, parts[1..], next);
      if tail == [] {
        assert head + tail == head;
      } else {
        assert (head + tail)[|head + tail| - 1] == tail[|tail| - 1];
      }
    }
  }

  /** The SQL after scanning the code-block pieces left to right, starting from `sql`. */
  function SqlFromParts(parts: seq<string>, sql: Option<string>): Option<string> {
    ScanPieces(PartSql, parts, sql)
  }

  /** The SQL texts of the SQL pieces, in order. */
  function SqlPieces(parts: seq<string>): seq<string> {
    Picked(PartSql, parts)
  }

  /** The scan ends with the SQL of the last SQL piece; with no SQL piece it keeps the value it started from. */
  lemma SqlFromPartsLast(parts: seq<string>, sql: Option<string>)
    ensures var pieces := SqlPieces(parts);
      SqlFromParts(parts, sql) == if pieces == [] then sql else Some(pieces[|pieces| - 1])
  {
    ScanPiecesLast(PartSql, parts, sql);
  }

  /** Whether a component's content holds a fenced SQL block (`'```sql' in content.lower()`). */
  predicate HasSqlBlock(c: Component) {
    c.content.Some? && c.content.value != "" && Contains(Lower(c.content.value), "```sql")
  }

  /** The SQL after one component: its metadata `sql` entry replaces `sql`, then its code blocks may replace that. */
  function SqlFromComponent(c: Component, sql: Option<string>): Option<string> {
    var afterMeta := if c.metadata.Some? && "sql" in c.metadata.value then Some(c.metadata.value["sql"]) else sql;
    if HasSqlBlock(c) then SqlFromParts(Split(c.content.value, "```"), afterMeta) else afterMeta
  }

  /** The SQL after all components, in stream order. */
  function SqlFromComponents(cs: seq<Component>, sql: Option<string>): Option<string>
    decreases |cs|
  {
    if cs == [] then sql else SqlFromComponents(cs[1..], SqlFromComponent(cs[0], sql))
  }

  /** The outcome of extraction: the last SQL seen, or the no-SQL error when none (or an empty one) was seen. */
  function ExtractedSql(cs: seq<Component>): (r: Result<string>)
    ensures r.Success? ==> r.value != "" && SqlFromComponents(cs, None) == Some(r.value)
    ensures r.Failure? ==> r.error == NoSqlMessage
  {
    var s := SqlFromComponents(cs, None);
    if s.None? || s.value == "" then Failure(NoSqlMessage) else Success(s.value)
  }

  /** The loop over the pieces of a content string split at the code fences. */
  method ScanCodeBlocks(parts: seq<string>, start: Option<string>) returns (sql: Option<string>)
    ensures sql == SqlFromParts(parts, start)
  {
    sql := start;
    var j := 0;
    while j < |parts|
      invariant 0 <= j <= |parts|
      invariant SqlFromParts(parts[j..], sql) == SqlFromParts(parts, start)
    {
      assert parts[j..][1..] == parts[j + 1..];
      if StartsWith(Lower(Strip(parts[j])), "sql") {
        sql := Some(Strip(Drop(parts[j], 3)));
      }
      j := j + 1;
    }
    assert parts[j..] == [];
  }

  /** The extraction loop over the stream. */
  method ExtractSql(components: seq<Component>) returns (r: Result<string>)
    ensures r == ExtractedSql(components)
  {
    var sql: Option<string> := None;
    var i := 0;
    while i < |components|
      invariant 0 <= i <= |components|
      invariant SqlFromComponents(components[i..], sql) == SqlFromComponents(components, None)
    {
      var c := components[i];
      assert components[i..][1..] == components[i + 1..];
      if c.metadata.Some? && "sql" in c.metadata.value {
        sql := Some(c.metadata.value["sql"]);
      }
      if c.content.Some? && c.content.value != "" {
        var content := c.content.value;
        if Contains(Lower(content), "```sql") {
          sql := ScanCodeBlocks(Split(content, "```"), sql);
        }
      }
      i := i + 1;
    }
    if sql.None? || sql.value == "" {
      r := Failure(NoSqlMessage);
    } else {
      r := Success(sql.value);
    }
  }

  /** Scanning pieces either finds SQL of its own, which then wins, or leaves the earlier value. */
  lemma PartsOverride(parts: seq<string>, prev: Option<string>)
    ensures SqlFromParts(parts, prev) == (if SqlFromParts(parts, None).Some? then SqlFromParts(parts, None) else prev)
  {
    SqlFromPartsLast(parts, prev);
    SqlFromPartsLast(parts, None);
  }

  /** A component either carries SQL of its own, which then wins, or leaves the earlier value. */
  lemma ComponentOverride(c: Component, prev: Option<string>)
    ensures SqlFromComponent(c, prev) == (if SqlFromComponent(c, None).Some? then SqlFromComponent(c, None) else prev)
  {
    if HasSqlBlock(c) {
      var parts := Split(c.content.value, "```");
      var meta := if c.metadata.Some? && "sql" in c.metadata.value then Some(c.metadata.value["sql"]) else None;
      PartsOverride(parts, meta);
      PartsOverride(parts, if meta.Some? then meta else prev);
    }
  }

  lemma {:induction false} ComponentsSnoc(cs: seq<Component>, c: Component, sql: Option<string>)
    ensures SqlFromComponents(cs + [c], sql) == SqlFromComponent(c, SqlFromComponents(cs, sql))
    decreases |cs|
  {
    if cs != [] {
      assert (cs + [c])[1..] == cs[1..] + [c];
      ComponentsSnoc(cs[1..], c, SqlFromComponent(cs[0], sql));
    } else {
      assert [c][1..] == [];
    }
  }

  /**
   * The last component that carries SQL decides: a later component with SQL of its own overrides
   * everything streamed before it, and one without SQL leaves the earlier answer in place.
   */
  lemma LaterComponentWins(cs: seq<Component>, c: Component)
    ensures SqlFromComponent(c, None).Some? ==> SqlFromComponents(cs + [c], None) == SqlFromComponent(c, None)
    ensures SqlFromComponent(c, None).None? ==> SqlFromComponents(cs + [c], None) == SqlFromComponents(cs, None)
  {
    ComponentsSnoc(cs, c, None);
    ComponentOverride(c, SqlFromComponents(cs, None));
  }

  /** A metadata `sql` entry on a component without content is what gets extracted. */
  lemma MetadataSqlExtracted(cs: seq<Component>, meta: map<string, string>)
    requires "sql" in meta && meta["sql"] != ""
    ensures ExtractedSql(cs + [Component(Some(meta), None)]) == Success(meta["sql"])
  {
    LaterComponentWins(cs, Component(Some(meta), None));
  }

  /** A stream with no metadata and no content yields the no-SQL error. */
  lemma {:induction false} SilentStreamFails(cs: seq<Component>)
    requires forall i :: 0 <= i < |cs| ==> cs[i] == Component(None, None)
    ensures ExtractedSql(cs) == Failure(NoSqlMessage)
  {
    var k := 0;
    while k < |cs|
      invariant 0 <= k <= |cs|
      invariant SqlFromComponents(cs[..k], None) == None
    {
      assert cs[..k + 1] == cs[..k] + [cs[k]];
      LaterComponentWins(cs[..k], cs[k]);
      k := k + 1;
    }
    assert cs[..|cs|] == cs;
  }

  // ---------------------------------------------------------------------------------------------
  // External collaborators
  // ---------------------------------------------------------------------------------------------

  /** The LLM agent: `respond(n, message)` is its streamed answer to the n-th message it is sent. */
  class SqlAgent {
    const respond: (nat, string) -> Result<seq<Component>>
    var messages: seq<string>

    constructor(respond: (nat, string) -> Result<seq<Component>>)
      ensures this.respond == respond && messages == []
    {
      this.respond := respond;
      messages := [];
    }

    method SendMessage(message: string) returns (r: Result<seq<Component>>)
      modifies this
      ensures messages == old(messages) + [message]
      ensures r == respond(|old(messages)|, message)
    {
      r := respond(|messages|, message);
      messages := messages + [message];
    }
  }

  /** One result row, as a column-to-value dictionary. */
  type Row = map<string, string>

  /** The database: `run(n, sql)` is the outcome of the n-th statement it executes. */
  class SqlExecutor {
    const run: (nat, string) -> Result<seq<Row>>
    var executed: seq<string>

    constructor(run: (nat, string) -> Result<seq<Row>>)
      ensures this.run == run && executed == []
    {
      this.run := run;
      executed := [];
    }

    method Run(sql: string) returns (r: Result<seq<Row>>)
      modifies this
      ensures executed == old(executed) + [sql]
      ensures r == run(|old(executed)|, sql)
    {
      r := run(|executed|, sql);
      executed := executed + [sql];
    }
  }

  /** The agent call: compose the message, send it, and extract the SQL from the stream. */
  method GenerateSqlAsync(agent: SqlAgent, question: string, schemaContext: string) returns (r: Result<string>)
    modifies agent
    ensures agent.messages == old(agent.messages) + [ComposeMessage(schemaContext, question)]
    ensures var answer := agent.respond(|old(agent.messages)|, ComposeMessage(schemaContext, question));
      r == if answer.Failure? then Failure(answer.error) else ExtractedSql(answer.value)
  {
    var message := ComposeMessage(schemaContext, question);
    var stream := agent.SendMessage(message);
    if stream.Failure? {
      return Failure(stream.error);
    }
    r := ExtractSql(stream.value);
  }

  /** Direct execution; a database error is re-raised with a prefix. */
  method ExecuteSqlAsync(executor: SqlExecutor, sql: string) returns (r: Result<seq<Row>>)
    modifies executor
    ensures executor.executed == old(executor.executed) + [sql]
    ensures var outcome := executor.run(|old(executor.executed)|, sql);
      r == if outcome.Failure? then Failure(ExecuteFailedPrefix + outcome.error) else outcome
  {
    r := executor.Run(sql);
    if r.Failure? {
      r := Failure(ExecuteFailedPrefix + r.error);
    }
  }

  /** A cached SQL generation: the dictionary keys "sql", "explanation", "question". */
  datatype GenCacheValue = GenCacheValue(sql: Option<string>, explanation: Option<string>, question: Option<string>)

  /** A cached result set: the dictionary keys "results", "result_count", "sql", "executed_at". */
  datatype ResultCacheValue = ResultCacheValue(
    results: Option<seq<Row>>, resultCount: Option<nat>, sql: Option<string>, executedAt: Option<string>)

  datatype Cached<T> = Cached(value: T, ttl: int)

  /**
   * The query cache service: on/off switch, the two key derivations and the two stores. The
   * service talks to a remote store, so every `get` and every `set` may raise; whether the n-th
   * call of each kind fails, and with what message, is fixed in advance by `getError` and
   * `setError`.
   */
  class QueryCache {
    const enabled: bool
    const genKey: string -> string
    const resultKey: string -> string
    const getError: nat -> Option<string>
    const setError: nat -> Option<string>
    var sqlGen: map<string, Cached<GenCacheValue>>
    var sqlResult: map<string, Cached<ResultCacheValue>>
    /** How many `get` and `set` calls were made so far. */
    var gets: nat
    var sets: nat

    constructor(enabled: bool, genKey: string -> string, resultKey: string -> string,
                getError: nat -> Option<string>, setError: nat -> Option<string>)
      ensures this.enabled == enabled && this.genKey == genKey && this.resultKey == resultKey
      ensures this.getError == getError && this.setError == setError
      ensures sqlGen == map[] && sqlResult == map[] && gets == 0 && sets == 0
    {
      this.enabled := enabled;
      this.genKey := genKey;
      this.resultKey := resultKey;
      this.getError := getError;
      this.setError := setError;
      sqlGen := map[];
      sqlResult := map[];
      gets := 0;
      sets := 0;
    }

    /** `get(key, cache_type="sql_gen")`: the stored value, nothing when absent, or the raised error. */
    method GetSqlGen(key: string) returns (r: Result<Option<GenCacheValue>>)
      modifies this
      ensures gets == old(gets) + 1 && sets == old(sets)
      ensures sqlGen == old(sqlGen) && sqlResult == old(sqlResult)
      ensures r == if getError(old(gets)).Some? then Failure(getError(old(gets)).value)
                   else Success(if key in sqlGen then Some(sqlGen[key].value) else None)
    {
      var e := getError(gets);
      gets := gets + 1;
      if e.Some? {
        return Failure(e.value);
      }
      r := Success(if key in sqlGen then Some(sqlGen[key].value) else None);
    }

    /** `get(key, cache_type="sql_result")`. */
    method GetSqlResult(key: string) returns (r: Result<Option<ResultCacheValue>>)
      modifies this
      ensures gets == old(gets) + 1 && sets == old(sets)
      ensures sqlGen == old(sqlGen) && sqlResult == old(sqlResult)
      ensures r == if getError(old(gets)).Some? then Failure(getError(old(gets)).value)
                   else Success(if key in sqlResult then Some(sqlResult[key].value) else None)
    {
      var e := getError(gets);
      gets := gets + 1;
      if e.Some? {
        return Failure(e.value);
      }
      r := Success(if key in sqlResult then Some(sqlResult[key].value) else None);
    }

    /** `set(key, value, ttl, cache_type="sql_gen")`: stores the value unless the call raises. */
    method SetSqlGen(key: string, value: GenCacheValue, ttl: int) returns (err: Option<string>)
      modifies this
      ensures sets == old(sets) + 1 && gets == old(gets)
      ensures err == setError(old(sets))
      ensures sqlGen == (if err.None? then old(sqlGen)[key := Cached(value, ttl)] else old(sqlGen))
      ensures sqlResult == old(sqlResult)
    {
      err := setError(sets);
      sets := sets + 1;
      if err.None? {
        sqlGen := sqlGen[key := Cached(value, ttl)];
      }
    }

    /** `set(key, value, ttl, cache_type="sql_result")`. */
    method SetSqlResult(key: string, value: ResultCacheValue, ttl: int) returns (err: Option<string>)
      modifies this
      ensures sets == old(sets) + 1 && gets == old(gets)
      ensures err == setError(old(sets))
      ensures sqlResult == (if err.None? then old(sqlResult)[key := Cached(value, ttl)] else old(sqlResult))
      ensures sqlGen == old(sqlGen)
    {
      err := setError(sets);
      sets := sets + 1;
      if err.None? {
        sqlResult := sqlResult[key := Cached(value, ttl)];
      }
    }
  }

  // ---------------------------------------------------------------------------------------------
  // The schema documentation sent with every question
  // ---------------------------------------------------------------------------------------------

  const SchemaHeader := "DATABASE SCHEMA DOCUMENTATION"

  /** The content the schema documentation is assembled from: prose, table descriptions, golden examples. */
  datatype SchemaDoc = SchemaDoc(documentation: string, tables: seq<string>, examples: seq<(string, string)>)

  /** Three lines per example, numbered from `first`. */
  function ExampleLines(examples: seq<(string, string)>, first: nat): (r: seq<string>)
    ensures |r| == 3 * |examples|
    decreases |examples|
  {
    if examples == [] then []
    else
      ["\nExample " + NatToString(first) + ":", "Question: " + examples[0].0, "SQL: " + examples[0].1]
      + ExampleLines(examples[1..], first + 1)
  }

  /** Example k (counted from 0) is announced with number first + k, then its question, then its SQL. */
  lemma {:induction false} ExampleLinesNumbered(examples: seq<(string, string)>, first: nat, k: nat)
    requires k < |examples|
    ensures ExampleLines(examples, first)[3 * k] == "\nExample " + NatToString(first + k) + ":"
    ensures ExampleLines(examples, first)[3 * k + 1] == "Question: " + examples[k].0
    ensures ExampleLines(examples, first)[3 * k + 2] == "SQL: " + examples[k].1
    decreases k
  {
    if k > 0 {
      ExampleLinesNumbered(examples[1..], first + 1, k - 1);
    }
  }

  /** The pieces of the schema documentation, in the order they are joined. */
  function SchemaParts(doc: SchemaDoc): (r: seq<string>)
    ensures |r| == 7 + |doc.tables| + 3 * |doc.examples|
    ensures r[0] == SchemaHeader && r[1] == Repeat('=', 60) && r[2] == doc.documentation
    ensures r[3] == "\nTABLE SCHEMAS:" && r[5..5 + |doc.tables|] == doc.tables
    ensures r[5 + |doc.tables|] == "\nEXAMPLE QUERIES:"
    ensures r[7 + |doc.tables|..] == ExampleLines(doc.examples, 1)
  {
    [SchemaHeader, Repeat('=', 60), doc.documentation, "\nTABLE SCHEMAS:", Repeat('-', 60)]
    + doc.tables
    + ["\nEXAMPLE QUERIES:", Repeat('-', 60)]
    + ExampleLines(doc.examples, 1)
  }

  /** `_build_schema_context`: the parts joined by newlines; it always opens with the header. */
  function SchemaContextOf(doc: SchemaDoc): (r: string)
    ensures StartsWith(r, SchemaHeader) && r != ""
  {
    var parts := SchemaParts(doc);
    assert Join("\n", parts) == parts[0] + "\n" + Join("\n", parts[1..]);
    Join("\n", parts)
  }

  const Documentation :=
    "\nThis is an e-commerce database with three main tables:\n"
    + "- customers: Contains customer information including name, email, segment (SMB, Enterprise, Individual), and country\n"
    + "- products: Product catalog with name, category, price, stock quantity, and description\n"
    + "- orders: Customer orders with order date, total amount, status (Pending, Delivered, Cancelled, Processing), and shipping address\n"
    + "\nThe customers table has a one-to-many relationship with orders (one customer can have many orders).\n"
    + "\nIMPORTANT NOTES:\n"
    + "- For order revenue/pricing, use orders.total_amount (NOT 'price')\n"
    + "- Customer segments: 'SMB', 'Enterprise', 'Individual' (case-sensitive)\n"
    + "- Order statuses: 'Pending', 'Delivered', 'Cancelled', 'Processing' (case-sensitive)\n"
    + "- To join customers and orders: JOIN orders ON customers.id = orders.customer_id\n"

  const CustomersTable :=
    "\nTable: customers\nColumns:\n"
    + "  - id (SERIAL PRIMARY KEY)\n"
    + "  - name (VARCHAR) - Customer full name\n"
    + "  - email (VARCHAR) - Customer email address\n"
    + "  - segment (VARCHAR) - One of: 'SMB', 'Enterprise', 'Individual'\n"
    + "  - country (VARCHAR) - Customer country\n"
    + "  - created_at (TIMESTAMP)\n"
    + "  - updated_at (TIMESTAMP)\n"

  const ProductsTable :=
    "\nTable: products\nColumns:\n"
    + "  - id (SERIAL PRIMARY KEY)\n"
    + "  - name (VARCHAR) - Product name\n"
    + "  - category (VARCHAR) - Product category (Electronics, Software, Hardware, etc.)\n"
    + "  - price (DECIMAL) - Product unit price\n"
    + "  - stock_quantity (INT) - Current inventory count\n"
    + "  - description (TEXT)\n"
    + "  - created_at (TIMESTAMP)\n"
    + "  - updated_at (TIMESTAMP)\n"

  const OrdersTable :=
    "\nTable: orders\nColumns:\n"
    + "  - id (SERIAL PRIMARY KEY)\n"
    + "  - customer_id (INT) - Foreign key to customers.id\n"
    + "  - order_date (DATE) - Date of order\n"
    + "  - total_amount (DECIMAL) - TOTAL ORDER PRICE (use this for revenue, NOT 'price'!)\n"
    + "  - status (VARCHAR) - One of: 'Pending', 'Delivered', 'Cancelled', 'Processing'\n"
    + "  - shipping_address (TEXT)\n"
    + "  - created_at (TIMESTAMP)\n"
    + "  - updated_at (TIMESTAMP)\n"

  /** The golden question/SQL pairs, in order. */
  const ShopExamples: seq<(string, string)> := [
    ("How many customers do we have?", "SELECT COUNT(*) as customer_count FROM customers;"),
    ("What is the total revenue from all orders?", "SELECT SUM(total_amount) as total_revenue FROM orders;"),
    ("List all delivered orders", "SELECT * FROM orders WHERE status = 'Delivered' ORDER BY order_date DESC;"),
    ("How many orders per customer segment?", "SELECT c.segment, COUNT(o.id) as order_count FROM customers c LEFT JOIN orders o ON c.id = o.customer_id GROUP BY c.segment;"),
    ("Top 10 customers by total spending", "SELECT c.name, c.email, SUM(o.total_amount) as total_spent FROM customers c JOIN orders o ON c.id = o.customer_id GROUP BY c.id, c.name, c.email ORDER BY total_spent DESC LIMIT 10;")
  ]

  /** The documentation of the e-commerce database that the service hard-codes. */
  const ShopSchema := SchemaDoc(Documentation, [CustomersTable, ProductsTable, OrdersTable], ShopExamples)

  // ---------------------------------------------------------------------------------------------
  // The approval workflow
  // ---------------------------------------------------------------------------------------------

  /** A query awaiting the user's decision. */
  datatype PendingQuery = PendingQuery(question: string, sql: string, status: string, generatedAt: string, cacheHit: bool)

  /** What `generate_sql_for_approval` returns. */
  datatype ApprovalRequest = ApprovalRequest(
    queryId: string, question: string, sql: string, explanation: string, status: string, cacheHit: bool, costSaved: string)

  /** What `execute_approved_query` returns (or raises). */
  datatype Resolution =
    | NotFound
    | Rejected(queryId: string)
    | Executed(queryId: string, question: string, sql: string, results: seq<Row>, resultCount: nat, cacheHit: bool, cachedAt: Option<string>)
    | ExecFailed(queryId: string, error: string)
    | Raised(error: string)
  {
    /** The `status` entry of the returned dictionary. */
    function Status(): string {
      match this
      case NotFound => "error"
      case Rejected(_) => "rejected"
      case Executed(_, _, _, _, _, _, _) => "executed"
      case ExecFailed(_, _) => "error"
      case Raised(_) => "error"
    }
  }

  /** One entry of `get_pending_queries`: the id merged into the pending record. */
  datatype PendingView = PendingView(queryId: string, info: PendingQuery)

  class TextToSqlService {
    const agent: SqlAgent
    const executor: SqlExecutor
    const cache: QueryCache?
    const sqlGenTtl: int
    const sqlResultTtl: int
    /** What `_build_schema_context` assembles; the service is written for `ShopSchema`. */
    const schema: SchemaDoc
    var pendingQueries: map<string, PendingQuery>
    var isTrained: bool
    var schemaContext: string

    /** Every pending entry awaits approval. */
    predicate Valid()
      reads this
    {
      forall id :: id in pendingQueries ==> pendingQueries[id].status == PendingStatus
    }

    /** The cache is consulted only when a cache service is present and enabled. */
    predicate CacheOn() {
      cache != null && cache.enabled
    }

    /** The next cache `get` raises. */
    predicate ReadFails()
      reads this, cache
    {
      CacheOn() && cache.getError(cache.gets).Some?
    }

    /** The next cache `set` raises. */
    predicate WriteFails()
      reads this, cache
    {
      CacheOn() && cache.setError(cache.sets).Some?
    }

    /** What the agent's next answer yields as SQL for the question. */
    function Generation(question: string): Result<string>
      reads this, agent
    {
      var answer := agent.respond(|agent.messages|, ComposeMessage(schemaContext, question));
      if answer.Failure? then Failure(answer.error) else ExtractedSql(answer.value)
    }

    /** The lookup of an approved SELECT's result set raises. */
    predicate ResultReadFails(queryId: string)
      reads this, cache
    {
      queryId in pendingQueries && IsSelectQuery(pendingQueries[queryId].sql) && ReadFails()
    }

    /** A generation cache hit: an entry for the question that has an `sql` key. */
    predicate GenCacheHit(question: string)
      reads this, cache
    {
      CacheOn() && cache.genKey(question) in cache.sqlGen && cache.sqlGen[cache.genKey(question)].value.sql.Some?
    }

    /** A result cache hit: an entry for the statement that has a `results` key. */
    predicate ResultCacheHit(sql: string)
      reads this, cache
    {
      CacheOn() && cache.resultKey(sql) in cache.sqlResult && cache.sqlResult[cache.resultKey(sql)].value.results.Some?
    }

    /** An approved query is answered from the result cache: it is a SELECT whose result set is cached. */
    predicate ServedFromCache(queryId: string)
      reads this, cache
    {
      queryId in pendingQueries && IsSelectQuery(pendingQueries[queryId].sql) && ResultCacheHit(pendingQueries[queryId].sql)
    }

    constructor(agent: SqlAgent, executor: SqlExecutor, cache: QueryCache?, sqlGenTtl: int, sqlResultTtl: int)
      ensures this.agent == agent && this.executor == executor && this.cache == cache
      ensures this.sqlGenTtl == sqlGenTtl && this.sqlResultTtl == sqlResultTtl
      ensures schema == ShopSchema
      ensures pendingQueries == map[] && !isTrained && schemaContext == ""
      ensures Valid()
    {
      schema := ShopSchema;
      this.agent := agent;
      this.executor := executor;
      this.cache := cache;
      this.sqlGenTtl := sqlGenTtl;
      this.sqlResultTtl := sqlResultTtl;
      pendingQueries := map[];
      isTrained := false;
      schemaContext := "";
    }

    /** `complete_training`: install the schema documentation and mark the service ready. */
    method CompleteTraining()
      modifies this
      requires Valid()
      ensures Valid()
      ensures isTrained && schemaContext == SchemaContextOf(schema)
      ensures pendingQueries == old(pendingQueries)
    {
      schemaContext := SchemaContextOf(schema);
      isTrained := true;
    }

    /**
     * `generate_sql_for_approval`. `queryId` is the fresh identifier the source draws from uuid4,
     * `now` the timestamp it reads from the clock.
     */
    method GenerateSqlForApproval(question: string, queryId: string, now: string) returns (r: Result<ApprovalRequest>)
      modifies this, agent, cache
      requires Valid()
      requires queryId !in pendingQueries
      ensures Valid()
      ensures isTrained == old(isTrained) && schemaContext == old(schemaContext)
      ensures cache != null ==> cache.sqlResult == old(cache.sqlResult)
      // The cache is read once when the service is trained and the cache is on.
      ensures cache != null ==> cache.gets == old(cache.gets) + if old(isTrained) && CacheOn() then 1 else 0
      // Not trained: raised before anything else happens.
      ensures !old(isTrained) ==>
        r == Failure(NotPreparedMessage) && pendingQueries == old(pendingQueries) && agent.messages == old(agent.messages)
        && (cache != null ==> cache.sqlGen == old(cache.sqlGen) && cache.sets == old(cache.sets))
      // The cache lookup raises: the error propagates unwrapped and the agent is not asked.
      ensures old(isTrained) && old(ReadFails()) ==>
        r == Failure(old(cache.getError(cache.gets)).value) && pendingQueries == old(pendingQueries)
        && agent.messages == old(agent.messages) && cache.sqlGen == old(cache.sqlGen) && cache.sets == old(cache.sets)
      // Cache hit: the agent is not asked and the cached SQL is held for approval.
      ensures old(isTrained) && !old(ReadFails()) && old(GenCacheHit(question)) ==>
        var entry := old(cache.sqlGen[cache.genKey(question)].value);
        agent.messages == old(agent.messages) && cache.sqlGen == old(cache.sqlGen) && cache.sets == old(cache.sets)
        && pendingQueries == old(pendingQueries)[queryId := PendingQuery(question, entry.sql.value, PendingStatus, now, true)]
        && r == Success(ApprovalRequest(queryId, question, entry.sql.value, entry.explanation.GetOr(DefaultExplanation), PendingStatus, true, CostSavedOnHit))
      // Cache miss: the agent is asked once with the schema-prefixed question.
      ensures old(isTrained) && !old(ReadFails()) && !old(GenCacheHit(question)) ==>
        agent.messages == old(agent.messages) + [ComposeMessage(schemaContext, question)]
      // ... no SQL comes back: the error is wrapped and nothing is stored.
      ensures old(isTrained) && !old(ReadFails()) && !old(GenCacheHit(question)) && old(Generation(question)).Failure? ==>
        r == Failure(GenerateFailedPrefix + old(Generation(question)).error) && pendingQueries == old(pendingQueries)
        && (cache != null ==> cache.sqlGen == old(cache.sqlGen) && cache.sets == old(cache.sets))
      // ... SQL comes back but storing it in the cache raises: wrapped the same way, nothing is held.
      ensures old(isTrained) && !old(ReadFails()) && !old(GenCacheHit(question)) && old(Generation(question)).Success?
              && old(WriteFails()) ==>
        r == Failure(GenerateFailedPrefix + old(cache.setError(cache.sets)).value) && pendingQueries == old(pendingQueries)
        && cache.sqlGen == old(cache.sqlGen) && cache.sets == old(cache.sets) + 1
      // ... SQL comes back and is cached (when the cache is on) and held for approval.
      ensures old(isTrained) && !old(ReadFails()) && !old(GenCacheHit(question)) && old(Generation(question)).Success?
              && !old(WriteFails()) ==>
        var sql := old(Generation(question)).value;
        pendingQueries == old(pendingQueries)[queryId := PendingQuery(question, sql, PendingStatus, now, false)]
        && r == Success(ApprovalRequest(queryId, question, sql, DefaultExplanation, PendingStatus, false, CostSavedOnMiss))
        && (cache != null ==>
              cache.sets == old(cache.sets) + (if CacheOn() then 1 else 0)
              && cache.sqlGen == if CacheOn() then old(cache.sqlGen)[cache.genKey(question) := Cached(GenCacheValue(Some(sql), Some(DefaultExplanation), Some(question)), sqlGenTtl)]
                                 else old(cache.sqlGen))
    {
      if !isTrained {
        return Failure(NotPreparedMessage);
      }
      if cache != null && cache.enabled {
        var cached := cache.GetSqlGen(cache.genKey(question));
        if cached.Failure? {
          return Failure(cached.error);
        }
        if cached.value.Some? && cached.value.value.sql.Some? {
          var entry := cached.value.value;
          pendingQueries := pendingQueries[queryId := PendingQuery(question, entry.sql.value, PendingStatus, now, true)];
          return Success(ApprovalRequest(queryId, question, entry.sql.value, entry.explanation.GetOr(DefaultExplanation), PendingStatus, true, CostSavedOnHit));
        }
      }
      var generated := GenerateSqlAsync(agent, question, schemaContext);
      if generated.Failure? {
        return Failure(GenerateFailedPrefix + generated.error);
      }
      var sql := generated.value;
      assert WriteFails() == old(WriteFails());
      if cache != null && cache.enabled {
        var err := cache.SetSqlGen(cache.genKey(question), GenCacheValue(Some(sql), Some(DefaultExplanation), Some(question)), sqlGenTtl);
        if err.Some? {
          return Failure(GenerateFailedPrefix + err.value);
        }
      }
      pendingQueries := pendingQueries[queryId := PendingQuery(question, sql, PendingStatus, now, false)];
      r := Success(ApprovalRequest(queryId, question, sql, DefaultExplanation, PendingStatus, false, CostSavedOnMiss));
    }

    /** `execute_approved_query`; `now` is the timestamp stored with freshly cached results. */
    method ExecuteApprovedQuery(queryId: string, approved: bool, now: string) returns (r: Resolution)
      modifies this, executor, cache
      requires Valid()
      ensures Valid()
      ensures isTrained == old(isTrained) && schemaContext == old(schemaContext)
      ensures cache != null ==> cache.sqlGen == old(cache.sqlGen)
      // The result cache is read once for an approved SELECT when the cache is on.
      ensures cache != null ==>
        cache.gets == old(cache.gets)
                      + if queryId in old(pendingQueries) && approved && IsSelectQuery(old(pendingQueries)[queryId].sql) && CacheOn()
                        then 1 else 0
      // Unknown id: an error, and nothing changes.
      ensures queryId !in old(pendingQueries) ==>
        r == NotFound && pendingQueries == old(pendingQueries) && executor.executed == old(executor.executed)
        && (cache != null ==> cache.sqlResult == old(cache.sqlResult) && cache.sets == old(cache.sets))
      // Rejected: the entry is dropped and nothing is executed.
      ensures queryId in old(pendingQueries) && !approved ==>
        r == Rejected(queryId) && pendingQueries == old(pendingQueries) - {queryId} && executor.executed == old(executor.executed)
        && (cache != null ==> cache.sqlResult == old(cache.sqlResult) && cache.sets == old(cache.sets))
      // Approved, and the result cache lookup raises: the error propagates and the entry stays.
      ensures approved && old(ResultReadFails(queryId)) ==>
        r == Raised(old(cache.getError(cache.gets)).value) && pendingQueries == old(pendingQueries)
        && executor.executed == old(executor.executed) && cache.sqlResult == old(cache.sqlResult) && cache.sets == old(cache.sets)
      // Approved with a cached result set: the entry is dropped and nothing is executed.
      ensures approved && !old(ResultReadFails(queryId)) && old(ServedFromCache(queryId)) ==>
        var info := old(pendingQueries)[queryId];
        var entry := old(cache.sqlResult[cache.resultKey(info.sql)].value);
        pendingQueries == old(pendingQueries) - {queryId}
        && executor.executed == old(executor.executed) && cache.sqlResult == old(cache.sqlResult) && cache.sets == old(cache.sets)
        && r == if entry.resultCount.None? then Raised(ResultCountKeyError)
                else Executed(queryId, info.question, info.sql, entry.results.value, entry.resultCount.value, true, entry.executedAt)
      // Approved otherwise: the statement is executed once.
      ensures queryId in old(pendingQueries) && approved && !old(ResultReadFails(queryId)) && !old(ServedFromCache(queryId)) ==>
        executor.executed == old(executor.executed) + [old(pendingQueries)[queryId].sql]
      // ... and fails: the error is reported and the entry stays.
      ensures queryId in old(pendingQueries) && approved && !old(ResultReadFails(queryId)) && !old(ServedFromCache(queryId)) ==>
        var outcome := executor.run(|old(executor.executed)|, old(pendingQueries)[queryId].sql);
        outcome.Failure? ==>
          r == ExecFailed(queryId, ExecuteFailedPrefix + outcome.error) && pendingQueries == old(pendingQueries)
          && (cache != null ==> cache.sqlResult == old(cache.sqlResult) && cache.sets == old(cache.sets))
      // ... and succeeds, but storing a SELECT's rows raises: reported like a failure, the entry stays.
      ensures queryId in old(pendingQueries) && approved && !old(ResultReadFails(queryId)) && !old(ServedFromCache(queryId)) ==>
        var info := old(pendingQueries)[queryId];
        var outcome := executor.run(|old(executor.executed)|, info.sql);
        outcome.Success? && IsSelectQuery(info.sql) && old(WriteFails()) ==>
          r == ExecFailed(queryId, old(cache.setError(cache.sets)).value) && pendingQueries == old(pendingQueries)
          && cache.sqlResult == old(cache.sqlResult) && cache.sets == old(cache.sets) + 1
      // ... and succeeds: a SELECT's rows are cached (when the cache is on) and the entry is dropped.
      ensures queryId in old(pendingQueries) && approved && !old(ResultReadFails(queryId)) && !old(ServedFromCache(queryId)) ==>
        var info := old(pendingQueries)[queryId];
        var outcome := executor.run(|old(executor.executed)|, info.sql);
        var stores := IsSelectQuery(info.sql) && CacheOn();
        outcome.Success? && !(IsSelectQuery(info.sql) && old(WriteFails())) ==>
          r == Executed(queryId, info.question, info.sql, outcome.value, |outcome.value|, false, None)
          && pendingQueries == old(pendingQueries) - {queryId}
          && (cache != null ==>
                cache.sets == old(cache.sets) + (if stores then 1 else 0)
                && cache.sqlResult == if stores then
                  old(cache.sqlResult)[cache.resultKey(info.sql) := Cached(ResultCacheValue(Some(outcome.value), Some(|outcome.value|), Some(info.sql), Some(now)), sqlResultTtl)]
                else old(cache.sqlResult))
      // The entry is kept exactly when the query failed to run or to be cached, or its cache lookup raised.
      ensures queryId in pendingQueries <==> r.ExecFailed? || (approved && old(ResultReadFails(queryId)))
    {
      if queryId !in pendingQueries {
        return NotFound;
      }
      var info := pendingQueries[queryId];
      if !approved {
        pendingQueries := pendingQueries - {queryId};
        return Rejected(queryId);
      }
      r := ExecuteApproved(queryId, now);
    }

    /** The approved branch of `execute_approved_query`: the result cache first, then the database. */
    method ExecuteApproved(queryId: string, now: string) returns (r: Resolution)
      modifies this, executor, cache
      requires Valid() && queryId in pendingQueries
      ensures Valid()
      ensures isTrained == old(isTrained) && schemaContext == old(schemaContext)
      ensures cache != null ==> cache.sqlGen == old(cache.sqlGen)
      ensures cache != null ==>
        cache.gets == old(cache.gets) + if IsSelectQuery(old(pendingQueries)[queryId].sql) && CacheOn() then 1 else 0
      // The result cache lookup raises: the error propagates and the entry stays.
      ensures old(ResultReadFails(queryId)) ==>
        r == Raised(old(cache.getError(cache.gets)).value) && pendingQueries == old(pendingQueries)
        && executor.executed == old(executor.executed) && cache.sqlResult == old(cache.sqlResult) && cache.sets == old(cache.sets)
      // A cached result set answers: the entry is dropped and nothing is executed.
      ensures !old(ResultReadFails(queryId)) && old(ServedFromCache(queryId)) ==>
        var info := old(pendingQueries)[queryId];
        var entry := old(cache.sqlResult[cache.resultKey(info.sql)].value);
        pendingQueries == old(pendingQueries) - {queryId}
        && executor.executed == old(executor.executed) && cache.sqlResult == old(cache.sqlResult) && cache.sets == old(cache.sets)
        && r == if entry.resultCount.None? then Raised(ResultCountKeyError)
                else Executed(queryId, info.question, info.sql, entry.results.value, entry.resultCount.value, true, entry.executedAt)
      // Otherwise the statement is executed once.
      ensures !old(ResultReadFails(queryId)) && !old(ServedFromCache(queryId)) ==>
        executor.executed == old(executor.executed) + [old(pendingQueries)[queryId].sql]
      // ... and fails: the error is reported and the entry stays.
      ensures !old(ResultReadFails(queryId)) && !old(ServedFromCache(queryId)) ==>
        var outcome := executor.run(|old(executor.executed)|, old(pendingQueries)[queryId].sql);
        outcome.Failure? ==>
          r == ExecFailed(queryId, ExecuteFailedPrefix + outcome.error) && pendingQueries == old(pendingQueries)
          && (cache != null ==> cache.sqlResult == old(cache.sqlResult) && cache.sets == old(cache.sets))
      // ... and succeeds, but storing a SELECT's rows raises: reported like a failure, the entry stays.
      ensures !old(ResultReadFails(queryId)) && !old(ServedFromCache(queryId)) ==>
        var info := old(pendingQueries)[queryId];
        var outcome := executor.run(|old(executor.executed)|, info.sql);
        outcome.Success? && IsSelectQuery(info.sql) && old(WriteFails()) ==>
          r == ExecFailed(queryId, old(cache.setError(cache.sets)).value) && pendingQueries == old(pendingQueries)
          && cache.sqlResult == old(cache.sqlResult) && cache.sets == old(cache.sets) + 1
      // ... and succeeds: a SELECT's rows are cached (when the cache is on) and the entry is dropped.
      ensures !old(ResultReadFails(queryId)) && !old(ServedFromCache(queryId)) ==>
        var info := old(pendingQueries)[queryId];
        var outcome := executor.run(|old(executor.executed)|, info.sql);
        var stores := IsSelectQuery(info.sql) && CacheOn();
        outcome.Success? && !(IsSelectQuery(info.sql) && old(WriteFails())) ==>
          r == Executed(queryId, info.question, info.sql, outcome.value, |outcome.value|, false, None)
          && pendingQueries == old(pendingQueries) - {queryId}
          && (cache != null ==>
                cache.sets == old(cache.sets) + (if stores then 1 else 0)
                && cache.sqlResult == if stores then
                  old(cache.sqlResult)[cache.resultKey(info.sql) := Cached(ResultCacheValue(Some(outcome.value), Some(|outcome.value|), Some(info.sql), Some(now)), sqlResultTtl)]
                else old(cache.sqlResult))
      ensures queryId in pendingQueries <==> r.ExecFailed? || old(ResultReadFails(queryId))
    {
      var info := pendingQueries[queryId];
      var sql := info.sql;
      var isSelect := IsSelectQuery(sql);
      if isSelect && cache != null && cache.enabled {
        var cached := cache.GetSqlResult(cache.resultKey(sql));
        if cached.Failure? {
          return Raised(cached.error);
        }
        if cached.value.Some? && cached.value.value.results.Some? {
          var entry := cached.value.value;
          pendingQueries := pendingQueries - {queryId};
          if entry.resultCount.None? {
            return Raised(ResultCountKeyError);
          }
          return Executed(queryId, info.question, sql, entry.results.value, entry.resultCount.value, true, entry.executedAt);
        }
      }
      assert WriteFails() == old(WriteFails());
      r := ExecuteAndStore(queryId, now);
    }

    /**
     * The tail of `execute_approved_query` once no cached result set answered: run the statement,
     * cache a SELECT's rows, drop the entry; any error raised on the way is reported with the id.
     */
    method ExecuteAndStore(queryId: string, now: string) returns (r: Resolution)
      modifies this, executor, cache
      requires Valid() && queryId in pendingQueries
      ensures Valid()
      ensures isTrained == old(isTrained) && schemaContext == old(schemaContext)
      ensures cache != null ==> cache.sqlGen == old(cache.sqlGen) && cache.gets == old(cache.gets)
      ensures executor.executed == old(executor.executed) + [old(pendingQueries)[queryId].sql]
      // The statement fails: the error is reported and the entry stays.
      ensures
        var outcome := executor.run(|old(executor.executed)|, old(pendingQueries)[queryId].sql);
        outcome.Failure? ==>
          r == ExecFailed(queryId, ExecuteFailedPrefix + outcome.error) && pendingQueries == old(pendingQueries)
          && (cache != null ==> cache.sqlResult == old(cache.sqlResult) && cache.sets == old(cache.sets))
      // It succeeds, but storing a SELECT's rows raises: reported like a failure, the entry stays.
      ensures
        var info := old(pendingQueries)[queryId];
        var outcome := executor.run(|old(executor.executed)|, info.sql);
        outcome.Success? && IsSelectQuery(info.sql) && old(WriteFails()) ==>
          r == ExecFailed(queryId, old(cache.setError(cache.sets)).value) && pendingQueries == old(pendingQueries)
          && cache.sqlResult == old(cache.sqlResult) && cache.sets == old(cache.sets) + 1
      // It succeeds: a SELECT's rows are cached (when the cache is on) and the entry is dropped.
      ensures
        var info := old(pendingQueries)[queryId];
        var outcome := executor.run(|old(executor.executed)|, info.sql);
        var stores := IsSelectQuery(info.sql) && CacheOn();
        outcome.Success? && !(IsSelectQuery(info.sql) && old(WriteFails())) ==>
          r == Executed(queryId, info.question, info.sql, outcome.value, |outcome.value|, false, None)
          && pendingQueries == old(pendingQueries) - {queryId}
          && (cache != null ==>
                cache.sets == old(cache.sets) + (if stores then 1 else 0)
                && cache.sqlResult == if stores then
                  old(cache.sqlResult)[cache.resultKey(info.sql) := Cached(ResultCacheValue(Some(outcome.value), Some(|outcome.value|), Some(info.sql), Some(now)), sqlResultTtl)]
                else old(cache.sqlResult))
      ensures queryId in pendingQueries <==> r.ExecFailed?
    {
      var info := pendingQueries[queryId];
      var results := ExecuteSqlAsync(executor, info.sql);
      if results.Failure? {
        return ExecFailed(queryId, results.error);
      }
      assert WriteFails() == old(WriteFails()) && pendingQueries == old(pendingQueries);
      var err := StoreRows(info.sql, results.value, now);
      if err.Some? {
        return ExecFailed(queryId, err.value);
      }
      pendingQueries := pendingQueries - {queryId};
      r := Executed(queryId, info.question, info.sql, results.value, |results.value|, false, None);
    }

    /** Cache a SELECT's rows when the cache is on; the error a raising `set` reports. */
    method StoreRows(sql: string, rows: seq<Row>, now: string) returns (err: Option<string>)
      modifies cache
      ensures err == if IsSelectQuery(sql) && old(WriteFails()) then old(cache.setError(cache.sets)) else None
      ensures cache != null ==> cache.sqlGen == old(cache.sqlGen) && cache.gets == old(cache.gets)
      ensures cache != null ==>
        var stores := IsSelectQuery(sql) && CacheOn();
        cache.sets == old(cache.sets) + (if stores then 1 else 0)
        && cache.sqlResult == if stores && err.None? then
             old(cache.sqlResult)[cache.resultKey(sql) := Cached(ResultCacheValue(Some(rows), Some(|rows|), Some(sql), Some(now)), sqlResultTtl)]
           else old(cache.sqlResult)
    {
      err := None;
      if IsSelectQuery(sql) && cache != null && cache.enabled {
        err := cache.SetSqlResult(cache.resultKey(sql), ResultCacheValue(Some(rows), Some(|rows|), Some(sql), Some(now)), sqlResultTtl);
      }
    }

    /** `get_pending_queries`: every pending entry exactly once, with its id. */
    method GetPendingQueries() returns (r: seq<PendingView>)
      requires Valid()
      ensures |r| == |pendingQueries.Keys|
      ensures forall j :: 0 <= j < |r| ==> r[j].queryId in pendingQueries && r[j].info == pendingQueries[r[j].queryId]
      ensures forall j :: 0 <= j < |r| ==> r[j].info.status == PendingStatus
      ensures forall id :: id in pendingQueries ==> exists j :: 0 <= j < |r| && r[j].queryId == id
      ensures forall j, l :: 0 <= j < l < |r| ==> r[j].queryId != r[l].queryId
    {
      r := [];
      var remaining := pendingQueries.Keys;
      while remaining != {}
        invariant remaining <= pendingQueries.Keys
        invariant |r| == |pendingQueries.Keys| - |remaining|
        invariant forall j :: 0 <= j < |r| ==>
          r[j].queryId in pendingQueries && r[j].queryId !in remaining && r[j].info == pendingQueries[r[j].queryId]
        invariant forall id :: id in pendingQueries && id !in remaining ==> exists j :: 0 <= j < |r| && r[j].queryId == id
        invariant forall j, l :: 0 <= j < l < |r| ==> r[j].queryId != r[l].queryId
        decreases |remaining|
      {
        var id :| id in remaining;
        ghost var prev := r;
        r := r + [PendingView(id, pendingQueries[id])];
        assert forall j :: 0 <= j < |prev| ==> r[j] == prev[j];
        assert r[|r| - 1].queryId == id;
        remaining := remaining - {id};
      }
    }
  }
}

=== FILE: storage_backend.dfy ===
/**
 * The document cache that every storage backend provides: per document (keyed by the SHA-256 of
 * its content) a folder holding the original file, `chunks.json`, `embeddings.npy` and
 * `metadata.json`. The store is an abstract value; each operation of the interface is a function
 * on it, and a backend is correct when its methods move its store exactly as these functions say.
 */
module StorageBackend {
  import opened Wrappers

  /** A JSON value, as `json.dump`/`json.load` round-trip it. */
  datatype Json =
    | JNull
    | JBool(b: bool)
    | JNum(n: int)
    | JStr(s: string)
    | JArr(items: seq<Json>)
    | JObj(fields: map<string, Json>)

  /** An embedding matrix: one row of floats per chunk. */
  type Matrix = seq<seq<real>>

  /** The width of every embedding row. */
  const EmbeddingWidth := 1536

  const ChunksFile := "chunks.json"
  const EmbeddingsFile := "embeddings.npy"
  const MetadataFile := "metadata.json"

  /** The name under which the original upload is kept. */
  function DocumentFile(ext: string): string {
    "document." + ext
  }

  /**
   * One document's folder. The original file is keyed by its extension (`document.{ext}`), so
   * uploads with different extensions sit side by side; the three derived artifacts are optional.
   */
  datatype Folder = Folder(
    originals: map<string, seq<bv8>>,
    chunks: Option<seq<Json>>,
    embeddings: Option<Matrix>,
    metadata: Option<Json>)

  const EmptyFolder := Folder(map[], None, None, None)

  /** The whole cache: one folder per document id. */
  type Store = map<string, Folder>

  function FolderOf(store: Store, id: string): Folder {
    if id in store then store[id] else EmptyFolder
  }

  /** `exists`: chunks, embeddings and metadata are all present; the original file is not required. */
  predicate Exists(store: Store, id: string) {
    id in store && store[id].chunks.Some? && store[id].embeddings.Some? && store[id].metadata.Some?
  }

  /** `save_document`: creates the folder if needed and (over)writes `document.{ext}`. */
  function SaveDocument(store: Store, id: string, ext: string, content: seq<bv8>): Store {
    var f := FolderOf(store, id);
    store[id := f.(originals := f.originals[ext := content])]
  }

  /** `save_chunks`: creates the folder if needed and (over)writes `chunks.json`. */
  function SaveChunks(store: Store, id: string, chunks: seq<Json>): Store {
    store[id := FolderOf(store, id).(chunks := Some(chunks))]
  }

  /** `save_embeddings`: creates the folder if needed and (over)writes `embeddings.npy`. */
  function SaveEmbeddings(store: Store, id: string, embeddings: Matrix): Store {
    store[id := FolderOf(store, id).(embeddings := Some(embeddings))]
  }

  /** `save_metadata`: creates the folder if needed and (over)writes `metadata.json`. */
  function SaveMetadata(store: Store, id: string, metadata: Json): Store {
    store[id := FolderOf(store, id).(metadata := Some(metadata))]
  }

  /** The path the not-found messages print: the cache directory, the document folder, the file. */
  function FilePath(root: string, id: string, name: string): string {
    root + "/" + id + "/" + name
  }

  /** `load_chunks`: the saved chunks, or a not-found error naming the file. */
  function LoadChunks(store: Store, root: string, id: string): (r: Result<seq<Json>>)
    ensures r.Success? <==> id in store && store[id].chunks.Some?
    ensures r.Failure? ==> r.error == "Chunks file not found: " + FilePath(root, id, ChunksFile)
  {
    var f := FolderOf(store, id);
    if f.chunks.Some? then Success(f.chunks.value)
    else Failure("Chunks file not found: " + FilePath(root, id, ChunksFile))
  }

  /** `load_embeddings`: the saved matrix, or a not-found error naming the file. */
  function LoadEmbeddings(store: Store, root: string, id: string): (r: Result<Matrix>)
    ensures r.Success? <==> id in store && store[id].embeddings.Some?
    ensures r.Failure? ==> r.error == "Embeddings file not found: " + FilePath(root, id, EmbeddingsFile)
  {
    var f := FolderOf(store, id);
    if f.embeddings.Some? then Success(f.embeddings.value)
    else Failure("Embeddings file not found: " + FilePath(root, id, EmbeddingsFile))
  }

  /** `load_metadata`: the saved metadata, or a not-found error naming the file. */
  function LoadMetadata(store: Store, root: string, id: string): (r: Result<Json>)
    ensures r.Success? <==> id in store && store[id].metadata.Some?
    ensures r.Failure? ==> r.error == "Metadata file not found: " + FilePath(root, id, MetadataFile)
  {
    var f := FolderOf(store, id);
    if f.metadata.Some? then Success(f.metadata.value)
    else Failure("Metadata file not found: " + FilePath(root, id, MetadataFile))
  }

  /** `delete`: the whole folder goes; deleting an absent document changes nothing. */
  function Delete(store: Store, id: string): (r: Store)
    ensures id !in r && !Exists(r, id)
    ensures forall other :: other != id ==> (other in r <==> other in store)
    ensures forall other :: other != id && other in store ==> r[other] == store[other]
  {
    store - {id}
  }

  /** How many files a folder holds. */
  function FileCount(f: Folder): nat {
    |f.originals.Keys|
    + (if f.chunks.Some? then 1 else 0)
    + (if f.embeddings.Some? then 1 else 0)
    + (if f.metadata.Some? then 1 else 0)
  }

  /** The number of files over all folders (the order of summation is immaterial, see `TotalFilesRemove`). */
  ghost function TotalFiles(store: Store): nat
    decreases |store|
  {
    if |store| == 0 then 0
    else
      var id :| id in store;
      assert |store - {id}| == |store| - 1;
      FileCount(store[id]) + TotalFiles(store - {id})
  }

  /** Any one folder can be counted first. */
  lemma {:induction false} TotalFilesRemove(store: Store, id: string)
    requires id in store
    ensures TotalFiles(store) == FileCount(store[id]) + TotalFiles(store - {id})
    decreases |store|, 1
  {
    var x :| x in store && TotalFiles(store) == FileCount(store[x]) + TotalFiles(store - {x});
    if x != id {
      SwapFirst(store, x, id);
    }
  }

  /** Counting folder `x` first or folder `id` first gives the same total. */
  lemma {:induction false} SwapFirst(store: Store, x: string, id: string)
    requires x in store && id in store && x != id
    ensures FileCount(store[x]) + TotalFiles(store - {x}) == FileCount(store[id]) + TotalFiles(store - {id})
    decreases |store|, 0
  {
    assert |store - {x}| == |store| - 1;
    assert |store - {id}| == |store| - 1;
    TotalFilesRemove(store - {x}, id);
    TotalFilesRemove(store - {id}, x);
    assert store - {x} - {id} == store - {id} - {x};
  }

  /** The statistics every backend reports; the byte total is not modelled. */
  datatype Stats = Stats(backend: string, cacheDir: string, totalDocuments: nat, totalFiles: nat)

  /** `get_stats` of the local backend: documents are folders, files are the files inside them. */
  ghost function LocalStats(store: Store, root: string): Stats {
    Stats("local", root, |store|, TotalFiles(store))
  }

  /** The embeddings fit the chunks: one row of width 1536 per chunk. */
  predicate EmbeddingsFit(chunks: seq<Json>, embeddings: Matrix) {
    |embeddings| == |chunks| && forall i :: 0 <= i < |embeddings| ==> |embeddings[i]| == EmbeddingWidth
  }

  // ---------------------------------------------------------------------------------------------
  // The contract of the interface, proved of the model
  // ---------------------------------------------------------------------------------------------

  /** Loading an artifact returns exactly what was last saved under it. */
  lemma LoadAfterSave(store: Store, root: string, id: string, chunks: seq<Json>, embeddings: Matrix, metadata: Json)
    ensures LoadChunks(SaveChunks(store, id, chunks), root, id) == Success(chunks)
    ensures LoadEmbeddings(SaveEmbeddings(store, id, embeddings), root, id) == Success(embeddings)
    ensures LoadMetadata(SaveMetadata(store, id, metadata), root, id) == Success(metadata)
  {
  }

  /** A save of one artifact leaves every other artifact of every document as it was. */
  lemma SaveChunksFrame(store: Store, root: string, id: string, chunks: seq<Json>, other: string)
    ensures LoadEmbeddings(SaveChunks(store, id, chunks), root, other) == LoadEmbeddings(store, root, other)
    ensures LoadMetadata(SaveChunks(store, id, chunks), root, other) == LoadMetadata(store, root, other)
    ensures other != id ==> LoadChunks(SaveChunks(store, id, chunks), root, other) == LoadChunks(store, root, other)
    ensures FolderOf(SaveChunks(store, id, chunks), id).originals == FolderOf(store, id).originals
    ensures other != id ==> FolderOf(SaveChunks(store, id, chunks), other) == FolderOf(store, other)
  {
  }

  lemma SaveEmbeddingsFrame(store: Store, root: string, id: string, embeddings: Matrix, other: string)
    ensures LoadChunks(SaveEmbeddings(store, id, embeddings), root, other) == LoadChunks(store, root, other)
    ensures LoadMetadata(SaveEmbeddings(store, id, embeddings), root, other) == LoadMetadata(store, root, other)
    ensures other != id ==> LoadEmbeddings(SaveEmbeddings(store, id, embeddings), root, other) == LoadEmbeddings(store, root, other)
    ensures FolderOf(SaveEmbeddings(store, id, embeddings), id).originals == FolderOf(store, id).originals
    ensures other != id ==> FolderOf(SaveEmbeddings(store, id, embeddings), other) == FolderOf(store, other)
  {
  }

  lemma SaveMetadataFrame(store: Store, root: string, id: string, metadata: Json, other: string)
    ensures LoadChunks(SaveMetadata(store, id, metadata), root, other) == LoadChunks(store, root, other)
    ensures LoadEmbeddings(SaveMetadata(store, id, metadata), root, other) == LoadEmbeddings(store, root, other)
    ensures other != id ==> LoadMetadata(SaveMetadata(store, id, metadata), root, other) == LoadMetadata(store, root, other)
    ensures FolderOf(SaveMetadata(store, id, metadata), id).originals == FolderOf(store, id).originals
    ensures other != id ==> FolderOf(SaveMetadata(store, id, metadata), other) == FolderOf(store, other)
  {
  }

  /** Saving the original file touches none of the three artifacts and does not affect `exists`. */
  lemma SaveDocumentFrame(store: Store, root: string, id: string, ext: string, content: seq<bv8>, other: string)
    ensures LoadChunks(SaveDocument(store, id, ext, content), root, other) == LoadChunks(store, root, other)
    ensures LoadEmbeddings(SaveDocument(store, id, ext, content), root, other) == LoadEmbeddings(store, root, other)
    ensures LoadMetadata(SaveDocument(store, id, ext, content), root, other) == LoadMetadata(store, root, other)
    ensures Exists(SaveDocument(store, id, ext, content), other) == Exists(store, other)
    ensures FolderOf(SaveDocument(store, id, ext, content), id).originals[ext] == content
  {
  }

  /** `exists` holds exactly when all three artifacts load. */
  lemma ExistsIffAllLoad(store: Store, root: string, id: string)
    ensures Exists(store, id) <==>
      LoadChunks(store, root, id).Success? && LoadEmbeddings(store, root, id).Success? && LoadMetadata(store, root, id).Success?
  {
  }

  /** All or nothing: the three saves make a document exist; chunks alone do not. */
  lemma AllOrNothing(store: Store, id: string, chunks: seq<Json>, embeddings: Matrix, metadata: Json)
    requires id !in store
    ensures !Exists(SaveChunks(store, id, chunks), id)
    ensures !Exists(SaveEmbeddings(SaveChunks(store, id, chunks), id, embeddings), id)
    ensures Exists(SaveMetadata(SaveEmbeddings(SaveChunks(store, id, chunks), id, embeddings), id, metadata), id)
  {
  }

  /** After a delete the document does not exist and none of its artifacts loads; an absent document is left alone. */
  lemma DeleteRemovesAll(store: Store, root: string, id: string)
    ensures !Exists(Delete(store, id), id)
    ensures LoadChunks(Delete(store, id), root, id).Failure?
    ensures LoadEmbeddings(Delete(store, id), root, id).Failure?
    ensures LoadMetadata(Delete(store, id), root, id).Failure?
    ensures id !in store ==> Delete(store, id) == store
  {
  }

  /** A fresh cache holding one document with its three artifacts reports one document and three files. */
  lemma StatsAfterThreeSaves(root: string, id: string, chunks: seq<Json>, embeddings: Matrix, metadata: Json)
    ensures LocalStats(SaveMetadata(SaveEmbeddings(SaveChunks(map[], id, chunks), id, embeddings), id, metadata), root)
      == Stats("local", root, 1, 3)
  {
    var s := SaveMetadata(SaveEmbeddings(SaveChunks(map[], id, chunks), id, embeddings), id, metadata);
    assert s == map[id := Folder(map[], Some(chunks), Some(embeddings), Some(metadata))];
    TotalFilesRemove(s, id);
    assert s - {id} == map[];
  }

  /** Saving two artifacts whose shapes fit leaves a cache whose loaded embeddings fit the loaded chunks. */
  lemma SavedShapesFit(store: Store, root: string, id: string, chunks: seq<Json>, embeddings: Matrix)
    requires EmbeddingsFit(chunks, embeddings)
    ensures var s := SaveEmbeddings(SaveChunks(store, id, chunks), id, embeddings);
      LoadChunks(s, root, id).Success? && LoadEmbeddings(s, root, id).Success?
      && EmbeddingsFit(LoadChunks(s, root, id).value, LoadEmbeddings(s, root, id).value)
  {
  }
}

=== FILE: text.dfy ===
/**
 * The string operations of Python's `str` that the services use: slicing (`s[:n]`, `s[n:]`),
 * `sep.join(xs)`, `s.split(sep)`, `s.strip()`, `s.upper()`, `s.lower()`, `s.startswith(p)`,
 * `sub in s`, and the decimal rendering of a non-negative integer in an f-string.
 */
module Text {

  /** Python `s[:n]` for n >= 0. */
  function Take<T>(s: seq<T>, n: nat): (r: seq<T>)
    ensures |r| == if |s| <= n then |s| else n
    ensures r == s[..|r|]
  {
    if |s| <= n then s else s[..n]
  }

  /** Python `s[n:]` for n >= 0. */
  function Drop<T>(s: seq<T>, n: nat): (r: seq<T>)
    ensures |r| == if |s| <= n then 0 else |s| - n
    ensures s == Take(s, n) + r
  {
    if |s| <= n then [] else s[n..]
  }

  /** The concatenation of a list of lists, in order. */
  function Flatten<T>(gs: seq<seq<T>>): seq<T>
    decreases |gs|
  {
    if gs == [] then [] else Flatten(gs[..|gs| - 1]) + gs[|gs| - 1]
  }

  /** Flattening can also be read from the front: the first list, then the rest flattened. */
  lemma {:induction false} FlattenCons<T>(g: seq<T>, gs: seq<seq<T>>)
    ensures Flatten([g] + gs) == g + Flatten(gs)
    decreases |gs|
  {
    if gs != [] {
      var init := gs[..|gs| - 1];
      FlattenCons(g, init);
      assert ([g] + gs)[..|gs|] == [g] + init;
    }
  }

  /** Python `sep.join(xs)`. */
  function Join(sep: string, xs: seq<string>): string
    decreases |xs|
  {
    if |xs| == 0 then ""
    else if |xs| == 1 then xs[0]
    else xs[0] + sep + Join(sep, xs[1..])
  }

  /** Joining one more element appends the separator and that element. */
  lemma {:induction false} JoinSnoc(sep: string, xs: seq<string>, x: string)
    requires xs != []
    ensures Join(sep, xs + [x]) == Join(sep, xs) + sep + x
    decreases |xs|
  {
    if |xs| == 1 {
      assert xs + [x] == [xs[0], x];
      assert (xs + [x])[1..] == [x];
    } else {
      assert (xs + [x])[1..] == xs[1..] + [x];
      JoinSnoc(sep, xs[1..], x);
    }
  }

  /** `s.startswith(p)`. */
  predicate StartsWith(s: string, p: string) {
    |p| <= |s| && s[..|p|] == p
  }

  /** `sub in s`. */
  predicate Contains(s: string, sub: string)
    decreases |s|
  {
    StartsWith(s, sub) || (|s| > 0 && Contains(s[1..], sub))
  }

  /** The characters for which Python's `str.isspace()` holds; `strip()` removes exactly these. */
  predicate IsSpace(c: char) {
    var k := c as int;
    (0x09 <= k <= 0x0D) || (0x1C <= k <= 0x20) || k == 0x85 || k == 0xA0 || k == 0x1680
    || (0x2000 <= k <= 0x200A) || k == 0x2028 || k == 0x2029 || k == 0x202F || k == 0x205F
    || k == 0x3000
  }

  function TrimLeft(s: string): (r: string)
    ensures |r| <= |s| && r == s[|s| - |r|..]
    ensures r == [] || !IsSpace(r[0])
    decreases |s|
  {
    if |s| > 0 && IsSpace(s[0]) then TrimLeft(s[1..]) else s
  }

  function TrimRight(s: string): (r: string)
    ensures |r| <= |s| && r == s[..|r|]
    ensures r == [] || !IsSpace(r[|r| - 1])
    decreases |s|
  {
    if |s| > 0 && IsSpace(s[|s| - 1]) then TrimRight(s[..|s| - 1]) else s
  }

  /** `s.strip()`: no leading and no trailing white space is left, and only white space was removed. */
  function Strip(s: string): (r: string)
    ensures |r| <= |s|
    ensures r == [] || (!IsSpace(r[0]) && !IsSpace(r[|r| - 1]))
  {
    TrimRight(TrimLeft(s))
  }

  /** White space in front of a string does not change what `strip()` returns. */
  lemma StripIgnoresLeadingSpace(c: char, s: string)
    requires IsSpace(c)
    ensures Strip([c] + s) == Strip(s)
  {
    assert ([c] + s)[1..] == s;
  }

  /** `upper()` on one character; only the ASCII letters are mapped. */
  function UpperChar(c: char): char {
    if 'a' <= c <= 'z' then (c as int - 32) as char else c
  }

  /** `lower()` on one character; only the ASCII letters are mapped. */
  function LowerChar(c: char): char {
    if 'A' <= c <= 'Z' then (c as int + 32) as char else c
  }

  function Upper(s: string): (r: string)
    ensures |r| == |s| && forall i :: 0 <= i < |s| ==> r[i] == UpperChar(s[i])
  {
    seq(|s|, i requires 0 <= i < |s| => UpperChar(s[i]))
  }

  function Lower(s: string): (r: string)
    ensures |r| == |s| && forall i :: 0 <= i < |s| ==> r[i] == LowerChar(s[i])
  {
    seq(|s|, i requires 0 <= i < |s| => LowerChar(s[i]))
  }

  /** Python `s.split(sep)` for a non-empty separator: the pieces between non-overlapping occurrences, left to right. */
  function Split(s: string, sep: string): (r: seq<string>)
    requires |sep| > 0
    ensures |r| >= 1
  {
    SplitFrom(s, sep, "")
  }

  /** `cur` is the piece collected so far; `s` is what is left to scan. */
  function SplitFrom(s: string, sep: string, cur: string): (r: seq<string>)
    requires |sep| > 0
    ensures |r| >= 1
    decreases |s|
  {
    if StartsWith(s, sep) then [cur] + SplitFrom(s[|sep|..], sep, "")
    else if s == [] then [cur]
    else SplitFrom(s[1..], sep, cur + [s[0]])
  }

  /** Splitting and joining back with the same separator gives the original string. */
  lemma {:induction false} SplitJoin(s: string, sep: string)
    requires |sep| > 0
    ensures Join(sep, Split(s, sep)) == s
  {
    SplitFromJoin(s, sep, "");
  }

  lemma {:induction false} SplitFromJoin(s: string, sep: string, cur: string)
    requires |sep| > 0
    ensures Join(sep, SplitFrom(s, sep, cur)) == cur + s
    decreases |s|
  {
    if StartsWith(s, sep) {
      var rest := SplitFrom(s[|sep|..], sep, "");
      SplitFromJoin(s[|sep|..], sep, "");
      assert ([cur] + rest)[1..] == rest;
      assert s == sep + s[|sep|..];
    } else if s == [] {
    } else {
      SplitFromJoin(s[1..], sep, cur + [s[0]]);
      assert cur + [s[0]] + s[1..] == cur + s;
    }
  }

  /** `c * n` for a one-character string. */
  function Repeat(c: char, n: nat): (r: string)
    ensures |r| == n && forall i :: 0 <= i < n ==> r[i] == c
  {
    seq(n, _ => c)
  }

  function DigitChar(d: nat): char
    requires d < 10
  {
    ('0' as int + d) as char
  }

  /** The decimal rendering of `n`, as `str(n)` / `f"{n}"` give it. */
  function NatToString(n: nat): (r: string)
    ensures |r| >= 1
    ensures forall i :: 0 <= i < |r| ==> '0' <= r[i] <= '9'
    decreases n
  {
    if n < 10 then [DigitChar(n)] else NatToString(n / 10) + [DigitChar(n % 10)]
  }

  /** Distinct numbers have distinct renderings. */
  lemma {:induction false} NatToStringInjective(a: nat, b: nat)
    requires NatToString(a) == NatToString(b)
    ensures a == b
    decreases a
  {
    var ra, rb := NatToString(a), NatToString(b);
    if a < 10 && b < 10 {
      assert ra[0] == rb[0];
    } else if a >= 10 && b >= 10 {
      assert ra[|ra| - 1] == rb[|rb| - 1];
      assert DigitChar(a % 10) == DigitChar(b % 10);
      assert ra[..|ra| - 1] == NatToString(a / 10);
      assert rb[..|rb| - 1] == NatToString(b / 10);
      NatToStringInjective(a / 10, b / 10);
    }
  }
}

=== FILE: vector_service.dfy ===
/**
 * The vector index side of ingestion and retrieval: every chunk becomes one vector whose id is
 * `{filename}_{chunk_index}` and whose metadata carries a truncated copy of the chunk; vectors are
 * upserted in consecutive batches of 100; query matches are reshaped into the chunk entries the
 * answer pipeline consumes. The index service itself is an abstract, fallible object.
 */
module VectorService {
  import opened Wrappers
  import opened Text

  /** Vectors per upsert call. */
  const BatchSize := 100
  /** Characters of chunk text kept in a vector's metadata. */
  const MetadataTextLimit := 1000
  /** Dimensions of the query vector echoed back by a search. */
  const QueryPreviewLength := 5

  const AddFailedPrefix := "Failed to add documents to Pinecone: "
  const SearchFailedPrefix := "Failed to search Pinecone: "

  /**
   * A chunk dictionary as the ingestion code hands it over: text, index and token count are
   * always there; offsets and structural context may be missing (read with defaults).
   */
  datatype ChunkRecord = ChunkRecord(
    text: string,
    chunkIndex: nat,
    tokenCount: nat,
    startChar: Option<int>,
    endChar: Option<int>,
    headings: Option<seq<string>>,
    pageNumbers: Option<seq<int>>)

  /** Metadata stored next to a vector; headings and page numbers are kept as lists. */
  datatype VectorMetadata = VectorMetadata(
    filename: string,
    chunkIndex: nat,
    tokenCount: nat,
    text: string,
    startChar: int,
    endChar: int,
    headings: seq<string>,
    pageNumbers: seq<int>,
    hasContext: bool)

  /** An upserted vector: `(id, values, metadata)`. */
  datatype Vector = Vector(id: string, values: seq<real>, metadata: VectorMetadata)

  /** The vector id of a chunk. */
  function VectorId(filename: string, chunkIndex: nat): (r: string)
    ensures |r| > |filename| + 1 && r[..|filename|] == filename && r[|filename|] == '_'
  {
    filename + "_" + NatToString(chunkIndex)
  }

  /**
   * An id names exactly one (filename, chunk index) pair: the index is written in digits, so the
   * last `_` of the id is the one that separates the two.
   */
  lemma VectorIdInjective(f1: string, i1: nat, f2: string, i2: nat)
    requires VectorId(f1, i1) == VectorId(f2, i2)
    ensures f1 == f2 && i1 == i2
  {
    var id, d1, d2 := VectorId(f1, i1), NatToString(i1), NatToString(i2);
    assert id == f1 + "_" + d1 && id == f2 + "_" + d2;
    if |f1| != |f2| {
      assert false;
    }
    assert f1 == id[..|f1|] == f2;
    assert d1 == id[|f1| + 1..] == d2;
    NatToStringInjective(i1, i2);
  }

  /** The vector built for one chunk of `filename` and its embedding. */
  function ToVector(c: ChunkRecord, embedding: seq<real>, filename: string): (r: Vector)
    ensures r.id == VectorId(filename, c.chunkIndex) && r.values == embedding
    ensures r.metadata.filename == filename && r.metadata.chunkIndex == c.chunkIndex
    ensures |r.metadata.text| <= MetadataTextLimit && StartsWith(c.text, r.metadata.text)
    ensures |c.text| <= MetadataTextLimit ==> r.metadata.text == c.text
    ensures |r.metadata.text| == if |c.text| <= MetadataTextLimit then |c.text| else MetadataTextLimit
    ensures r.metadata.tokenCount == c.tokenCount
    ensures r.metadata.startChar == c.startChar.GetOr(0) && r.metadata.endChar == c.endChar.GetOr(0)
    ensures r.metadata.headings == c.headings.GetOr([]) && r.metadata.pageNumbers == c.pageNumbers.GetOr([])
    ensures r.metadata.hasContext <==> c.headings.Some? && c.headings.value != []
  {
    var headings := c.headings.GetOr([]);
    Vector(
      VectorId(filename, c.chunkIndex),
      embedding,
      VectorMetadata(
        filename, c.chunkIndex, c.tokenCount, Take(c.text, MetadataTextLimit),
        c.startChar.GetOr(0), c.endChar.GetOr(0),
        headings, c.pageNumbers.GetOr([]), |headings| > 0))
  }

  /** The vectors of a document: one per (chunk, embedding) pair, in order. */
  function Vectors(chunks: seq<ChunkRecord>, embeddings: seq<seq<real>>, filename: string): (r: seq<Vector>)
    requires |chunks| == |embeddings|
    ensures |r| == |chunks|
  {
    seq(|chunks|, k requires 0 <= k < |chunks| => ToVector(chunks[k], embeddings[k], filename))
  }

  /** The projection loop of `add_documents`. */
  method PrepareVectors(chunks: seq<ChunkRecord>, embeddings: seq<seq<real>>, filename: string)
    returns (vectors: seq<Vector>)
    requires |chunks| == |embeddings|
    ensures vectors == Vectors(chunks, embeddings, filename)
  {
    vectors := [];
    var i := 0;
    while i < |chunks|
      invariant 0 <= i <= |chunks| && |vectors| == i
      invariant forall k :: 0 <= k < i ==> vectors[k] == ToVector(chunks[k], embeddings[k], filename)
    {
      vectors := vectors + [ToVector(chunks[i], embeddings[i], filename)];
      i := i + 1;
    }
  }

  /** Chunks with distinct indices get distinct vector ids, so one upsert never overwrites itself. */
  lemma DistinctIndicesDistinctIds(chunks: seq<ChunkRecord>, embeddings: seq<seq<real>>, filename: string)
    requires |chunks| == |embeddings|
    requires forall j, k :: 0 <= j < k < |chunks| ==> chunks[j].chunkIndex != chunks[k].chunkIndex
    ensures forall j, k :: 0 <= j < k < |chunks| ==>
      Vectors(chunks, embeddings, filename)[j].id != Vectors(chunks, embeddings, filename)[k].id
  {
    var vs := Vectors(chunks, embeddings, filename);
    forall j, k | 0 <= j < k < |chunks|
      ensures vs[j].id != vs[k].id
    {
      if vs[j].id == vs[k].id {
        VectorIdInjective(filename, chunks[j].chunkIndex, filename, chunks[k].chunkIndex);
      }
    }
  }

  /** The upsert batches: consecutive slices of `vs`, `BatchSize` at a time. */
  function Batches(vs: seq<Vector>): seq<seq<Vector>>
    decreases |vs|
  {
    if |vs| == 0 then [] else [Take(vs, BatchSize)] + Batches(Drop(vs, BatchSize))
  }

  /**
   * There are ceil(|vs| / 100) batches; none is empty or longer than 100, and only the last may
   * be shorter.
   */
  lemma {:induction false} BatchSizes(vs: seq<Vector>)
    ensures |Batches(vs)| == (|vs| + BatchSize - 1) / BatchSize
    ensures forall j :: 0 <= j < |Batches(vs)| ==> 1 <= |Batches(vs)[j]| <= BatchSize
    ensures forall j :: 0 <= j < |Batches(vs)| - 1 ==> |Batches(vs)[j]| == BatchSize
    decreases |vs|
  {
    if |vs| > 0 {
      BatchSizes(Drop(vs, BatchSize));
    }
  }

  /** Sending every batch sends every vector once, in order. */
  lemma {:induction false} FlattenBatches(vs: seq<Vector>)
    ensures Flatten(Batches(vs)) == vs
    decreases |vs|
  {
    if |vs| > 0 {
      var bs := Batches(vs);
      assert bs == [Take(vs, BatchSize)] + Batches(Drop(vs, BatchSize));
      FlattenBatches(Drop(vs, BatchSize));
      FlattenCons(Take(vs, BatchSize), Batches(Drop(vs, BatchSize)));
    }
  }

  /** One call to the index's upsert endpoint. */
  datatype UpsertCall = UpsertCall(namespace: string, vectors: seq<Vector>)

  /** The upsert calls that send `bs`, all to the same namespace. */
  function Calls(namespace: string, bs: seq<seq<Vector>>): (r: seq<UpsertCall>)
    ensures |r| == |bs|
    ensures forall j :: 0 <= j < |r| ==> r[j].namespace == namespace && r[j].vectors == bs[j]
  {
    seq(|bs|, j requires 0 <= j < |bs| => UpsertCall(namespace, bs[j]))
  }

  /** How a run of upserts ends: the number of calls made and the first error raised, if any. */
  datatype Outcome = Outcome(calls: nat, error: Option<string>)

  /**
   * Sending `bs` in order when the `n`-th upsert call of the index fails with `upsertError(n)`:
   * the run stops at the first failing call.
   */
  function UpsertOutcome(upsertError: nat -> Option<string>, n: nat, bs: seq<seq<Vector>>): (r: Outcome)
    ensures r.calls <= |bs|
    ensures r.error.None? ==> r.calls == |bs|
    decreases |bs|
  {
    if bs == [] then Outcome(0, None)
    else if upsertError(n).Some? then Outcome(1, upsertError(n))
    else
      var rest := UpsertOutcome(upsertError, n + 1, bs[1..]);
      Outcome(rest.calls + 1, rest.error)
  }

  /**
   * A run succeeds iff no call fails; a failed run made its calls up to and including the first
   * failing one, and reports that call's error.
   */
  lemma {:induction false} UpsertOutcomeFirstError(upsertError: nat -> Option<string>, n: nat, bs: seq<seq<Vector>>)
    ensures var r := UpsertOutcome(upsertError, n, bs);
      (r.error.None? <==> forall j :: n <= j < n + |bs| ==> upsertError(j).None?) &&
      (r.error.Some? ==>
        1 <= r.calls && r.error == upsertError(n + r.calls - 1) &&
        forall j :: n <= j < n + r.calls - 1 ==> upsertError(j).None?)
    decreases |bs|
  {
    if bs != [] && upsertError(n).None? {
      UpsertOutcomeFirstError(upsertError, n + 1, bs[1..]);
    }
  }

  /** Batches that all went through do not change where the run stops. */
  lemma {:induction false} UpsertOutcomeSkip(upsertError: nat -> Option<string>, n: nat, done: seq<seq<Vector>>, rest: seq<seq<Vector>>)
    requires forall j :: n <= j < n + |done| ==> upsertError(j).None?
    ensures UpsertOutcome(upsertError, n, done + rest).calls == |done| + UpsertOutcome(upsertError, n + |done|, rest).calls
    ensures UpsertOutcome(upsertError, n, done + rest).error == UpsertOutcome(upsertError, n + |done|, rest).error
    decreases |done|
  {
    if done != [] {
      assert upsertError(n).None?;
      assert (done + rest)[1..] == done[1..] + rest;
      UpsertOutcomeSkip(upsertError, n + 1, done[1..], rest);
    } else {
      assert done + rest == rest;
    }
  }

  /** The next batch of the loop is the slice that starts where the previous one ended. */
  lemma BatchesStep(vs: seq<Vector>, i: nat, end: nat)
    requires i < |vs| && end == if i + BatchSize <= |vs| then i + BatchSize else |vs|
    ensures Batches(vs[i..]) == [vs[i..end]] + Batches(vs[end..])
  {
    assert Take(vs[i..], BatchSize) == vs[i..end];
    assert Drop(vs[i..], BatchSize) == vs[end..];
  }

  /** One more batch moves from what is left to send to what was sent. */
  lemma AdvanceStep(vs: seq<Vector>, i: nat, end: nat, sent: seq<seq<Vector>>, all: seq<seq<Vector>>)
    requires i < |vs| && end == if i + BatchSize <= |vs| then i + BatchSize else |vs|
    requires sent + Batches(vs[i..]) == all
    ensures all == sent + [vs[i..end]] + Batches(vs[end..])
    ensures (sent + [vs[i..end]]) + Batches(vs[end..]) == all
  {
    BatchesStep(vs, i, end);
    assert sent + ([vs[i..end]] + Batches(vs[end..])) == sent + [vs[i..end]] + Batches(vs[end..]);
  }

  lemma CallsSnoc(namespace: string, bs: seq<seq<Vector>>, b: seq<Vector>)
    ensures Calls(namespace, bs + [b]) == Calls(namespace, bs) + [UpsertCall(namespace, b)]
  {
  }

  /** When the call after the batches `sent` fails, the run stops right there. */
  lemma StopsAtFailure(upsertError: nat -> Option<string>, n: nat, sent: seq<seq<Vector>>, b: seq<Vector>, rest: seq<seq<Vector>>)
    requires forall j :: n <= j < n + |sent| ==> upsertError(j).None?
    requires upsertError(n + |sent|).Some?
    ensures var o := UpsertOutcome(upsertError, n, sent + [b] + rest);
      o == Outcome(|sent| + 1, upsertError(n + |sent|)) && (sent + [b] + rest)[..o.calls] == sent + [b]
  {
    assert sent + [b] + rest == sent + ([b] + rest);
    UpsertOutcomeSkip(upsertError, n, sent, [b] + rest);
  }

  /** One match returned by a query; metadata keys written by other code may be missing. */
  datatype MatchMetadata = MatchMetadata(
    text: Option<string>,
    filename: Option<string>,
    chunkIndex: Option<int>,
    tokenCount: Option<int>)

  datatype Match = Match(id: string, score: real, metadata: MatchMetadata)

  /** The match the index returns for a vector stored by `add_documents`. */
  function StoredMatch(v: Vector, score: real): Match {
    Match(v.id, score, MatchMetadata(Some(v.metadata.text), Some(v.metadata.filename),
                                     Some(v.metadata.chunkIndex), Some(v.metadata.tokenCount)))
  }

  /** One call to the index's query endpoint. */
  datatype QueryCall = QueryCall(
    vector: seq<real>,
    topK: int,
    includeMetadata: bool,
    namespace: string,
    filter: Option<map<string, string>>)

  /** The metadata of a search hit: only these three keys survive the reshaping. */
  datatype HitMetadata = HitMetadata(filename: string, chunkIndex: int, tokenCount: int)

  /** One entry of the `chunks` list of a search result. */
  datatype Hit = Hit(id: string, score: real, text: string, metadata: HitMetadata)

  datatype SearchResult = SearchResult(queryPreview: seq<real>, chunks: seq<Hit>, totalFound: nat)

  /** A match reshaped into a search hit; missing keys read as `''` or 0. */
  function ToHit(m: Match): (h: Hit)
    ensures h.id == m.id && h.score == m.score
  {
    Hit(m.id, m.score, m.metadata.text.GetOr(""),
        HitMetadata(m.metadata.filename.GetOr(""), m.metadata.chunkIndex.GetOr(0), m.metadata.tokenCount.GetOr(0)))
  }

  /** The result of a search that returned `matches`. */
  function Shaped(query: seq<real>, matches: seq<Match>): (r: SearchResult)
    ensures r.totalFound == |r.chunks| == |matches|
    ensures forall k :: 0 <= k < |matches| ==> r.chunks[k].id == matches[k].id && r.chunks[k].score == matches[k].score
    ensures |r.queryPreview| <= QueryPreviewLength && r.queryPreview <= query
    ensures |r.queryPreview| == if |query| <= QueryPreviewLength then |query| else QueryPreviewLength
  {
    SearchResult(Take(query, QueryPreviewLength),
                 seq(|matches|, k requires 0 <= k < |matches| => ToHit(matches[k])),
                 |matches|)
  }

  /**
   * A chunk stored by `add_documents` comes back from a search under its id, with its filename,
   * chunk index, token count and the stored prefix of its text.
   */
  lemma SearchRecoversStoredChunk(c: ChunkRecord, embedding: seq<real>, filename: string, score: real)
    ensures var h := ToHit(StoredMatch(ToVector(c, embedding, filename), score));
      h.id == VectorId(filename, c.chunkIndex) && h.score == score &&
      h.metadata == HitMetadata(filename, c.chunkIndex, c.tokenCount) &&
      StartsWith(c.text, h.text) && |h.text| <= MetadataTextLimit
  {
  }

  /** The index service: upserts and queries are recorded; their outcomes are fixed in advance. */
  class VectorIndex {
    /** The error raised by the `n`-th upsert call, if any. */
    const upsertError: nat -> Option<string>
    /** The answer to the `n`-th query. */
    const answer: (nat, QueryCall) -> Result<seq<Match>>
    var upserts: seq<UpsertCall>
    var queries: seq<QueryCall>

    constructor(upsertError: nat -> Option<string>, answer: (nat, QueryCall) -> Result<seq<Match>>)
      ensures this.upsertError == upsertError && this.answer == answer
      ensures upserts == [] && queries == []
    {
      this.upsertError := upsertError;
      this.answer := answer;
      upserts := [];
      queries := [];
    }

    method Upsert(namespace: string, vectors: seq<Vector>) returns (err: Option<string>)
      modifies this
      ensures upserts == old(upserts) + [UpsertCall(namespace, vectors)] && queries == old(queries)
      ensures err == upsertError(|old(upserts)|)
    {
      err := upsertError(|upserts|);
      upserts := upserts + [UpsertCall(namespace, vectors)];
    }

    method Query(q: QueryCall) returns (r: Result<seq<Match>>)
      modifies this
      ensures queries == old(queries) + [q] && upserts == old(upserts)
      ensures r == answer(|old(queries)|, q)
    {
      r := answer(|queries|, q);
      queries := queries + [q];
    }
  }

  /** The message of the length check, which runs before anything is sent. */
  function MismatchMessage(chunkCount: nat, embeddingCount: nat): string {
    "Mismatch: " + NatToString(chunkCount) + " chunks but " + NatToString(embeddingCount) + " embeddings"
  }

  class VectorStore {
    const index: VectorIndex

    constructor(index: VectorIndex)
      ensures this.index == index
    {
      this.index := index;
    }

    /**
     * `add_documents`: on a length mismatch nothing is sent; otherwise the batches of the document's
     * vectors are sent in order until one fails, and that failure is reported.
     */
    method AddDocuments(chunks: seq<ChunkRecord>, embeddings: seq<seq<real>>, filename: string, namespace: string)
      returns (r: Result<()>)
      modifies index
      ensures index.queries == old(index.queries)
      ensures |chunks| != |embeddings| ==>
        r == Failure(MismatchMessage(|chunks|, |embeddings|)) && index.upserts == old(index.upserts)
      ensures |chunks| == |embeddings| ==>
        var bs := Batches(Vectors(chunks, embeddings, filename));
        var o := UpsertOutcome(index.upsertError, |old(index.upserts)|, bs);
        index.upserts == old(index.upserts) + Calls(namespace, bs[..o.calls]) &&
        r == if o.error.None? then Success(()) else Failure(AddFailedPrefix + o.error.value)
    {
      if |chunks| != |embeddings| {
        return Failure(MismatchMessage(|chunks|, |embeddings|));
      }
      var vectors := PrepareVectors(chunks, embeddings, filename);
      r := SendBatches(vectors, namespace);
    }

    /** The batch loop of `add_documents`: slices of `BatchSize` sent in order until one fails. */
    method SendBatches(vectors: seq<Vector>, namespace: string) returns (r: Result<()>)
      modifies index
      ensures index.queries == old(index.queries)
      ensures var o := UpsertOutcome(index.upsertError, |old(index.upserts)|, Batches(vectors));
        index.upserts == old(index.upserts) + Calls(namespace, Batches(vectors)[..o.calls]) &&
        r == if o.error.None? then Success(()) else Failure(AddFailedPrefix + o.error.value)
    {
      ghost var all := Batches(vectors);
      ghost var n0 := |index.upserts|;
      ghost var sent: seq<seq<Vector>> := [];
      var i := 0;
      while i < |vectors|
        invariant 0 <= i <= |vectors|
        invariant sent + Batches(vectors[i..]) == all
        invariant index.upserts == old(index.upserts) + Calls(namespace, sent)
        invariant index.queries == old(index.queries)
        invariant forall j :: n0 <= j < n0 + |sent| ==> index.upsertError(j).None?
        decreases |vectors| - i
      {
        var end := if i + BatchSize <= |vectors| then i + BatchSize else |vectors|;
        var batch := vectors[i..end];
        AdvanceStep(vectors, i, end, sent, all);
        var err := index.Upsert(namespace, batch);
        CallsSnoc(namespace, sent, batch);
        if err.Some? {
          StopsAtFailure(index.upsertError, n0, sent, batch, Batches(vectors[end..]));
          return Failure(AddFailedPrefix + err.value);
        }
        sent := sent + [batch];
        i := end;
      }
      assert sent == all;
      UpsertOutcomeFirstError(index.upsertError, n0, all);
      assert all[..|all|] == all;
      r := Success(());
    }

    /** `search`: one query; its matches reshaped in order, or the failure reported. */
    method Search(queryEmbedding: seq<real>, topK: int, namespace: string, filter: Option<map<string, string>>)
      returns (r: Result<SearchResult>)
      modifies index
      ensures index.upserts == old(index.upserts)
      ensures index.queries == old(index.queries) + [QueryCall(queryEmbedding, topK, true, namespace, filter)]
      ensures var a := index.answer(|old(index.queries)|, QueryCall(queryEmbedding, topK, true, namespace, filter));
        r == if a.Failure? then Failure(SearchFailedPrefix + a.error) else Success(Shaped(queryEmbedding, a.value))
    {
      var a := index.Query(QueryCall(queryEmbedding, topK, true, namespace, filter));
      if a.Failure? {
        return Failure(SearchFailedPrefix + a.error);
      }
      var matches := a.value;
      var hits: seq<Hit> := [];
      var i := 0;
      while i < |matches|
        invariant 0 <= i <= |matches| && |hits| == i
        invariant forall k :: 0 <= k < i ==> hits[k] == ToHit(matches[k])
      {
        hits := hits + [ToHit(matches[i])];
        i := i + 1;
      }
      assert hits == Shaped(queryEmbedding, matches).chunks;
      r := Success(SearchResult(Take(queryEmbedding, QueryPreviewLength), hits, |hits|));
    }
  }
}

=== FILE: wrappers.dfy ===
/** Option and Result, the two wrappers used for absent values and raised errors. */
module Wrappers {

  /** A value that may be absent (Python `None`, or a missing dictionary key). */
  datatype Option<+T> = None | Some(value: T) {
    function GetOr(default: T): T {
      match this
      case Some(v) => v
      case None => default
    }
  }

  /** The outcome of an operation that may raise: the raised error is kept as its message. */
  datatype Result<+T> = Success(value: T) | Failure(error: string)
}
